=== FILE: README.md ===
# TenderFlow tender assembly, in Dafny

TenderFlow builds a tender document. It takes a master PDF, followed by
the documents of a lot (a bid security, a cover letter, a DRAP
registration and a technical quotation), and merges them into one PDF.
The repository holds six variants of the same logic:

- **Flask/api/tender.py**, a FastAPI service (module `FlaskApiTender`).
  - It checks the master, writes each lot file into a per-request
    directory, and dispatches on the lowercased extension: PDFs pass
    through, images and Word files are converted, and anything else
    fails the request with 400.
  - On success it writes `Tender.pdf` and removes the converted
    intermediates.
  - It maps exceptions to HTTP errors.
- **app.py**, a Flask view (module `App`). It rejects the whole request
  on one disallowed lot file, checks the required documents by
  case-insensitive substring, and merges into `/tmp/Generated_Tender.pdf`.
  An image that cannot be converted is skipped.
- **api/tender.py**, a FastAPI view (module `ApiTender`). It drops
  disallowed lot files without a word, uses the same substring check,
  and merges with a case-sensitive image test.
- **tkinter/tender.py and tender.py**, desktop wizards with identical
  handlers (module `TenderWizard`). They create or select a folder,
  upload the master, choose a lot folder, and generate
  `Tender_<lot folder>.pdf` in the new folder.
- **inst.py**, an older wizard (module `InstWizard`). It assigns paths
  before the actions they stand for have succeeded, and it reads the
  master from its copy in the new folder.

Shared modules:

- `Text`: Python string helpers.
- `Paths`: `os.path.join` on POSIX and where a joined path leads.
- `Formats`: the three extension tests and the dispatch classes.
- `Required`: `REQUIRED_FILES` and the two missing-document checks.
- `Assembly`: merge items and the external converters.
- `Workspace`: the intermediate and temp-directory cleanups.
- `Desktop`: gathering, merging and naming, shared by the three desktop
  apps.

The disk is a set of paths. PIL, pandoc and PyPDF2 are opaque predicates
in a `Converters` record: whether an image decodes, whether a Word file
converts, whether a PDF is readable. The record also says whether a path
can be opened for writing. The same record supplies the name of
the k-th temporary PDF. A merged PDF is the sequence of items appended to
the merger. Each item is `PassThrough(path)` or
`Converted(source, kind, pdf)`.

## Model

| member | source | states |
|---|---|---|
| Text.Strip | tkinter/tender.py:109-113 | `strip()` is the slice of the input that starts at its first non-whitespace character and is followed only by whitespace; it has no whitespace at either end, and is empty exactly when the input is all whitespace |
| Text.AfterLast | api/tender.py:15 | the last `split('.')` piece has no dot, is a suffix of the name, and is preceded by the dot when shorter than the name |
| Text.AfterLastUnique | app.py:21 | those three properties determine the piece `rsplit('.', 1)[1]` returns |
| Text.SuffixAfterLast | Flask/api/tender.py:450 | a name ends with `.e` exactly when it has a dot and `e` is the text after the last dot |
| Text.LowerAfterLastDot | Flask/api/tender.py:450 | lowercasing and taking the last dot-segment commute |
| Seqs.Filter | api/tender.py:40-46 | a value is kept exactly when it occurs in the input and passes the test, and what is kept is a subsequence of the input, in its order |
| Seqs.FilterConcat | api/tender.py:40-46 | filtering a concatenation filters each part and concatenates the results |
| Seqs.FilterCount | api/tender.py:40-46 | an element passing the test is kept as many times as it occurs; any other is dropped |
| Seqs.TakeWhile | app.py:50-57 | the loop that stops at the first failing element keeps a prefix whose elements all pass, and the next element fails |
| Seqs.TakeWhileUpTo | app.py:50-57 | that prefix ends exactly at the first element that fails the test |
| Paths.JoinSpec | Flask/api/tender.py:445 | the joined path ends with the name; an absolute name replaces the directory, and any other name extends it |
| Paths.JoinPlainNameConfined | Flask/api/tender.py:445 | a plain entry name joined to a directory leads one level below it |
| Paths.JoinDotDotEscapes | Flask/api/tender.py:445 | a name starting with `../` leads to a sibling of the directory, outside it |
| Paths.JoinAbsoluteEscapes | Flask/api/tender.py:431 | an absolute file name drops the request directory altogether: the path leads exactly where the name does, and lies inside the directory only when the name itself points below it |
| Paths.Basename | tkinter/tender.py:155 | `basename` has no `/`, is a suffix of the path, and when shorter than the path is preceded by a `/`: it is everything after the last slash |
| Formats.ExtensionSpec | Flask/api/tender.py:450 | the extension is empty without a dot; otherwise it is the lowercased last dot-segment, which the lowercased name ends with |
| Formats.ExtensionSuffix | Flask/api/tender.py:450 | a non-empty dot-free `e` is the extension exactly when the lowercased name ends with `.e` |
| Formats.ClassifyAppend | Flask/api/tender.py:450-455 | appending `.e` with `e` in lower case makes `e` the extension, whatever comes before it |
| Formats.ClassifySpec | Flask/api/tender.py:33-34 | the dispatch's PDF, image and Word classes agree, in both directions, with the lowercased suffix tests `is_image` and `is_word` |
| Formats.ImageSuffixes | Flask/api/tender.py:455 | `is_image` holds exactly when the extension is `jpg`, `jpeg` or `png` |
| Formats.KindOf | Flask/api/tender.py:453-467 | an allowed extension is dispatched as a PDF or an image; a Word file's extension is not among the allowed ones |
| Formats.AllowedVariants | app.py:20-21 | app.py's test is "has a dot and its extension is allowed"; api/tender.py's accepts that plus dotless names that are an allowed extension |
| Formats.DotlessNameAcceptedOnlyByApi | api/tender.py:14-15 | a bare `pdf` passes api/tender.py's test and fails app.py's |
| Formats.AllowedKinds | app.py:10 | a name app.py allows is a PDF or an image; a Word name is allowed by neither web view |
| Formats.EmptyNotAllowed | app.py:10 | the empty extension is not allowed |
| Required.RequiredNamesArePlain | app.py:13 | every required name is a plain relative entry name ending in `.jpg` or `.pdf` |
| Required.MissingBySubstring | app.py:60 | a required name is missing exactly when no path mentions it ignoring case; the missing names keep list order |
| Required.SuffixMatches | app.py:60 | a path ending with a name mentions it, whatever the case |
| Required.UploadedNameSatisfies | api/tender.py:48 | any uploaded name that ends with a required name satisfies the substring check |
| Required.MissingInFolder | tkinter/tender.py:173 | a required name is missing exactly when `folder/name` does not exist; the missing names keep list order |
| Required.ExactCheckIsStricter | tender.py:140 | a folder holding only `Old DRAP.pdf` misses `DRAP.pdf` by the exact check, though the substring check accepts it |
| Assembly.IntermediatesSpec | Flask/api/tender.py:456-463 | a path is tracked exactly when some converted item was written to it |
| Assembly.Survivors | app.py:71-74 | the merged paths are exactly those that are not undecodable images, in order, each as often as it was given |
| Workspace.CleanIntermediates | Flask/api/tender.py:474-480 | after the sweep, a path is gone exactly when it was tracked and its unlink succeeded; each failure is logged, and the loop goes on |
| Workspace.CleanupTempDir | Flask/api/tender.py:37-53 | every entry is tried whatever fails; what remains is exactly the entries whose unlink failed; the directory goes only when empty; nothing is raised |
| FlaskApiTender.NonEmpty | Flask/api/tender.py:440-443 | the kept lot files are exactly those with a filename, in submission order, each as often as it was submitted |
| FlaskApiTender.ToResponse | Flask/api/tender.py:489-494 | an `HTTPException` keeps its status and detail; any other exception becomes a 500 with the internal-error prefix |
| FlaskApiTender.ConvertWord | Flask/api/tender.py:66-77 | conversion succeeds exactly when pandoc does; on failure the temporary PDF is unlinked before the 500 naming the document, and a failing unlink escapes instead; no other path changes |
| FlaskApiTender.DispatchSpec | Flask/api/tender.py:452-467 | a dispatch succeeds exactly when its branch handles the file; it appends one item of the file's kind and tracks a conversion's PDF; the only 400 names an unsupported file |
| FlaskApiTender.StepSpec | Flask/api/tender.py:439-467 | a nameless file changes nothing; any other completes exactly when its path can be written and it is processable; the merge list only grows |
| FlaskApiTender.StepErrors | Flask/api/tender.py:445-467 | a path that cannot be opened for writing raises a non-HTTP error naming it; a writable unsupported name raises 400 naming that file; any other HTTP error is a 500; a completed step keeps the disk and its new intermediates |
| FlaskApiTender.RunKeeps | Flask/api/tender.py:439-467 | the loop keeps the tracked list equal to the converted items, only appends, and raises only a 400 naming a lot file or a 500 |
| FlaskApiTender.RunKeepsWritten | Flask/api/tender.py:456-463 | a completed loop leaves every tracked intermediate on disk |
| FlaskApiTender.RunCompletes | Flask/api/tender.py:439-467 | the loop completes exactly when every named lot file can be written and is processable |
| FlaskApiTender.StepAppends | Flask/api/tender.py:445-464 | a completed iteration appends the written path of a named file, with the file's class |
| FlaskApiTender.RunSources | Flask/api/tender.py:439-464 | a completed loop appends the written paths of the named files, in submission order |
| FlaskApiTender.RunKinds | Flask/api/tender.py:450-464 | with their classes, in the same order |
| FlaskApiTender.ProcessSpec | Flask/api/tender.py:430-467 | the `try` body completes exactly when the master's path can be written and the master is readable, and every named lot file is processable; its only 400 names a lot file |
| FlaskApiTender.ProcessItems | Flask/api/tender.py:431-464 | a completed body holds the master first, as a PDF, then the named lot files in order, each with its class |
| FlaskApiTender.MasterGate | Flask/api/tender.py:421-422 | the master is rejected with 400, and nothing is written, exactly when its filename is empty or its media type is not `application/pdf` |
| FlaskApiTender.UploadServedIff | Flask/api/tender.py:421-487 | the merged file is served exactly when the master passes the gate, its path can be written and it is readable, and every named lot file can be written and is processable |
| FlaskApiTender.UploadOrder | Flask/api/tender.py:436-471 | a served file is `tmp/Tender.pdf`, made of the master and then the named lot files in order: PDFs passed through, images and Word files converted |
| FlaskApiTender.UploadStatuses | Flask/api/tender.py:421-494 | every error response is a 400 or a 500 |
| FlaskApiTender.UploadCleansIntermediates | Flask/api/tender.py:474-480 | after a served request an intermediate stays on disk exactly when its unlink failed |
| FlaskApiTender.UploadWritesOutput | Flask/api/tender.py:469-471 | a served request leaves the merged file on disk, unless its path is also an intermediate the sweep unlinked |
| FlaskApiTender.RunSkipsNameless | Flask/api/tender.py:440-443 | the loop gives the same result on the named files alone |
| FlaskApiTender.UploadSkipsNameless | Flask/api/tender.py:440-443 | nameless lot files change neither the response nor the disk |
| FlaskApiTender.RunStopsAtUnsupported | Flask/api/tender.py:445-467 | the first unsupported file reached raises the 400 naming it when its path can be written, and otherwise the write error naming that path |
| FlaskApiTender.UploadRejectsUnsupported | Flask/api/tender.py:445-494 | such a file fails the whole request with that 400, or with a 500 naming its path when that path cannot be written, and no merged file is written |
| FlaskApiTender.UploadLeaksAfterConversion | Flask/api/tender.py:474-494 | a converted image followed by an unsupported file leaves the image's intermediate on disk, though its unlink would succeed |
| FlaskApiTender.UploadLeaksOnFailure | Flask/api/tender.py:474-494 | the same, for `scan.png` followed by `notes` |
| FlaskApiTender.UploadReclaimingSpec | Flask/api/tender.py:474-480 | the corrected handler answers as the original does, and leaves no removable intermediate whatever the outcome |
| App.LotPathsAccepts | app.py:50-57 | the lot loop stores every file exactly when all of them pass `allowed_file` |
| App.LotPathsStored | app.py:52-54 | the stored paths are the lot files under `/tmp`, in upload order |
| App.MergeLotsOk | app.py:70-76 | the merge completes exactly when every non-image path is readable |
| App.MergeLotsStops | app.py:70-76 | a failing merge names a non-image path that is unreadable |
| App.MergeLotsSources | app.py:70-76 | a completed merge appends exactly the paths that survive conversion, in order |
| App.MergeLotsKinds | app.py:71-74 | an item is converted exactly when its path is an image by the lowercased test |
| App.MasterGate | app.py:41-46 | the master error is flashed exactly when the master is absent or fails `allowed_file` |
| App.LotGate | app.py:50-57 | past the master, the lot error is flashed exactly when some lot file fails `allowed_file` |
| App.MissingGate | app.py:60-63 | with all files accepted, the missing required names are flashed, comma-separated, before any merge |
| App.RejectedLotLeavesFiles | app.py:42-57 | a request rejected at the j-th lot file has still stored the master and the lot files before it |
| App.FlashesDiffer | app.py:45-85 | the master, lot, missing-file and merge-error flashes are told apart |
| App.GenerateFlash | app.py:60-86 | the stages after the two gates never flash the master or the lot error |
| App.OutputPathFixed | app.py:78 | the output path is `/tmp/Generated_Tender.pdf`, whatever the request |
| App.IndexRendered | app.py:41-86 | the page is rendered exactly when both gates pass, nothing is missing, the master is readable and so is every non-image lot path |
| App.IndexMerged | app.py:66-82 | a rendered page offers `/tmp/Generated_Tender.pdf`, holding the master and then the surviving lot paths in upload order |
| ApiTender.ApiMasterGate | api/tender.py:33-34 | the invalid-master error is returned exactly when `allowed_file` fails for the master |
| ApiTender.StoredLotsSpec | api/tender.py:40-46 | no lot file stores nothing, and one more lot file adds its path under the upload folder exactly when `allowed_file` accepts its name |
| ApiTender.ApiMissingGate | api/tender.py:48-50 | the missing required names are returned as an error before anything is merged |
| ApiTender.MergeWithOk | api/tender.py:54-59 | the merge completes exactly when every path can be merged under the image test |
| ApiTender.MergeWithStops | api/tender.py:54-59 | a failing merge names a path that cannot be merged |
| ApiTender.MergeWithItems | api/tender.py:54-59 | a completed merge appends every path in order, converting exactly those the image test selects |
| ApiTender.ApiOffered | api/tender.py:33-65 | the file is offered exactly when the master is accepted, nothing is missing, and the master and every stored path can be merged |
| ApiTender.AssembleItems | api/tender.py:52-59 | an offered file holds the master and then every stored path, each converted exactly when the image test holds |
| ApiTender.AssembleOutput | api/tender.py:61-65 | the output is `/tmp/Generated_Tender.pdf` |
| ApiTender.UpperJpg | api/tender.py:15 | a `.JPG` name passes `allowed_file` and is an image by `is_image`, but not by the merge's test |
| ApiTender.UpperCaseImageNotConverted | api/tender.py:55-59 | as written, a stored `.JPG` lot file is appended unconverted |
| ApiTender.SameIgnoringCaseSatisfies | api/tender.py:48 | a stored name equal to a required name up to case satisfies the check |
| ApiTender.UpperCaseRequiredSatisfied | api/tender.py:40-48 | `Bid Security.JPG` is stored and satisfies the required `Bid Security.jpg` |
| ApiTender.FixedConvertsImages | api/tender.py:55 | with the lowercased test, every stored image is converted whatever the case of its extension |
| Desktop.GatherSpec | tkinter/tender.py:197-203 | gathering succeeds exactly when no required document is missing, yielding every path in order; otherwise it stops at the first missing one |
| Desktop.DesktopMergeOk | tkinter/tender.py:209-218 | the merge completes exactly when it gets past every file: an image, or a readable PDF |
| Desktop.DesktopMergeStops | tkinter/tender.py:209-218 | a failing merge stops at a file it cannot take |
| Desktop.DesktopMergeAbort | tkinter/tender.py:214-218 | it calls that file unsupported exactly when it is neither an image nor a PDF |
| Desktop.DesktopMergeSources | tkinter/tender.py:209-218 | the merge appends, in order, the surviving files among those it got past before stopping; a completed merge appends exactly the files that survive conversion |
| Desktop.DesktopMergeKinds | tkinter/tender.py:182-215 | every item it appends, completed or not, is converted exactly when its file is an image |
| Desktop.RequiredPathsSupported | tkinter/tender.py:9 | every gathered required path is an image or a PDF |
| Desktop.RequiredMergeNeverUnsupported | tkinter/tender.py:216-218 | merging the required documents never stops as unsupported |
| Desktop.AssembleTenderSpec | tkinter/tender.py:205-218 | the tender completes exactly when the master is readable and every file can be taken; an unreadable master appends nothing; otherwise the master comes first, followed by the surviving files appended before any stop, and by all surviving files when it completes |
| Desktop.TenderNameOrdinary | tkinter/tender.py:220 | `Tender_<basename>.pdf` is always a plain entry name ending in `.pdf` |
| Desktop.TenderInNewFolder | tkinter/tender.py:220 | the tender lands directly inside the new folder |
| Desktop.ProduceMissing | tkinter/tender.py:197-202 | generation names the first missing required document and writes nothing |
| Desktop.ProduceWrites | tkinter/tender.py:182-224 | a tender is written exactly when nothing is missing and everything can be taken; it goes to `Tender_<lot>.pdf` in the new folder, holding the master and the surviving documents in list order, and the disk gains it and the temporary PDF of every converted image; a missing document or an unreadable master leaves the disk as it was |
| Desktop.ProduceLeftovers | tkinter/tender.py:182-218 | a generation that fails after the master leaves on disk the temporary PDFs of the images converted before the failure, and nothing else |
| Desktop.ProduceKeepsFirstConversion | tkinter/tender.py:182-218 | with the first required document decodable, its temporary PDF stays on disk whatever the outcome |
| Desktop.ProduceNeverUnsupported | tkinter/tender.py:216-218 | the unsupported-file box is never shown |
| Desktop.ProduceTitles | tkinter/tender.py:197-226 | generation ends with one of four boxes |
| TenderWizard.CreateFolderSpec | tkinter/tender.py:107-124 | the folder is created exactly when the stripped name is not blank, the path is new and `makedirs` succeeds; only then is it chosen and the master button enabled; otherwise nothing changes |
| TenderWizard.BlankNameRefused | tkinter/tender.py:109-111 | a whitespace-only name is refused |
| TenderWizard.FindMasterSpec | tkinter/tender.py:138-143 | a master is found exactly when some listed name mentions `master` and ends with `.pdf`, ignoring case, and it is the first such name |
| TenderWizard.SelectExistingFolderSpec | tkinter/tender.py:126-136 | the chosen folder is kept either way; the lot button is enabled exactly when a master is listed, and the first becomes the master |
| TenderWizard.UploadMasterSpec | tkinter/tender.py:145-161 | the master is set, to its copy in the new folder, exactly when there is a folder, a file was chosen and the copy succeeded |
| TenderWizard.UploadLotFolderSpec | tkinter/tender.py:163-180 | the box lists exactly the required names absent from the lot folder, in list order; generate is enabled only when none is absent |
| TenderWizard.GenerateSpec | tkinter/tender.py:182-226 | nothing happens without all three paths; a tender is written exactly when all three are set, no required document is missing, the master is readable and every document can be taken; a written tender holds the master and then the surviving required documents, in `Tender_<lot>.pdf` in the new folder, and the disk gains it and the converted images' temporary PDFs |
| TenderWizard.StartGood | tkinter/tender.py:48-103 | the start state, with no path chosen and every step button disabled, is good: each enabled button is backed by the path its handler needs |
| TenderWizard.CreateFolderKeepsGood | tender.py:74-91 | creating a folder keeps every enabled button backed by the path its handler needs |
| TenderWizard.SelectExistingFolderKeepsGood | tender.py:93-110 | so does selecting a folder |
| TenderWizard.UploadMasterKeepsGood | tender.py:112-128 | and uploading the master |
| TenderWizard.UploadLotFolderKeepsGood | tender.py:130-147 | and choosing the lot folder |
| TenderWizard.EnabledGeneratePassesGuard | tender.py:160-162 | in such a state an enabled generate button gets past the missing-input guard |
| InstWizard.CreateFolderAssignsFirst | inst.py:44-63 | any non-empty entry replaces the new folder, even when the folder exists or cannot be made; only success enables the master button |
| InstWizard.BlankEntryNamesWorkingDirectory | inst.py:45-52 | a whitespace-only entry is not refused and names the working directory itself |
| InstWizard.FailedCreateRedirectsUpload | inst.py:50-79 | after "already exists", the next master upload copies into that existing folder |
| InstWizard.CreateFolderFixedSpec | inst.py:50-61 | with the assignment after the checks, a failed creation changes nothing, and a new folder is always one just created |
| InstWizard.UploadMasterSetsFirst | inst.py:65-79 | the chosen file becomes the master even when the copy fails; only a successful copy enables the lot button |
| InstWizard.UploadLotFolderSpec | inst.py:81-104 | without a folder and a master nothing changes; otherwise the box lists exactly the absent required names, and generate is enabled only when all four are present |
| InstWizard.GenerateSpec | inst.py:106-165 | a tender needs all three paths and the master's copy in the new folder; it starts with that copy, then the surviving required documents, in `Tender_<lot>.pdf`, and the disk gains it and the converted images' temporary PDFs; a missing path, copy or document, or an unreadable copy, changes nothing |
| InstWizard.StartGood | inst.py:16-42 | the start state, with no path chosen and every step button disabled, is good |
| InstWizard.CreateFolderKeepsGood | inst.py:44-63 | creating a folder under a working directory, as written or fixed, keeps each enabled button backed by what its handler checks, and every set path non-empty |
| InstWizard.UploadMasterKeepsGood | inst.py:65-79 | so does uploading the master |
| InstWizard.UploadLotFolderKeepsGood | inst.py:81-104 | and choosing the lot folder |
| InstWizard.EnabledGeneratePassesGuard | inst.py:116-119 | in such a state an enabled generate button gets past the `not path` guard, since every set path is non-empty |

## Left out

- Text.Lower: only ASCII letters are lowercased, while Python's `str.lower()` also maps non-ASCII letters. Every literal the names are compared against is ASCII, but a few non-ASCII characters lowercase to ASCII ones (U+212A KELVIN SIGN becomes `k`, U+0130 becomes `i` plus a combining dot), so a file name using them can match a suffix or a required name in Python and not in the model.
- FlaskApiTender.ToResponse: a 500's detail is stated only to start with the internal-error prefix, because exception messages (`str(e)`) are not modelled.
- FlaskApiTender.Step: a failed `open(path, "wb")` is an exception whose message is the path alone; Python's `OSError` message puts an errno text before the quoted path.
- FlaskApiTender.ConvertWord: the 500 detail keeps the document's name but not pandoc's message appended after it.
- The other message texts of exceptions and message boxes are not modelled. Only the titles the boxes show are.
- PIL, pandoc and PyPDF2 are opaque predicates in `Converters`. `merger.write` is taken to succeed once every append has. A failing write, for a full disk say, is not modelled.
- `tempfile.mkdtemp` and `NamedTemporaryFile` names are parameters: the request directory, and `tempPdf(k)` for the k-th conversion.
- `os.listdir` and the dialog answers are parameters. So are whether `makedirs` or a copy succeeds, and the working directory.
- Framework plumbing is not modelled: Flask and FastAPI routing, `FileResponse` streaming, the download endpoints, and the 422 FastAPI returns when a form field is missing.
- The login page, cookie check and HTML templates are left out. They do not touch the tender.
- When `cleanup_temp_dir` runs, as a background task, is framework timing, so `Workspace.CleanupTempDir` is stated on its own and not sequenced after `Upload`.
- The tkinter widgets, tooltips and styling are left out. The wizard keeps only the three paths, the enabled flags and the title of the message box shown.
- The disk is a set of literal path strings. Paths are compared as strings: there is no aliasing (`.`, `..`, repeated or trailing slashes, symbolic links), so `os.path.exists` on `cwd/.` is false in the model unless that exact string was added. `os.makedirs` adds only the path it is given, not the missing parent directories it also creates for a name such as `a/b`.
- In the desktop apps, the per-image error box is folded into the skip (titled "Image Conversion Error" at inst.py:113, and "Conversion Error" at tender.py:156 and tkinter/tender.py:189): the image is dropped, and no temporary PDF is created for it. A failure in `image.save` after `NamedTemporaryFile` has created its file, which would leave an empty file behind, is not modelled: decoding is one opaque predicate.
- The Flask service's colour-mode step before saving an image (RGBA and palette images become RGB, Flask/api/tender.py:59-60) is inside the `decodes` predicate, because pixels are not modelled.
- App and ApiTender: `file.save` and `open(path, "wb")` are taken to succeed, and the temporary PDFs their image conversions create are not tracked on a disk. Only the Flask service models write failures of uploaded files, and only the Flask service and the desktop apps track the temporary PDFs of successful conversions.
- FlaskApiTender.Dispatch: a conversion is one opaque predicate (`decodes`, `converts`), so a failure after `NamedTemporaryFile` has created its file (a failing `img.save` at Flask/api/tender.py:61-62) adds nothing to the disk, though the source leaves that file behind. So does a failing `pdf_merger.append` of a converted PDF (Flask/api/tender.py:457, 462): the model counts that as a failed conversion, and for a Word file it answers with the Word-failure 500 where the source gives the internal-error 500 and leaves the converted PDF on disk, untracked.
- Flask/api/initTender.py only launches a process, sleeps and opens a browser. It is not part of this model.
- Concurrent requests sharing `/tmp` and the fixed output name are not modelled.
- Files written to `/tmp` by app.py and api/tender.py are never deleted by the code. The model records them (`App.Written`) but has no cleanup to state.
- Python truthiness of dialog answers is an `Option` plus a non-empty test (`TenderWizard.Given`).

## Findings

| source | as written | input that shows it | evidently intended | confidence | as-written member | corrected member |
|---|---|---|---|---|---|---|
| Flask/api/tender.py:474-494 | converted intermediates are unlinked only after a successful write; an exception skips the sweep | `scan.png`, then `notes` (no extension): 400, and the converted PDF of `scan.png` stays on disk | every tracked intermediate is removed whatever the outcome | not executed | FlaskApiTender.UploadLeaksOnFailure | FlaskApiTender.UploadReclaimingSpec |
| api/tender.py:55 | the merge's image test `path.endswith((".jpg", ".jpeg", ".png"))` is case-sensitive, while `allowed_file` lowercases | lot file `Bid Security.JPG`: stored, satisfies the required check, and is appended as a PDF without conversion | test the lowercased path, as app.py:71 does | not executed | ApiTender.UpperCaseImageNotConverted | ApiTender.FixedConvertsImages |
| inst.py:50-56 | `new_folder_path` is assigned before the existence check and `makedirs` | an entry naming an existing folder: "Folder Error", yet the next master upload copies into that folder | assign only after `makedirs` succeeds, as tkinter/tender.py:119-120 does | not executed | InstWizard.FailedCreateRedirectsUpload | InstWizard.CreateFolderFixedSpec |

=== FILE: api_tender.dfy ===
/** The FastAPI variant, api/tender.py: `upload_files`. Lot files whose
    name fails `allowed_file` are silently dropped rather than rejected, the
    missing-document error comes back as a form error, and the merge has no
    `try`: an image Pillow cannot open or a file PyPDF2 cannot read is an
    unhandled exception. Images are recognised by a case-sensitive suffix
    test, so an upper-case `.JPG` is appended as if it were a PDF. */
module ApiTender {
  import opened Wrappers
  import opened Seqs
  import opened Text
  import opened Paths
  import opened Formats
  import opened Required
  import opened Assembly

  /** What the handler answers: the form with an error, the form offering
      the merged file, or an exception raised while merging `path`. */
  datatype Reply = FormError(error: string) | Offered(filename: string, output: string, merged: seq<Item>) | Unhandled(path: string)

  const UploadFolder := "/tmp"
  const OutputName := "Generated_Tender.pdf"
  const MasterError := "Invalid master file"
  const MissingPrefix := "Missing: "

  /** The merge loop's image test as written: `path.endswith((".jpg",
      ".jpeg", ".png"))`, without lowercasing. */
  predicate RawImageName(p: string)
  {
    EndsWith(p, ".jpg") || EndsWith(p, ".jpeg") || EndsWith(p, ".png")
  }

  /** The lot paths stored: every lot file that passes `allowed_file`, in
      upload order, under the upload folder. */
  function StoredLots(lots: seq<string>): seq<string>
  {
    JoinAll(UploadFolder, Filter(lots, ApiAllowed))
  }

  /** The merge loop with the image test `isImage`: an image is converted
      (the k-th gets `conv.tempPdf(k)`) and anything else appended as it is.
      A failure raises, naming the path. */
  function MergeWith(conv: Converters, isImage: string -> bool, paths: seq<string>, k: nat): Result<seq<Item>, string>
  {
    if |paths| == 0 then Ok([])
    else
      var p := paths[0];
      if isImage(p) then
        if !conv.decodes(p) then Err(p)
        else
          match MergeWith(conv, isImage, paths[1..], k + 1)
          case Err(e) => Err(e)
          case Ok(rest) => Ok([Converted(p, Image, conv.tempPdf(k))] + rest)
      else if !conv.readable(p) then Err(p)
      else
        match MergeWith(conv, isImage, paths[1..], k)
        case Err(e) => Err(e)
        case Ok(rest) => Ok([PassThrough(p)] + rest)
  }

  /** Whether the merge can take `p` with the image test `isImage`. */
  predicate Mergeable(conv: Converters, isImage: string -> bool, p: string)
  {
    if isImage(p) then conv.decodes(p) else conv.readable(p)
  }

  /** The item appended for `p`. */
  function MergedItem(conv: Converters, isImage: string -> bool, p: string, k: nat): Item
  {
    if isImage(p) then Converted(p, Image, conv.tempPdf(k)) else PassThrough(p)
  }

  lemma MergeWithStep(conv: Converters, isImage: string -> bool, paths: seq<string>, k: nat)
    requires |paths| > 0
    ensures var rest := MergeWith(conv, isImage, paths[1..], if isImage(paths[0]) then k + 1 else k);
      Mergeable(conv, isImage, paths[0]) && rest.Ok? ==>
        MergeWith(conv, isImage, paths, k) == Ok([MergedItem(conv, isImage, paths[0], k)] + rest.value)
  {
  }

  lemma MergeWithHead(conv: Converters, isImage: string -> bool, paths: seq<string>, k: nat)
    requires |paths| > 0
    ensures var rest := MergeWith(conv, isImage, paths[1..], if isImage(paths[0]) then k + 1 else k);
      MergeWith(conv, isImage, paths, k).Ok? <==> Mergeable(conv, isImage, paths[0]) && rest.Ok?
  {
  }

  /** The merge completes exactly when every path is mergeable ... */
  lemma {:induction false} MergeWithOk(conv: Converters, isImage: string -> bool, paths: seq<string>, k: nat)
    ensures MergeWith(conv, isImage, paths, k).Ok? <==> forall i :: 0 <= i < |paths| ==> Mergeable(conv, isImage, paths[i])
    decreases |paths|
  {
    if |paths| > 0 {
      var rest := paths[1..];
      MergeWithHead(conv, isImage, paths, k);
      MergeWithOk(conv, isImage, rest, if isImage(paths[0]) then k + 1 else k);
      assert forall i :: 1 <= i < |paths| ==> paths[i] == rest[i - 1];
    }
  }

  /** ... and otherwise raises on one that is not. */
  lemma {:induction false} MergeWithStops(conv: Converters, isImage: string -> bool, paths: seq<string>, k: nat)
    ensures var r := MergeWith(conv, isImage, paths, k);
      r.Err? ==> r.error in paths && !Mergeable(conv, isImage, r.error)
    decreases |paths|
  {
    if |paths| > 0 {
      MergeWithStops(conv, isImage, paths[1..], if isImage(paths[0]) then k + 1 else k);
    }
  }

  /** A completed merge appends every path, in order, each converted exactly
      when the image test holds for it. */
  lemma {:induction false} MergeWithItems(conv: Converters, isImage: string -> bool, paths: seq<string>, k: nat)
    ensures var r := MergeWith(conv, isImage, paths, k);
      r.Ok? ==> Sources(r.value) == paths && ConvertsWhere(r.value, isImage)
    decreases |paths|
  {
    if |paths| > 0 && MergeWith(conv, isImage, paths, k).Ok? {
      var k' := if isImage(paths[0]) then k + 1 else k;
      var rest := MergeWith(conv, isImage, paths[1..], k');
      MergeWithHead(conv, isImage, paths, k);
      MergeWithStep(conv, isImage, paths, k);
      MergeWithItems(conv, isImage, paths[1..], k');
      var it := MergedItem(conv, isImage, paths[0], k);
      assert MergeWith(conv, isImage, paths, k).value == [it] + rest.value;
      SourcesCons(it, rest.value);
      assert paths == [paths[0]] + paths[1..];
      ConvertsWhereCons(it, rest.value, isImage);
    }
  }

  /** `upload_files` with the merge's image test as a parameter. */
  function UploadWith(conv: Converters, isImage: string -> bool, required: seq<string>, master: string, lots: seq<string>): Reply
  {
    if !ApiAllowed(master) then FormError(MasterError)
    else
      var paths := StoredLots(lots);
      var missing := MissingBySubstring(required, paths);
      if missing != [] then FormError(MissingPrefix + JoinWith(", ", missing))
      else Assemble(conv, isImage, Join(UploadFolder, master), paths)
  }

  /** The part of `upload_files` after the checks: the master first, then
      the lot paths. */
  function Assemble(conv: Converters, isImage: string -> bool, masterPath: string, paths: seq<string>): Reply
  {
    if !conv.readable(masterPath) then Unhandled(masterPath)
    else
      match MergeWith(conv, isImage, paths, 0)
      case Err(p) => Unhandled(p)
      case Ok(items) => Offered(OutputName, Join(UploadFolder, OutputName), [PassThrough(masterPath)] + items)
  }

  /** `upload_files` as written, with the case-sensitive image test. */
  function UploadFiles(conv: Converters, master: string, lots: seq<string>): Reply
  {
    UploadWith(conv, RawImageName, RequiredFiles, master, lots)
  }

  /** `upload_files` with the lowercased image test of app.py and the Flask
      API, so that an upper-case image name is converted too. */
  function UploadFilesFixed(conv: Converters, master: string, lots: seq<string>): Reply
  {
    UploadWith(conv, IsImageName, RequiredFiles, master, lots)
  }

  /** The master is refused exactly when `allowed_file` fails for it. */
  lemma ApiMasterGate(conv: Converters, isImage: string -> bool, required: seq<string>, master: string, lots: seq<string>)
    ensures UploadWith(conv, isImage, required, master, lots) == FormError(MasterError) <==> !ApiAllowed(master)
  {
    if ApiAllowed(master) {
      var missing := MissingBySubstring(required, StoredLots(lots));
      if missing != [] {
        MissingNotMasterError(JoinWith(", ", missing));
      } else {
        AssembleAnswers(conv, isImage, Join(UploadFolder, master), StoredLots(lots));
      }
    }
  }

  lemma MissingNotMasterError(names: string)
    ensures MissingPrefix + names != MasterError
  {
    assert (MissingPrefix + names)[0] == 'M';
    assert MasterError[0] == 'I';
  }

  /** The merge never answers with a form error. */
  lemma AssembleAnswers(conv: Converters, isImage: string -> bool, masterPath: string, paths: seq<string>)
    ensures !Assemble(conv, isImage, masterPath, paths).FormError?
  {
  }

  /** With the master accepted, the required names that no stored lot path
      mentions are reported before anything is merged; dropped lot files do
      not count. */
  lemma ApiMissingGate(conv: Converters, isImage: string -> bool, required: seq<string>, master: string, lots: seq<string>)
    requires ApiAllowed(master)
    requires MissingBySubstring(required, StoredLots(lots)) != []
    ensures UploadWith(conv, isImage, required, master, lots)
      == FormError(MissingPrefix + JoinWith(", ", MissingBySubstring(required, StoredLots(lots))))
  {
  }

  /** An offered tender comes from merging the stored lot paths after the
      master. */
  lemma ApiAssembles(conv: Converters, isImage: string -> bool, required: seq<string>, master: string, lots: seq<string>)
    ensures var r := UploadWith(conv, isImage, required, master, lots);
      r.Offered? ==> r == Assemble(conv, isImage, Join(UploadFolder, master), StoredLots(lots))
  {
  }

  /** The merged file is offered exactly when the master is accepted, nothing
      required is missing, and the master and every stored lot file can be
      merged; otherwise, past the two form errors, the handler raises. */
  lemma ApiOffered(conv: Converters, isImage: string -> bool, required: seq<string>, master: string, lots: seq<string>)
    ensures var r := UploadWith(conv, isImage, required, master, lots);
      var paths := StoredLots(lots);
      r.Offered? <==>
        && ApiAllowed(master)
        && MissingBySubstring(required, paths) == []
        && conv.readable(Join(UploadFolder, master))
        && (forall i :: 0 <= i < |paths| ==> Mergeable(conv, isImage, paths[i]))
  {
    if ApiAllowed(master) {
      MergeWithOk(conv, isImage, StoredLots(lots), 0);
    }
  }

  /** The merged file always goes to `/tmp/Generated_Tender.pdf`. */
  lemma AssembleOutput(conv: Converters, isImage: string -> bool, masterPath: string, paths: seq<string>)
    ensures var r := Assemble(conv, isImage, masterPath, paths);
      r.Offered? ==> r.filename == OutputName && r.output == "/tmp/Generated_Tender.pdf"
  {
    OutputJoin();
    var r := Assemble(conv, isImage, masterPath, paths);
    if r.Offered? {
      assert conv.readable(masterPath) && MergeWith(conv, isImage, paths, 0).Ok?;
      assert r.output == Join(UploadFolder, OutputName);
    }
  }

  lemma OutputJoin()
    ensures Join(UploadFolder, OutputName) == "/tmp/Generated_Tender.pdf"
  {
    assert UploadFolder[|UploadFolder| - 1] == 'p' && OutputName[0] == 'G';
    JoinPlain(UploadFolder, OutputName);
  }

  /** An offered file holds the master followed by every path, each lot
      file converted exactly when the image test holds for its name. */
  lemma AssembleItems(conv: Converters, isImage: string -> bool, masterPath: string, paths: seq<string>)
    ensures var r := Assemble(conv, isImage, masterPath, paths);
      r.Offered? ==>
        && |r.merged| == |paths| + 1
        && r.merged[0] == PassThrough(masterPath)
        && Sources(r.merged[1..]) == paths
        && ConvertsWhere(r.merged[1..], isImage)
  {
    if conv.readable(masterPath) && MergeWith(conv, isImage, paths, 0).Ok? {
      var items := MergeWith(conv, isImage, paths, 0).value;
      MergeWithItems(conv, isImage, paths, 0);
      assert ([PassThrough(masterPath)] + items)[1..] == items;
    }
  }

  /** Storing goes file by file: nothing is stored for no lot files, and
      one more lot file adds its path under the upload folder after the
      others when it passes `allowed_file`, and nothing otherwise. So every
      allowed file is stored once per upload, in upload order, and every
      other one is left out without a word. */
  lemma StoredLotsSpec(lots: seq<string>, n: string)
    ensures StoredLots([]) == []
    ensures StoredLots(lots + [n]) == StoredLots(lots) + (if ApiAllowed(n) then [Join(UploadFolder, n)] else [])
  {
    assert Filter([], ApiAllowed) == [];
    JoinFilterSnoc(UploadFolder, lots, n, ApiAllowed);
  }

  lemma JoinFilterSnoc(dir: string, names: seq<string>, n: string, keep: string -> bool)
    ensures JoinAll(dir, Filter(names + [n], keep)) == JoinAll(dir, Filter(names, keep)) + (if keep(n) then [Join(dir, n)] else [])
  {
    FilterConcat(names, [n], keep);
    var a, b := Filter(names, keep), Filter([n], keep);
    JoinAllConcat(dir, a, b);
    if keep(n) {
      assert b == [n];
      JoinAllCons(dir, n, []);
    } else {
      assert b == [];
    }
  }

  /** A name ending in `.JPG` passes `allowed_file`, and is an image by the
      lowercased test but not by the test the merge uses. */
  lemma UpperJpg(p: string)
    requires EndsWith(p, ".JPG")
    ensures ApiAllowed(p)
    ensures IsImageName(p)
    ensures !RawImageName(p)
  {
    UpperJpgAllowed(p);
    UpperJpgImage(p);
    UpperJpgNotRaw(p);
  }

  lemma UpperJpgNotRaw(p: string)
    requires EndsWith(p, ".JPG")
    ensures !RawImageName(p)
  {
    assert p[|p| - 1] == 'G';
    EndsWithLast(p, ".jpg");
    EndsWithLast(p, ".jpeg");
    EndsWithLast(p, ".png");
  }

  lemma UpperJpgAllowed(p: string)
    requires EndsWith(p, ".JPG")
    ensures ApiAllowed(p)
  {
    assert ['.'] + "JPG" == ".JPG";
    SuffixAfterLast(p, '.', "JPG");
    assert Lower("JPG") == "jpg";
  }

  lemma UpperJpgImage(p: string)
    requires EndsWith(p, ".JPG")
    ensures IsImageName(p)
  {
    LowerEndsWith(p, ".JPG");
    assert Lower(".JPG") == ".jpg";
  }

  /** As written, a lot file whose name ends in `.JPG` is appended
      unconverted, as if it were a PDF, although it names an image. */
  lemma UpperCaseImageNotConverted(conv: Converters, masterPath: string, paths: seq<string>, i: nat)
    requires i < |paths| && EndsWith(paths[i], ".JPG")
    ensures IsImageName(paths[i])
    ensures var r := Assemble(conv, RawImageName, masterPath, paths);
      r.Offered? ==> |r.merged| == |paths| + 1 && r.merged[i + 1] == PassThrough(paths[i])
  {
    UpperJpg(paths[i]);
    AssembleItems(conv, RawImageName, masterPath, paths);
    var r := Assemble(conv, RawImageName, masterPath, paths);
    if r.Offered? {
      var items := r.merged[1..];
      assert items[i] == r.merged[i + 1];
      assert Source(items[i]) == Sources(items)[i] == paths[i];
    }
  }

  /** Upper- and lower-case `.jpg` names agree once lowercased. */
  lemma LowerUpperJpg(stem: string)
    ensures Lower(stem + ".JPG") == Lower(stem + ".jpg")
  {
    LowerConcat(stem, ".JPG");
    LowerConcat(stem, ".jpg");
    assert Lower(".JPG") == ".jpg";
  }

  /** A stored name that equals a required name once lowercased satisfies
      the required-document check. */
  lemma SameIgnoringCaseSatisfies(required: seq<string>, n: string, f: string)
    requires Lower(n) == Lower(f)
    ensures f !in MissingBySubstring(required, [Join(UploadFolder, n)])
  {
    var p := Join(UploadFolder, n);
    JoinSpec(UploadFolder, n);
    var a := p[..|p| - |n|];
    assert p == a + n;
    LowerConcat(a, n);
    ContainsInside(Lower(a), Lower(f), "");
    assert Lower(a) + Lower(f) + "" == Lower(p);
    assert Contains(Lower([p][0]), Lower(f));
  }

  /** An upper-case upload of a required image, such as `Bid Security.JPG`,
      is stored and satisfies the required-document check. */
  lemma UpperCaseRequiredSatisfied(stem: string)
    ensures StoredLots([stem + ".JPG"]) == [Join(UploadFolder, stem + ".JPG")]
    ensures stem + ".jpg" !in MissingBySubstring([stem + ".jpg"], StoredLots([stem + ".JPG"]))
  {
    var up := stem + ".JPG";
    assert EndsWith(up, ".JPG") by { assert up[|up| - 4..] == ".JPG"; }
    UpperJpg(up);
    assert Filter([up], ApiAllowed) == [up];
    LowerUpperJpg(stem);
    SameIgnoringCaseSatisfies([stem + ".jpg"], up, stem + ".jpg");
  }

  /** With the lowercased test, every lot file whose name is an image by
      `is_image` is converted and every other one passed through, whatever
      the case of its extension. */
  lemma FixedConvertsImages(conv: Converters, master: string, lots: seq<string>)
    ensures var r := UploadFilesFixed(conv, master, lots);
      r.Offered? ==> |r.merged| == |StoredLots(lots)| + 1 && ConvertsWhere(r.merged[1..], IsImageName)
  {
    ApiAssembles(conv, IsImageName, RequiredFiles, master, lots);
    AssembleItems(conv, IsImageName, Join(UploadFolder, master), StoredLots(lots));
  }

}

=== FILE: app.dfy ===
/** The `index` view of the Flask app in app.py: the master and lot-file
    gates, the required-document check, and the merge in which an image
    that cannot be converted is silently left out. Every upload is stored
    under `/tmp/<filename>`; the merged file always goes to the one shared
    path `/tmp/Generated_Tender.pdf`. Reading and converting files are the
    parameters in `conv`. */
module App {
  import opened Wrappers
  import opened Seqs
  import opened Text
  import opened Paths
  import opened Formats
  import opened Required
  import opened Assembly

  /** What the view answers: a redirect back to the form with a flashed
      error, or the page offering the merged file. */
  datatype Page = Redirect(flash: string) | Rendered(filename: string, output: string, merged: seq<Item>)

  const UploadFolder := "/tmp"
  const OutputName := "Generated_Tender.pdf"
  const MasterFlash := "Please upload a valid master file (PDF)."
  const LotFlash := "Some lot files are not valid." + " Please upload PDF or image files only."
  const MissingPrefix := "Missing required files: "
  const ErrorPrefix := "Error generating tender: "

  /** The merged file's path, the same for every request. */
  function OutputPath(): string
  {
    Join(UploadFolder, OutputName)
  }

  /** The loop that saves the lot files: the path of each, in order, or
      `None` as soon as one fails `allowed_file`. */
  function LotPaths(lots: seq<string>): Option<seq<string>>
  {
    if |lots| == 0 then Some([])
    else if !AppAllowed(lots[0]) then None
    else
      match LotPaths(lots[1..])
      case None => None
      case Some(rest) => Some([Join(UploadFolder, lots[0])] + rest)
  }

  /** A single disallowed lot file rejects them all ... */
  lemma {:induction false} LotPathsAccepts(lots: seq<string>)
    ensures LotPaths(lots).Some? <==> forall i :: 0 <= i < |lots| ==> AppAllowed(lots[i])
  {
    if |lots| > 0 {
      LotPathsAccepts(lots[1..]);
      assert forall i :: 1 <= i < |lots| ==> lots[i] == lots[1..][i - 1];
    }
  }

  /** ... otherwise every lot file is stored under the upload folder, in
      upload order. */
  lemma {:induction false} LotPathsStored(lots: seq<string>)
    ensures LotPaths(lots).Some? ==> LotPaths(lots).value == JoinAll(UploadFolder, lots)
  {
    if |lots| > 0 && LotPaths(lots).Some? {
      var rest := LotPaths(lots[1..]);
      LotPathsStored(lots[1..]);
      assert LotPaths(lots) == Some([Join(UploadFolder, lots[0])] + rest.value);
      assert lots == [lots[0]] + lots[1..];
      JoinAllCons(UploadFolder, lots[0], lots[1..]);
    }
  }

  /** The loop of the `try` block after the master was appended: an image is
      converted and its PDF appended, or dropped when conversion fails; any
      other path is appended as it is, and an unreadable one raises. The
      k-th converted image gets the temporary name `conv.tempPdf(k)`. */
  function MergeLots(conv: Converters, paths: seq<string>, k: nat): Result<seq<Item>, string>
  {
    if |paths| == 0 then Ok([])
    else
      var p := paths[0];
      if IsImageName(p) then
        if conv.decodes(p) then
          match MergeLots(conv, paths[1..], k + 1)
          case Err(e) => Err(e)
          case Ok(rest) => Ok([Converted(p, Image, conv.tempPdf(k))] + rest)
        else MergeLots(conv, paths[1..], k)
      else if conv.readable(p) then
        match MergeLots(conv, paths[1..], k)
        case Err(e) => Err(e)
        case Ok(rest) => Ok([PassThrough(p)] + rest)
      else Err(p)
  }

  /** The merge completes exactly when every non-image path is readable ... */
  lemma {:induction false} MergeLotsOk(conv: Converters, paths: seq<string>, k: nat)
    ensures MergeLots(conv, paths, k).Ok? <==> forall i :: 0 <= i < |paths| && !IsImageName(paths[i]) ==> conv.readable(paths[i])
    decreases |paths|
  {
    if |paths| > 0 {
      var rest := paths[1..];
      MergeLotsHead(conv, paths, k);
      MergeLotsOk(conv, rest, NextTemp(conv, paths[0], k));
      assert forall i :: 1 <= i < |paths| ==> paths[i] == rest[i - 1];
    }
  }

  /** ... and otherwise raises on a non-image path that is unreadable. */
  lemma {:induction false} MergeLotsStops(conv: Converters, paths: seq<string>, k: nat)
    ensures var r := MergeLots(conv, paths, k);
      r.Err? ==> r.error in paths && !IsImageName(r.error) && !conv.readable(r.error)
    decreases |paths|
  {
    if |paths| > 0 {
      MergeLotsStops(conv, paths[1..], NextTemp(conv, paths[0], k));
    }
  }

  lemma MergeLotsHead(conv: Converters, paths: seq<string>, k: nat)
    requires |paths| > 0
    ensures MergeLots(conv, paths, k).Ok?
      <==> (IsImageName(paths[0]) || conv.readable(paths[0])) && MergeLots(conv, paths[1..], NextTemp(conv, paths[0], k)).Ok?
  {
  }

  /** The item the merge appends for a surviving path. */
  function Merged(conv: Converters, p: string, k: nat): Item
  {
    if IsImageName(p) then Converted(p, Image, conv.tempPdf(k)) else PassThrough(p)
  }

  /** The temporary-name counter after looking at `p`. */
  function NextTemp(conv: Converters, p: string, k: nat): nat
  {
    if IsImageName(p) && conv.decodes(p) then k + 1 else k
  }

  lemma MergeLotsStep(conv: Converters, paths: seq<string>, k: nat)
    requires |paths| > 0
    ensures var rest := MergeLots(conv, paths[1..], NextTemp(conv, paths[0], k));
      rest.Ok? && (IsImageName(paths[0]) || conv.readable(paths[0])) ==>
        MergeLots(conv, paths, k) == if Survives(conv, paths[0]) then Ok([Merged(conv, paths[0], k)] + rest.value) else rest
  {
  }

  /** When the merge completes it has appended exactly the surviving paths,
      in order ... */
  lemma {:induction false} MergeLotsSources(conv: Converters, paths: seq<string>, k: nat)
    ensures var r := MergeLots(conv, paths, k);
      r.Ok? ==> Sources(r.value) == Survivors(conv, paths)
    decreases |paths|
  {
    if |paths| > 0 && MergeLots(conv, paths, k).Ok? {
      var p := paths[0];
      var k' := NextTemp(conv, p, k);
      var rest := MergeLots(conv, paths[1..], k');
      MergeLotsHead(conv, paths, k);
      MergeLotsStep(conv, paths, k);
      MergeLotsSources(conv, paths[1..], k');
      SurvivorsCons(conv, paths);
      var r := MergeLots(conv, paths, k).value;
      if Survives(conv, p) {
        var it := Merged(conv, p, k);
        assert r == [it] + rest.value;
        SourcesCons(it, rest.value);
        assert Source(it) == p;
      } else {
        assert r == rest.value;
      }
    }
  }

  /** ... with the images converted and everything else passed through. */
  lemma {:induction false} MergeLotsKinds(conv: Converters, paths: seq<string>, k: nat)
    ensures var r := MergeLots(conv, paths, k);
      r.Ok? ==> ConvertsWhere(r.value, IsImageName)
    decreases |paths|
  {
    if |paths| > 0 && MergeLots(conv, paths, k).Ok? {
      var p := paths[0];
      var k' := NextTemp(conv, p, k);
      var rest := MergeLots(conv, paths[1..], k');
      MergeLotsHead(conv, paths, k);
      MergeLotsStep(conv, paths, k);
      MergeLotsKinds(conv, paths[1..], k');
      var r := MergeLots(conv, paths, k).value;
      if Survives(conv, p) {
        var it := Merged(conv, p, k);
        assert r == [it] + rest.value;
        ConvertsWhereCons(it, rest.value, IsImageName);
      } else {
        assert r == rest.value;
      }
    }
  }

  /** `index` for a POST, with the list of required documents as given. */
  function IndexWith(conv: Converters, required: seq<string>, master: Option<string>, lots: seq<string>): Page
  {
    if master.None? || !AppAllowed(master.value) then Redirect(MasterFlash)
    else WithLots(conv, required, Join(UploadFolder, master.value), lots)
  }

  /** `index` for a POST, checking the app's `REQUIRED_FILES`. */
  function Index(conv: Converters, master: Option<string>, lots: seq<string>): Page
  {
    IndexWith(conv, RequiredFiles, master, lots)
  }

  /** After the master was stored: the lot-file loop. */
  function WithLots(conv: Converters, required: seq<string>, masterPath: string, lots: seq<string>): Page
  {
    match LotPaths(lots)
    case None => Redirect(LotFlash)
    case Some(paths) => Generate(conv, required, masterPath, paths)
  }

  /** After every lot file was stored: the required-document check, then
      the merge. */
  function Generate(conv: Converters, required: seq<string>, masterPath: string, paths: seq<string>): Page
  {
    var missing := MissingBySubstring(required, paths);
    if missing != [] then Redirect(MissingPrefix + JoinWith(", ", missing))
    else Render(conv, masterPath, paths)
  }

  /** The merge of the master and the stored lot paths, rendered as the
      result page; a file PyPDF2 cannot read is flashed as an error. */
  function Render(conv: Converters, masterPath: string, paths: seq<string>): Page
  {
    if !conv.readable(masterPath) then Redirect(ErrorPrefix + masterPath)
    else
      match MergeLots(conv, paths, 0)
      case Err(p) => Redirect(ErrorPrefix + p)
      case Ok(items) => Rendered(OutputName, OutputPath(), [PassThrough(masterPath)] + items)
  }

  /** The files the request has written to the upload folder by the time it
      answers: the master once accepted, then every lot file up to the first
      one rejected. Nothing removes them again. */
  function Written(master: Option<string>, lots: seq<string>): seq<string>
  {
    if master.None? || !AppAllowed(master.value) then []
    else [Join(UploadFolder, master.value)] + WrittenLots(lots)
  }

  function WrittenLots(lots: seq<string>): seq<string>
  {
    JoinAll(UploadFolder, TakeWhile(lots, AppAllowed))
  }

  /** A request rejected at its `j`-th lot file still leaves the master and
      the lot files before `j` in the upload folder. */
  lemma RejectedLotLeavesFiles(conv: Converters, required: seq<string>, master: string, lots: seq<string>, j: nat)
    requires AppAllowed(master)
    requires j < |lots| && !AppAllowed(lots[j])
    requires forall i :: 0 <= i < j ==> AppAllowed(lots[i])
    ensures IndexWith(conv, required, Some(master), lots) == Redirect(LotFlash)
    ensures Written(Some(master), lots) == [Join(UploadFolder, master)] + JoinAll(UploadFolder, lots[..j])
  {
    LotPathsAccepts(lots);
    TakeWhileUpTo(lots, AppAllowed, j);
  }

  /** Every flash after the master check differs from the master error, and
      the later ones differ from the lot error. */
  lemma FlashesDiffer()
    ensures LotFlash != MasterFlash
    ensures forall s :: MissingPrefix + s != MasterFlash && MissingPrefix + s != LotFlash
    ensures forall s :: ErrorPrefix + s != MasterFlash && ErrorPrefix + s != LotFlash
  {
    assert MasterFlash[0] == 'P';
    assert LotFlash[0] == 'S';
    forall s ensures MissingPrefix + s != MasterFlash && MissingPrefix + s != LotFlash {
      assert (MissingPrefix + s)[0] == 'M';
    }
    forall s ensures ErrorPrefix + s != MasterFlash && ErrorPrefix + s != LotFlash {
      assert (ErrorPrefix + s)[0] == 'E';
    }
  }

  lemma GenerateFlash(conv: Converters, required: seq<string>, masterPath: string, paths: seq<string>)
    ensures Generate(conv, required, masterPath, paths) != Redirect(MasterFlash)
    ensures Generate(conv, required, masterPath, paths) != Redirect(LotFlash)
  {
    assert MasterFlash[0] == 'P' && LotFlash[0] == 'S';
    var missing := MissingBySubstring(required, paths);
    if missing != [] {
      assert (MissingPrefix + JoinWith(", ", missing))[0] == 'M';
    } else {
      RenderFlash(conv, masterPath, paths);
    }
  }

  /** A page the merge redirects carries an error flash. */
  lemma RenderFlash(conv: Converters, masterPath: string, paths: seq<string>)
    ensures var page := Render(conv, masterPath, paths);
      page.Redirect? ==> |page.flash| > 0 && page.flash[0] == 'E'
  {
    var page := Render(conv, masterPath, paths);
    if page.Redirect? {
      if !conv.readable(masterPath) {
        assert page.flash == ErrorPrefix + masterPath;
      } else {
        assert page.flash == ErrorPrefix + MergeLots(conv, paths, 0).error;
      }
    }
  }

  /** The master is accepted exactly when it is present and `allowed_file`
      holds for its name; otherwise the request is redirected with the
      master error. */
  lemma MasterGate(conv: Converters, required: seq<string>, master: Option<string>, lots: seq<string>)
    ensures IndexWith(conv, required, master, lots) == Redirect(MasterFlash) <==> master.None? || !AppAllowed(master.value)
  {
    if master.Some? && AppAllowed(master.value) {
      var masterPath := Join(UploadFolder, master.value);
      FlashesDiffer();
      if LotPaths(lots).Some? {
        GenerateFlash(conv, required, masterPath, LotPaths(lots).value);
      }
    }
  }

  /** Once the master is accepted, the request is redirected with the lot
      error exactly when some lot file fails `allowed_file`. */
  lemma LotGate(conv: Converters, required: seq<string>, master: string, lots: seq<string>)
    requires AppAllowed(master)
    ensures IndexWith(conv, required, Some(master), lots) == Redirect(LotFlash)
      <==> exists i :: 0 <= i < |lots| && !AppAllowed(lots[i])
  {
    LotPathsAccepts(lots);
    if LotPaths(lots).Some? {
      GenerateFlash(conv, required, Join(UploadFolder, master), LotPaths(lots).value);
    }
  }

  /** With the master and every lot file accepted, the required names that no
      stored path mentions are reported, comma-separated, before anything is
      merged. */
  lemma MissingGate(conv: Converters, required: seq<string>, master: string, lots: seq<string>)
    requires AppAllowed(master)
    requires forall i :: 0 <= i < |lots| ==> AppAllowed(lots[i])
    requires MissingBySubstring(required, JoinAll(UploadFolder, lots)) != []
    ensures IndexWith(conv, required, Some(master), lots)
      == Redirect(MissingPrefix + JoinWith(", ", MissingBySubstring(required, JoinAll(UploadFolder, lots))))
  {
    LotPathsAccepts(lots);
    LotPathsStored(lots);
  }

  /** The merged file always goes to the same path, whatever the request. */
  lemma OutputPathFixed()
    ensures OutputPath() == "/tmp/Generated_Tender.pdf"
  {
    assert UploadFolder[|UploadFolder| - 1] == 'p' && OutputName[0] == 'G';
    JoinPlain(UploadFolder, OutputName);
  }

  /** The merged file is produced exactly when both gates pass, no required
      name is missing, the master is readable and so is every lot file that
      is not an image. */
  lemma IndexRendered(conv: Converters, required: seq<string>, master: Option<string>, lots: seq<string>)
    ensures var page := IndexWith(conv, required, master, lots);
      var paths := JoinAll(UploadFolder, lots);
      page.Rendered? <==>
        && master.Some? && AppAllowed(master.value)
        && (forall i :: 0 <= i < |lots| ==> AppAllowed(lots[i]))
        && MissingBySubstring(required, paths) == []
        && conv.readable(Join(UploadFolder, master.value))
        && (forall i :: 0 <= i < |paths| && !IsImageName(paths[i]) ==> conv.readable(paths[i]))
  {
    LotPathsAccepts(lots);
    LotPathsStored(lots);
    if master.Some? && AppAllowed(master.value) && LotPaths(lots).Some? {
      MergeLotsOk(conv, LotPaths(lots).value, 0);
    }
  }

  /** A rendered page offers `/tmp/Generated_Tender.pdf`, which holds the
      master followed by the lot files that survive, in upload order. */
  lemma IndexMerged(conv: Converters, required: seq<string>, master: Option<string>, lots: seq<string>)
    ensures var page := IndexWith(conv, required, master, lots);
      page.Rendered? ==>
        && page.filename == OutputName && page.output == "/tmp/Generated_Tender.pdf"
        && Sources(page.merged) == [Join(UploadFolder, master.value)] + Survivors(conv, JoinAll(UploadFolder, lots))
  {
    OutputPathFixed();
    LotPathsStored(lots);
    var page := IndexWith(conv, required, master, lots);
    if page.Rendered? {
      var masterPath := Join(UploadFolder, master.value);
      var paths := LotPaths(lots).value;
      assert page == Render(conv, masterPath, paths);
      var r := MergeLots(conv, paths, 0);
      MergeLotsSources(conv, paths, 0);
      SourcesCons(PassThrough(masterPath), r.value);
    }
  }
}

=== FILE: assembly.dfy ===
/** What every variant merges: the pieces appended to the PDF merger, in
    order, and the conversions that produce the non-PDF ones. PDF
    concatenation is sequence concatenation of these pieces; reading a PDF,
    decoding an image and running pandoc are opaque steps given as
    parameters. */
module Assembly {
  import opened Formats
  import opened Seqs

  /** One `merger.append(...)`: an uploaded PDF appended as it is, or the
      temporary PDF a converter wrote for an image or a Word file. */
  datatype Item = PassThrough(path: string) | Converted(source: string, kind: Kind, pdf: string)

  /** The opaque collaborators of the merge.
      - decodes(p): PIL opens the image at p and saves it as a PDF;
      - converts(p): pandoc turns the Word file at p into a PDF;
      - readable(p): PyPDF2 can read the PDF at p;
      - writes(p): `open(p, "wb")` succeeds, that is p's directory exists and
        p is not itself a directory;
      - tempPdf(k): the name `NamedTemporaryFile` gives the k-th temporary PDF
        of a request. */
  datatype Converters = Converters(
    decodes: string -> bool,
    converts: string -> bool,
    readable: string -> bool,
    writes: string -> bool,
    tempPdf: nat -> string)

  /** The uploaded file an item stands for. */
  function Source(it: Item): string
  {
    match it
    case PassThrough(p) => p
    case Converted(s, _, _) => s
  }

  /** The format the item had before merging. */
  function ItemKind(it: Item): Kind
  {
    match it
    case PassThrough(_) => PageDoc
    case Converted(_, k, _) => k
  }

  function Sources(items: seq<Item>): (r: seq<string>)
    ensures |r| == |items|
    ensures forall i :: 0 <= i < |items| ==> r[i] == Source(items[i])
  {
    seq(|items|, i requires 0 <= i < |items| => Source(items[i]))
  }

  function Kinds(items: seq<Item>): (r: seq<Kind>)
    ensures |r| == |items|
    ensures forall i :: 0 <= i < |items| ==> r[i] == ItemKind(items[i])
  {
    seq(|items|, i requires 0 <= i < |items| => ItemKind(items[i]))
  }

  /** The temporary PDFs the converted items were written to, in order. */
  function Intermediates(items: seq<Item>): seq<string>
  {
    if |items| == 0 then []
    else
      var init := Intermediates(items[..|items| - 1]);
      var last := items[|items| - 1];
      if last.Converted? then init + [last.pdf] else init
  }

  /** A path is an intermediate exactly when some converted item was written
      to it. */
  lemma {:induction false} IntermediatesSpec(items: seq<Item>)
    ensures forall t :: t in Intermediates(items) <==> exists i :: 0 <= i < |items| && items[i].Converted? && items[i].pdf == t
  {
    if |items| > 0 {
      var init := items[..|items| - 1];
      IntermediatesSpec(init);
      assert forall i :: 0 <= i < |items| - 1 ==> init[i] == items[i];
    }
  }

  lemma SourcesConcat(a: seq<Item>, b: seq<Item>)
    ensures Sources(a + b) == Sources(a) + Sources(b)
    ensures Kinds(a + b) == Kinds(a) + Kinds(b)
  {
  }

  /** A list that extends `items` by one item with source `path` and format
      `kind` extends the sources and formats by exactly those. */
  lemma SourcesSnoc(items: seq<Item>, longer: seq<Item>, path: string, kind: Kind)
    requires |longer| == |items| + 1 && longer[..|items|] == items
    requires Source(longer[|items|]) == path && ItemKind(longer[|items|]) == kind
    ensures Sources(longer) == Sources(items) + [path]
    ensures Kinds(longer) == Kinds(items) + [kind]
  {
    var it := longer[|items|];
    assert longer == items + [it];
    SourcesConcat(items, [it]);
  }

  lemma SourcesCons(it: Item, rest: seq<Item>)
    ensures Sources([it] + rest) == [Source(it)] + Sources(rest)
  {
    SourcesConcat([it], rest);
  }

  /** Each item is a conversion exactly when the image test `isImage` holds
      for its source. */
  predicate ConvertsWhere(items: seq<Item>, isImage: string -> bool)
  {
    forall i :: 0 <= i < |items| ==> (items[i].Converted? <==> isImage(Source(items[i])))
  }

  lemma ConvertsWhereCons(it: Item, rest: seq<Item>, isImage: string -> bool)
    ensures ConvertsWhere([it] + rest, isImage)
      <==> (it.Converted? <==> isImage(Source(it))) && ConvertsWhere(rest, isImage)
  {
    var all := [it] + rest;
    if ConvertsWhere(all, isImage) {
      assert all[0] == it;
      forall i | 0 <= i < |rest|
        ensures rest[i].Converted? <==> isImage(Source(rest[i]))
      {
        assert all[i + 1] == rest[i];
      }
    }
    if ConvertsWhere(rest, isImage) && (it.Converted? <==> isImage(Source(it))) {
      forall i | 0 <= i < |all|
        ensures all[i].Converted? <==> isImage(Source(all[i]))
      {
        if i > 0 {
          assert all[i] == rest[i - 1];
        }
      }
    }
  }

  lemma IntermediatesSnoc(items: seq<Item>, it: Item)
    ensures Intermediates(items + [it]) == Intermediates(items) + (if it.Converted? then [it.pdf] else [])
  {
    assert (items + [it])[..|items|] == items;
  }

  /** A path is merged unless it is an image that cannot be converted
      (`convert_image_to_pdf` returned `None` and the image is skipped). */
  predicate Survives(conv: Converters, p: string)
  {
    !IsImageName(p) || conv.decodes(p)
  }

  /** The paths that survive, in order, each as often as it is given: a
      path listed twice that survives is merged twice. */
  function Survivors(conv: Converters, paths: seq<string>): (r: seq<string>)
    ensures forall p :: p in r <==> p in paths && Survives(conv, p)
    ensures Subsequence(r, paths)
    ensures forall p :: multiset(r)[p] == if Survives(conv, p) then multiset(paths)[p] else 0
  {
    var keep := p => Survives(conv, p);
    FilterCount(paths, keep);
    Filter(paths, keep)
  }

  /** The first path survives or not on its own; the rest are filtered in
      turn. */
  lemma SurvivorsCons(conv: Converters, paths: seq<string>)
    requires |paths| > 0
    ensures Survivors(conv, paths)
      == (if Survives(conv, paths[0]) then [paths[0]] else []) + Survivors(conv, paths[1..])
  {
  }
}

=== FILE: desktop.dfy ===
/** What the three desktop apps (tkinter/tender.py, tender.py, inst.py)
    share: gathering the required documents from the lot folder, the merge of
    the master with those documents, and the name of the tender written into
    the new folder. The disk is the set of paths that exist. */
module Desktop {
  import opened Wrappers
  import opened Seqs
  import opened Text
  import opened Paths
  import opened Formats
  import opened Required
  import opened Assembly

  /** A message box: its title and, for an error, the file names it lists
      (empty when it shows only fixed text or an exception message). */
  datatype Notice = Info(title: string) | Error(title: string, names: seq<string>)

  /** A tender written to disk: where, and what was merged into it. */
  datatype Tender = Tender(path: string, merged: seq<Item>)

  /** What `generate_tender` leaves behind once its guard passed: the disk,
      the message box, and the tender if one was written. */
  datatype Generated = Generated(disk: set<string>, notice: Notice, tender: Option<Tender>)

  /** Why a merge stopped: PyPDF2 raised on a file, or a file is neither an
      image nor a PDF. */
  datatype Abort = Unreadable(path: string) | NotSupported(path: string)

  /** How far a merge got: the items appended, in order, and the failure
      that stopped it, if any. */
  datatype Merge = Merge(items: seq<Item>, stop: Option<Abort>)

  /** The gathering loop of `generate_tender`: `folder/name` for every name,
      in order, stopping at the first name that does not exist. */
  function Gather(folder: string, disk: set<string>, names: seq<string>): Result<seq<string>, string>
  {
    if |names| == 0 then Ok([])
    else
      var p := Join(folder, names[0]);
      if p !in disk then Err(names[0])
      else
        match Gather(folder, disk, names[1..])
        case Err(e) => Err(e)
        case Ok(rest) => Ok([p] + rest)
  }

  /** Gathering agrees with the missing-file report of `upload_lot_folder`:
      it succeeds exactly when nothing is missing, yielding every path in
      order, and otherwise stops at the first missing name. */
  lemma {:induction false} GatherSpec(folder: string, disk: set<string>, names: seq<string>)
    ensures var g := Gather(folder, disk, names);
      var missing := MissingInFolder(names, folder, disk);
      && (g.Ok? <==> missing == [])
      && (g.Ok? ==> g.value == JoinAll(folder, names))
      && (g.Err? ==> missing != [] && g.error == missing[0])
  {
    if |names| > 0 {
      GatherSpec(folder, disk, names[1..]);
      assert names == [names[0]] + names[1..];
      JoinAllCons(folder, names[0], names[1..]);
    }
  }

  /** `file.lower().endswith('.pdf')`. */
  predicate IsPdfName(name: string)
  {
    EndsWith(Lower(name), ".pdf")
  }

  /** The merge loop of `generate_tender` over the gathered paths: an image
      is converted and skipped when conversion fails; a PDF is appended and
      raises when unreadable; anything else stops the merge. The result
      holds what was appended before the loop stopped, since the temporary
      PDFs of those conversions stay on disk either way. */
  function DesktopMerge(conv: Converters, files: seq<string>, k: nat): Merge
  {
    if |files| == 0 then Merge([], None)
    else
      var f := files[0];
      if IsImageName(f) then
        if conv.decodes(f) then
          var rest := DesktopMerge(conv, files[1..], k + 1);
          Merge([Converted(f, Image, conv.tempPdf(k))] + rest.items, rest.stop)
        else DesktopMerge(conv, files[1..], k)
      else if IsPdfName(f) then
        if conv.readable(f) then
          var rest := DesktopMerge(conv, files[1..], k);
          Merge([PassThrough(f)] + rest.items, rest.stop)
        else Merge([], Some(Unreadable(f)))
      else Merge([], Some(NotSupported(f)))
  }

  /** Whether the merge gets past `f`. */
  predicate Takes(conv: Converters, f: string)
  {
    IsImageName(f) || (IsPdfName(f) && conv.readable(f))
  }

  /** The files the merge gets past before it stops: the longest prefix
      of files it can take. */
  function Taken(conv: Converters, files: seq<string>): seq<string>
  {
    TakeWhile(files, f => Takes(conv, f))
  }

  /** The merge completes exactly when it gets past every file ... */
  lemma {:induction false} DesktopMergeOk(conv: Converters, files: seq<string>, k: nat)
    ensures DesktopMerge(conv, files, k).stop.None? <==> forall i :: 0 <= i < |files| ==> Takes(conv, files[i])
    decreases |files|
  {
    if |files| > 0 {
      var f := files[0];
      var rest := files[1..];
      DesktopMergeHead(conv, files, k);
      DesktopMergeOk(conv, rest, if IsImageName(f) && conv.decodes(f) then k + 1 else k);
      assert forall i :: 1 <= i < |files| ==> files[i] == rest[i - 1];
    }
  }

  lemma DesktopMergeHead(conv: Converters, files: seq<string>, k: nat)
    requires |files| > 0
    ensures var f := files[0];
      var k' := if IsImageName(f) && conv.decodes(f) then k + 1 else k;
      DesktopMerge(conv, files, k).stop.None? <==> Takes(conv, f) && DesktopMerge(conv, files[1..], k').stop.None?
  {
  }

  /** ... otherwise it stops at one of them that it cannot take ... */
  lemma {:induction false} DesktopMergeStops(conv: Converters, files: seq<string>, k: nat)
    ensures var r := DesktopMerge(conv, files, k);
      r.stop.Some? ==> r.stop.value.path in files && !Takes(conv, r.stop.value.path)
    decreases |files|
  {
    if |files| > 0 {
      var f := files[0];
      DesktopMergeStops(conv, files[1..], if IsImageName(f) && conv.decodes(f) then k + 1 else k);
    }
  }

  /** ... and calls that file unsupported exactly when it is not a PDF either. */
  lemma {:induction false} DesktopMergeAbort(conv: Converters, files: seq<string>, k: nat)
    ensures var r := DesktopMerge(conv, files, k);
      r.stop.Some? ==> (r.stop.value.NotSupported? <==> !IsImageName(r.stop.value.path) && !IsPdfName(r.stop.value.path))
    decreases |files|
  {
    if |files| > 0 {
      var f := files[0];
      DesktopMergeAbort(conv, files[1..], if IsImageName(f) && conv.decodes(f) then k + 1 else k);
    }
  }

  /** The item appended for a file the merge takes and keeps. */
  function DesktopItem(conv: Converters, f: string, k: nat): Item
  {
    if IsImageName(f) then Converted(f, Image, conv.tempPdf(k)) else PassThrough(f)
  }

  lemma DesktopMergeStep(conv: Converters, files: seq<string>, k: nat)
    requires |files| > 0
    ensures var f := files[0];
      var rest := DesktopMerge(conv, files[1..], if IsImageName(f) && conv.decodes(f) then k + 1 else k);
      Takes(conv, f) ==>
        DesktopMerge(conv, files, k) == Merge((if Survives(conv, f) then [DesktopItem(conv, f, k)] else []) + rest.items, rest.stop)
  {
    var f := files[0];
    var rest := DesktopMerge(conv, files[1..], if IsImageName(f) && conv.decodes(f) then k + 1 else k);
    assert [] + rest.items == rest.items;
  }

  /** The merge appends the files it gets past that survive conversion, in
      order; when it completes, those are all the files that survive ... */
  lemma DesktopMergeSources(conv: Converters, files: seq<string>, k: nat)
    ensures var r := DesktopMerge(conv, files, k);
      Sources(r.items) == Survivors(conv, Taken(conv, files))
    ensures var r := DesktopMerge(conv, files, k);
      r.stop.None? ==> Sources(r.items) == Survivors(conv, files)
  {
    DesktopMergeTaken(conv, files, k);
    if DesktopMerge(conv, files, k).stop.None? {
      DesktopMergeOk(conv, files, k);
      TakeWhileUpTo(files, f => Takes(conv, f), |files|);
      assert files[..|files|] == files;
    }
  }

  lemma {:induction false} DesktopMergeTaken(conv: Converters, files: seq<string>, k: nat)
    ensures Sources(DesktopMerge(conv, files, k).items) == Survivors(conv, Taken(conv, files))
    decreases |files|
  {
    if |files| > 0 {
      var f := files[0];
      var k' := if IsImageName(f) && conv.decodes(f) then k + 1 else k;
      var rest := DesktopMerge(conv, files[1..], k');
      DesktopMergeTaken(conv, files[1..], k');
      if Takes(conv, f) {
        DesktopMergeSourcesStep(conv, files, k);
        TakenCons(conv, files);
      } else {
        DesktopMergeRefuses(conv, files, k);
      }
    }
  }

  /** A file the merge takes adds itself, if it survives, ahead of what the
      rest of the merge adds. */
  lemma DesktopMergeSourcesStep(conv: Converters, files: seq<string>, k: nat)
    requires |files| > 0 && Takes(conv, files[0])
    ensures var f := files[0];
      var rest := DesktopMerge(conv, files[1..], if IsImageName(f) && conv.decodes(f) then k + 1 else k);
      Sources(DesktopMerge(conv, files, k).items) == (if Survives(conv, f) then [f] else []) + Sources(rest.items)
  {
    var f := files[0];
    var rest := DesktopMerge(conv, files[1..], if IsImageName(f) && conv.decodes(f) then k + 1 else k);
    DesktopMergeStep(conv, files, k);
    var head: seq<Item> := if Survives(conv, f) then [DesktopItem(conv, f, k)] else [];
    SourcesConcat(head, rest.items);
    assert Sources(head) == if Survives(conv, f) then [f] else [];
  }

  /** A file the merge cannot take stops it there: nothing is appended, and
      nothing is taken. */
  lemma DesktopMergeRefuses(conv: Converters, files: seq<string>, k: nat)
    requires |files| > 0 && !Takes(conv, files[0])
    ensures DesktopMerge(conv, files, k).items == []
    ensures Taken(conv, files) == []
  {
  }

  /** A file the merge takes survives or not on its own, ahead of the rest. */
  lemma TakenCons(conv: Converters, files: seq<string>)
    requires |files| > 0 && Takes(conv, files[0])
    ensures Survivors(conv, Taken(conv, files))
      == (if Survives(conv, files[0]) then [files[0]] else []) + Survivors(conv, Taken(conv, files[1..]))
  {
    var taken := Taken(conv, files);
    assert taken == [files[0]] + Taken(conv, files[1..]);
    assert taken[0] == files[0] && taken[1..] == Taken(conv, files[1..]);
    SurvivorsCons(conv, taken);
  }

  /** ... converting exactly the images. */
  lemma {:induction false} DesktopMergeKinds(conv: Converters, files: seq<string>, k: nat)
    ensures ConvertsWhere(DesktopMerge(conv, files, k).items, IsImageName)
    decreases |files|
  {
    if |files| > 0 {
      var f := files[0];
      var k' := if IsImageName(f) && conv.decodes(f) then k + 1 else k;
      var rest := DesktopMerge(conv, files[1..], k');
      DesktopMergeKinds(conv, files[1..], k');
      if Takes(conv, f) {
        DesktopMergeStep(conv, files, k);
        if Survives(conv, f) {
          ConvertsWhereCons(DesktopItem(conv, f, k), rest.items, IsImageName);
        }
      }
    }
  }

  /** A path that ends with a required name is an image or a PDF, so the
      gathered required documents never stop the merge as unsupported. */
  lemma RequiredPathsSupported(folder: string, i: nat)
    requires i < |RequiredFiles|
    ensures IsImageName(Join(folder, RequiredFiles[i])) || IsPdfName(Join(folder, RequiredFiles[i]))
  {
    var f := RequiredFiles[i];
    var p := Join(folder, f);
    RequiredNamePlain(i);
    JoinSpec(folder, f);
    if EndsWith(f, ".jpg") {
      EndsWithTrans(p, f, ".jpg");
      JpgIsImage(p);
    } else {
      EndsWithTrans(p, f, ".pdf");
      PdfIsPdf(p);
    }
  }

  lemma JpgIsImage(p: string)
    requires EndsWith(p, ".jpg")
    ensures IsImageName(p)
  {
    LowerEndsWith(p, ".jpg");
    assert Lower(".jpg") == ".jpg";
  }

  lemma PdfIsPdf(p: string)
    requires EndsWith(p, ".pdf")
    ensures IsPdfName(p)
  {
    LowerEndsWith(p, ".pdf");
    assert Lower(".pdf") == ".pdf";
  }

  lemma EndsWithTrans(s: string, t: string, u: string)
    requires EndsWith(s, t) && EndsWith(t, u)
    ensures EndsWith(s, u)
  {
    assert s[|s| - |u|..] == t[|t| - |u|..];
  }

  /** Merging the gathered required documents stops only on a file PyPDF2
      cannot read, never on an unsupported one. */
  lemma RequiredMergeNeverUnsupported(conv: Converters, folder: string, k: nat)
    ensures var r := DesktopMerge(conv, JoinAll(folder, RequiredFiles), k);
      r.stop.Some? ==> r.stop.value.Unreadable?
  {
    var files := JoinAll(folder, RequiredFiles);
    DesktopMergeStops(conv, files, k);
    DesktopMergeAbort(conv, files, k);
    var r := DesktopMerge(conv, files, k);
    if r.stop.Some? {
      var i :| 0 <= i < |files| && files[i] == r.stop.value.path;
      RequiredPathsSupported(folder, i);
    }
  }

  /** The master appended first, then the gathered files. */
  function AssembleTender(conv: Converters, masterPath: string, files: seq<string>): Merge
  {
    if !conv.readable(masterPath) then Merge([], Some(Unreadable(masterPath)))
    else
      var m := DesktopMerge(conv, files, 0);
      Merge([PassThrough(masterPath)] + m.items, m.stop)
  }

  /** A tender completes exactly when the master is readable and every file
      can be taken. Once the master is read, what is appended is the master
      followed by the files the merge got past that survive conversion, in
      the order given; a completed tender holds all the surviving files. */
  lemma AssembleTenderSpec(conv: Converters, masterPath: string, files: seq<string>)
    ensures var r := AssembleTender(conv, masterPath, files);
      && (r.stop.None? <==> conv.readable(masterPath) && forall i :: 0 <= i < |files| ==> Takes(conv, files[i]))
      && (!conv.readable(masterPath) ==> r.items == [])
      && (conv.readable(masterPath) ==> Sources(r.items) == [masterPath] + Survivors(conv, Taken(conv, files)))
      && (r.stop.None? ==> Sources(r.items) == [masterPath] + Survivors(conv, files))
  {
    DesktopMergeOk(conv, files, 0);
    if conv.readable(masterPath) {
      AssembleTenderSources(conv, masterPath, files);
    }
  }

  lemma AssembleTenderSources(conv: Converters, masterPath: string, files: seq<string>)
    requires conv.readable(masterPath)
    ensures var r := AssembleTender(conv, masterPath, files);
      && Sources(r.items) == [masterPath] + Survivors(conv, Taken(conv, files))
      && (r.stop.None? ==> Sources(r.items) == [masterPath] + Survivors(conv, files))
  {
    var m := DesktopMerge(conv, files, 0);
    DesktopMergeSources(conv, files, 0);
    SourcesConcat([PassThrough(masterPath)], m.items);
    assert Sources([PassThrough(masterPath)]) == [masterPath];
  }

  /** `Tender_<basename(lot folder)>.pdf`. */
  function TenderName(lotFolder: string): string
  {
    "Tender_" + Basename(lotFolder) + ".pdf"
  }

  /** Where the tender is written: inside the new folder. */
  function TenderPath(newFolder: string, lotFolder: string): string
  {
    Join(newFolder, TenderName(lotFolder))
  }

  /** The tender's name is always a plain entry name, whatever the lot
      folder is called, ... */
  lemma TenderNameOrdinary(lotFolder: string)
    ensures Ordinary(TenderName(lotFolder))
    ensures EndsWith(TenderName(lotFolder), ".pdf")
  {
    var b := Basename(lotFolder);
    var n := TenderName(lotFolder);
    NoSlashIn(b);
    assert |n| == |b| + 11;
    assert n[|n| - 4..] == ".pdf";
  }

  lemma NoSlashIn(b: string)
    requires '/' !in b
    ensures '/' !in "Tender_" + b + ".pdf"
  {
    var a, c := "Tender_", ".pdf";
    assert forall i :: 0 <= i < |a| ==> a[i] != '/';
    assert forall i :: 0 <= i < |c| ==> c[i] != '/';
  }

  /** ... so the tender lands directly inside the new folder. */
  lemma TenderInNewFolder(segs: seq<string>, lotFolder: string)
    requires |segs| > 0 && AllOrdinary(segs)
    ensures Location(TenderPath(Abs(segs), lotFolder)) == segs + [TenderName(lotFolder)]
  {
    TenderNameOrdinary(lotFolder);
    JoinPlainNameConfined(segs, TenderName(lotFolder));
  }

  /** `generate_tender` past its guard: gather the required documents from
      the lot folder, merge them after the master, and write the tender into
      the new folder. Every image converted on the way leaves its temporary
      PDF on disk, whether or not the tender is written. The two variants
      differ only in the titles of the error boxes for a raised exception and
      for an unsupported file. */
  function Produce(conv: Converters, disk: set<string>, newFolder: string, masterPath: string, lotFolder: string,
                   crashTitle: string, unsupportedTitle: string): Generated
  {
    match Gather(lotFolder, disk, RequiredFiles)
    case Err(f) => Generated(disk, Error("Missing File", [f]), None)
    case Ok(files) => Finish(conv, disk, masterPath, files, TenderPath(newFolder, lotFolder), crashTitle, unsupportedTitle)
  }

  /** The merge and the write, once the documents are gathered. */
  function Finish(conv: Converters, disk: set<string>, masterPath: string, files: seq<string>, out: string,
                  crashTitle: string, unsupportedTitle: string): Generated
  {
    var m := AssembleTender(conv, masterPath, files);
    var left := disk + Elems(Intermediates(m.items));
    match m.stop
    case Some(Unreadable(_)) => Generated(left, Error(crashTitle, []), None)
    case Some(NotSupported(p)) => Generated(left, Error(unsupportedTitle, [p]), None)
    case None => Generated(left + {out}, Info("Success"), Some(Tender(out, m.items)))
  }

  /** With every document present, generation is the merge of the gathered
      paths. */
  lemma ProduceGathered(conv: Converters, disk: set<string>, newFolder: string, masterPath: string, lotFolder: string,
                        crashTitle: string, unsupportedTitle: string)
    requires MissingInFolder(RequiredFiles, lotFolder, disk) == []
    ensures Produce(conv, disk, newFolder, masterPath, lotFolder, crashTitle, unsupportedTitle)
      == Finish(conv, disk, masterPath, JoinAll(lotFolder, RequiredFiles), TenderPath(newFolder, lotFolder), crashTitle, unsupportedTitle)
  {
    GatherSpec(lotFolder, disk, RequiredFiles);
  }

  /** Generation names the first required document missing from the lot
      folder and writes nothing. */
  lemma ProduceMissing(conv: Converters, disk: set<string>, newFolder: string, masterPath: string, lotFolder: string,
                       crashTitle: string, unsupportedTitle: string)
    requires MissingInFolder(RequiredFiles, lotFolder, disk) != []
    ensures Produce(conv, disk, newFolder, masterPath, lotFolder, crashTitle, unsupportedTitle)
      == Generated(disk, Error("Missing File", [MissingInFolder(RequiredFiles, lotFolder, disk)[0]]), None)
  {
    GatherSpec(lotFolder, disk, RequiredFiles);
  }

  /** A tender is written exactly when every required document is present,
      the master is readable and every document can be taken; it then goes
      to `Tender_<lot folder>.pdf` in the new folder, next to the temporary
      PDFs of the images it converted, and holds the master followed by the
      required documents in list order, less any image that could not be
      converted. Without a document or a readable master nothing is
      written. */
  lemma ProduceWrites(conv: Converters, disk: set<string>, newFolder: string, masterPath: string, lotFolder: string,
                      crashTitle: string, unsupportedTitle: string)
    ensures var g := Produce(conv, disk, newFolder, masterPath, lotFolder, crashTitle, unsupportedTitle);
      var files := JoinAll(lotFolder, RequiredFiles);
      g.tender.Some? <==>
        && MissingInFolder(RequiredFiles, lotFolder, disk) == []
        && conv.readable(masterPath)
        && forall i :: 0 <= i < |files| ==> Takes(conv, files[i])
    ensures var g := Produce(conv, disk, newFolder, masterPath, lotFolder, crashTitle, unsupportedTitle);
      g.tender.Some? ==>
        && g.tender.value.path == TenderPath(newFolder, lotFolder)
        && g.disk == disk + Elems(Intermediates(g.tender.value.merged)) + {TenderPath(newFolder, lotFolder)}
        && Sources(g.tender.value.merged) == [masterPath] + Survivors(conv, JoinAll(lotFolder, RequiredFiles))
    ensures var g := Produce(conv, disk, newFolder, masterPath, lotFolder, crashTitle, unsupportedTitle);
      g.tender.None? ==> g.notice.Error?
    ensures var g := Produce(conv, disk, newFolder, masterPath, lotFolder, crashTitle, unsupportedTitle);
      MissingInFolder(RequiredFiles, lotFolder, disk) != [] || !conv.readable(masterPath) ==> g.disk == disk
  {
    if MissingInFolder(RequiredFiles, lotFolder, disk) == [] {
      ProduceGathered(conv, disk, newFolder, masterPath, lotFolder, crashTitle, unsupportedTitle);
      FinishWrites(conv, disk, masterPath, JoinAll(lotFolder, RequiredFiles), TenderPath(newFolder, lotFolder), crashTitle, unsupportedTitle);
    } else {
      ProduceMissing(conv, disk, newFolder, masterPath, lotFolder, crashTitle, unsupportedTitle);
    }
  }

  /** The same, for any gathered list and output path. */
  lemma FinishWrites(conv: Converters, disk: set<string>, masterPath: string, files: seq<string>, out: string,
                     crashTitle: string, unsupportedTitle: string)
    ensures var g := Finish(conv, disk, masterPath, files, out, crashTitle, unsupportedTitle);
      && (g.tender.Some? <==> conv.readable(masterPath) && forall i :: 0 <= i < |files| ==> Takes(conv, files[i]))
      && (g.tender.Some? ==>
            && g.tender.value.path == out
            && g.disk == disk + Elems(Intermediates(g.tender.value.merged)) + {out}
            && Sources(g.tender.value.merged) == [masterPath] + Survivors(conv, files))
      && (g.tender.None? ==> g.notice.Error?)
      && (!conv.readable(masterPath) ==> g.disk == disk)
  {
    AssembleTenderSpec(conv, masterPath, files);
    if !conv.readable(masterPath) {
      assert Elems(Intermediates([])) == {};
    }
  }

  /** A generation that fails in the merge, after the master was read,
      still leaves the temporary PDFs of what it converted: the master and
      the documents the merge got past were appended, the images among them
      that could be converted were converted, and each such conversion's PDF
      stays on disk. */
  lemma ProduceLeftovers(conv: Converters, disk: set<string>, newFolder: string, masterPath: string, lotFolder: string,
                         crashTitle: string, unsupportedTitle: string)
    requires MissingInFolder(RequiredFiles, lotFolder, disk) == [] && conv.readable(masterPath)
    ensures var g := Produce(conv, disk, newFolder, masterPath, lotFolder, crashTitle, unsupportedTitle);
      var files := JoinAll(lotFolder, RequiredFiles);
      var m := AssembleTender(conv, masterPath, files);
      g.tender.None? ==>
        && g.disk == disk + Elems(Intermediates(m.items))
        && Sources(m.items) == [masterPath] + Survivors(conv, Taken(conv, files))
        && |m.items| > 0 && ConvertsWhere(m.items[1..], IsImageName)
  {
    ProduceGathered(conv, disk, newFolder, masterPath, lotFolder, crashTitle, unsupportedTitle);
    FinishLeftovers(conv, disk, masterPath, JoinAll(lotFolder, RequiredFiles), TenderPath(newFolder, lotFolder), crashTitle, unsupportedTitle);
  }

  /** The same, for any gathered list. */
  lemma FinishLeftovers(conv: Converters, disk: set<string>, masterPath: string, files: seq<string>, out: string,
                        crashTitle: string, unsupportedTitle: string)
    requires conv.readable(masterPath)
    ensures var g := Finish(conv, disk, masterPath, files, out, crashTitle, unsupportedTitle);
      var m := AssembleTender(conv, masterPath, files);
      g.tender.None? ==>
        && g.disk == disk + Elems(Intermediates(m.items))
        && Sources(m.items) == [masterPath] + Survivors(conv, Taken(conv, files))
        && |m.items| > 0 && ConvertsWhere(m.items[1..], IsImageName)
  {
    AssembleTenderSources(conv, masterPath, files);
    DesktopMergeKinds(conv, files, 0);
    var m := AssembleTender(conv, masterPath, files);
    assert m.items[1..] == DesktopMerge(conv, files, 0).items;
  }

  /** An instance: once `Bid Security.jpg`, the first required document,
      has been converted, its temporary PDF stays on disk whatever happens to
      the documents after it. */
  lemma ProduceKeepsFirstConversion(conv: Converters, disk: set<string>, newFolder: string, masterPath: string, lotFolder: string,
                                    crashTitle: string, unsupportedTitle: string)
    requires MissingInFolder(RequiredFiles, lotFolder, disk) == [] && conv.readable(masterPath)
    requires conv.decodes(Join(lotFolder, RequiredFiles[0]))
    ensures conv.tempPdf(0) in Produce(conv, disk, newFolder, masterPath, lotFolder, crashTitle, unsupportedTitle).disk
  {
    ProduceGathered(conv, disk, newFolder, masterPath, lotFolder, crashTitle, unsupportedTitle);
    var files := JoinAll(lotFolder, RequiredFiles);
    FirstRequiredPath(lotFolder);
    FinishKeepsFirst(conv, disk, masterPath, files, TenderPath(newFolder, lotFolder), crashTitle, unsupportedTitle);
  }

  /** A decodable image first in the list leaves its temporary PDF on disk
      once the master is read. */
  lemma FinishKeepsFirst(conv: Converters, disk: set<string>, masterPath: string, files: seq<string>, out: string,
                         crashTitle: string, unsupportedTitle: string)
    requires conv.readable(masterPath) && |files| > 0 && IsImageName(files[0]) && conv.decodes(files[0])
    ensures conv.tempPdf(0) in Finish(conv, disk, masterPath, files, out, crashTitle, unsupportedTitle).disk
  {
    var rest := DesktopMerge(conv, files[1..], 1);
    var it := Converted(files[0], Image, conv.tempPdf(0));
    assert DesktopMerge(conv, files, 0) == Merge([it] + rest.items, rest.stop);
    var m := AssembleTender(conv, masterPath, files);
    assert m.items[1] == it;
    IntermediatesSpec(m.items);
  }

  /** The first gathered path is the first required document's, an image. */
  lemma FirstRequiredPath(folder: string)
    ensures var files := JoinAll(folder, RequiredFiles);
      |files| > 0 && files[0] == Join(folder, RequiredFiles[0]) && IsImageName(files[0])
  {
    JoinAllCons(folder, RequiredFiles[0], RequiredFiles[1..]);
    assert RequiredFiles == [RequiredFiles[0]] + RequiredFiles[1..];
    FirstRequiredIsImage(folder);
  }

  /** The first required document is an image. */
  lemma FirstRequiredIsImage(folder: string)
    ensures IsImageName(Join(folder, RequiredFiles[0]))
  {
    var f := RequiredFiles[0];
    RequiredNamePlain(0);
    JoinSpec(folder, f);
    assert f == "Bid Security" + ".jpg";
    assert EndsWith(f, ".jpg");
    EndsWithTrans(Join(folder, f), f, ".jpg");
    JpgIsImage(Join(folder, f));
  }

  /** The unsupported-file box is never shown: every required document is an
      image or a PDF. */
  lemma ProduceNeverUnsupported(conv: Converters, disk: set<string>, newFolder: string, masterPath: string, lotFolder: string,
                                crashTitle: string, unsupportedTitle: string)
    requires unsupportedTitle != "Missing File" && unsupportedTitle != crashTitle && unsupportedTitle != "Success"
    ensures Produce(conv, disk, newFolder, masterPath, lotFolder, crashTitle, unsupportedTitle).notice.title != unsupportedTitle
  {
    if MissingInFolder(RequiredFiles, lotFolder, disk) == [] {
      ProduceGathered(conv, disk, newFolder, masterPath, lotFolder, crashTitle, unsupportedTitle);
      RequiredMergeNeverUnsupported(conv, lotFolder, 0);
    } else {
      ProduceMissing(conv, disk, newFolder, masterPath, lotFolder, crashTitle, unsupportedTitle);
    }
  }

  /** The box generation ends with is one of four. */
  lemma ProduceTitles(conv: Converters, disk: set<string>, newFolder: string, masterPath: string, lotFolder: string,
                      crashTitle: string, unsupportedTitle: string)
    ensures var t := Produce(conv, disk, newFolder, masterPath, lotFolder, crashTitle, unsupportedTitle).notice.title;
      t == "Missing File" || t == crashTitle || t == unsupportedTitle || t == "Success"
  {
    var g := Gather(lotFolder, disk, RequiredFiles);
    if g.Ok? {
      var m := AssembleTender(conv, masterPath, g.value);
      assert Produce(conv, disk, newFolder, masterPath, lotFolder, crashTitle, unsupportedTitle).notice.title
        == match m.stop
           case Some(Unreadable(_)) => crashTitle
           case Some(NotSupported(_)) => unsupportedTitle
           case None => "Success";
    }
  }
}

=== FILE: flask_api_tender.dfy ===
/** The `/upload` handler of the FastAPI service in Flask/api/tender.py: the
    master gate, the materialisation of every upload under the request's
    temporary directory, the extension dispatch, the merge order, the removal
    of converted intermediates and the mapping of exceptions to HTTP errors.

    The disk is a set of paths. The handler's collaborators are parameters:
    `conv` (writing uploads, reading, decoding and converting files, naming
    temporary PDFs),
    `unlinkOk` (whether `os.unlink` succeeds on a path) and `tmp` (the
    directory `tempfile.mkdtemp` returned). An exception in flight is a
    `Raised` value; the exception text of a failing library call is not
    modelled and is replaced by the path being processed. */
module FlaskApiTender {
  import opened Wrappers
  import opened Seqs
  import opened Text
  import opened Paths
  import opened Formats
  import opened Assembly
  import opened Workspace

  /** The parts of a FastAPI `UploadFile` the handler looks at. */
  datatype UploadFile = UploadFile(filename: string, contentType: string)

  /** An exception in flight: an `HTTPException`, or any other exception
      (from PIL, PyPDF2 or `os.unlink`), identified by the path it concerns. */
  datatype Raised = HttpError(status: int, detail: string) | Crash(cause: string)

  /** What the client receives: the merged file, or an HTTP error. */
  datatype Response = Served(path: string, filename: string, pieces: seq<Item>) | Failed(status: int, detail: string)

  /** The response together with the disk afterwards. */
  datatype Outcome = Outcome(response: Response, fs: set<string>)

  /** The state of the request inside the `try`: the disk, what was appended
      to the merger so far, and `temporary_file_paths_to_clean`. */
  datatype Job = Job(fs: set<string>, pieces: seq<Item>, tracked: seq<string>)

  /** A state, and the exception that interrupted the request, if any. */
  datatype Progress = Progress(job: Job, raised: Option<Raised>)

  /** The result of `convert_word_to_pdf`: the disk afterwards, and the
      temporary PDF or the exception raised. */
  datatype Conversion = Conversion(fs: set<string>, out: Result<string, Raised>)

  const PdfMediaType := "application/pdf"
  const MasterDetail := "Master file must be a PDF" + " and have a filename."
  const UnsupportedPrefix := "Unsupported file type: "
  const WordFailurePrefix := "Word to PDF conversion failed for "
  const InternalPrefix := "An internal error occurred: "
  const OutputName := "Tender.pdf"

  /** The uploads the loop does not skip: those with a non-empty filename,
      in submission order, each as often as it was submitted. */
  function NonEmpty(lots: seq<UploadFile>): (r: seq<UploadFile>)
    ensures forall l :: l in r <==> l in lots && l.filename != ""
    ensures Subsequence(r, lots)
    ensures forall l :: multiset(r)[l] == if l.filename != "" then multiset(lots)[l] else 0
  {
    var keep := (l: UploadFile) => l.filename != "";
    FilterCount(lots, keep);
    Filter(lots, keep)
  }

  /** The dispatch branch for `kind` succeeds on the file at `path`. */
  predicate Handles(conv: Converters, path: string, kind: Kind)
  {
    match kind
    case PageDoc => conv.readable(path)
    case Image => conv.decodes(path)
    case WordDoc => conv.converts(path)
    case Unsupported => false
  }

  /** A lot file with this name goes through the loop body without raising:
      it can be written to `tmp/<name>`, its extension is supported and the
      step it dispatches to succeeds. */
  predicate Processable(conv: Converters, tmp: string, name: string)
  {
    conv.writes(Join(tmp, name)) && Handles(conv, Join(tmp, name), Classify(name))
  }

  /** The `except` clauses of the handler: an `HTTPException` is re-raised
      as it is, anything else becomes a 500. */
  function ToResponse(e: Raised): (r: Response)
    ensures r.Failed?
    ensures e.HttpError? ==> r.status == e.status && r.detail == e.detail
    ensures e.Crash? ==> r.status == 500 && InternalPrefix <= r.detail
  {
    match e
    case HttpError(s, d) => Failed(s, d)
    case Crash(c) => Failed(500, InternalPrefix + c)
  }

  /** `convert_word_to_pdf`: a named temporary PDF is created first; when
      pandoc fails, that file is unlinked before a 500 naming the document is
      raised, and if the unlink itself fails its `OSError` escapes instead. */
  function ConvertWord(conv: Converters, unlinkOk: string -> bool, fs: set<string>, k: nat, docx: string): (r: Conversion)
    ensures var t := conv.tempPdf(k);
      && (r.out.Ok? <==> conv.converts(docx))
      && (r.out.Ok? ==> r.out.value == t && t in r.fs)
      && (r.out.Err? && unlinkOk(t) ==> t !in r.fs && r.out.error == HttpError(500, WordFailurePrefix + Basename(docx)))
      && (r.out.Err? && !unlinkOk(t) ==> t in r.fs && r.out.error.Crash?)
      && (forall p :: p != t ==> (p in r.fs <==> p in fs))
  {
    var t := conv.tempPdf(k);
    var created := fs + {t};
    if conv.converts(docx) then Conversion(created, Ok(t))
    else if unlinkOk(t) then Conversion(created - {t}, Err(HttpError(500, WordFailurePrefix + Basename(docx))))
    else Conversion(created, Err(Crash(t)))
  }

  /** One iteration of the loop over the lot files. A file with an empty
      name is skipped; any other is written to `tmp/<name>` first, and a
      write that fails raises before the extension is looked at; a written
      file is dispatched on its extension. */
  function Step(conv: Converters, unlinkOk: string -> bool, tmp: string, job: Job, lot: UploadFile): Progress
  {
    if lot.filename == "" then Progress(job, None)
    else
      var path := Join(tmp, lot.filename);
      if !conv.writes(path) then Progress(job, Some(Crash(path)))
      else Dispatch(conv, unlinkOk, job.(fs := job.fs + {path}), path, Classify(lot.filename), lot.filename)
  }

  /** The `if ext == ...` chain on a file already written to `path`. A
      converted PDF gets the next temporary name and is tracked for
      removal; an unsupported file raises a 400 naming it. */
  function Dispatch(conv: Converters, unlinkOk: string -> bool, job: Job, path: string, kind: Kind, name: string): Progress
  {
    var k := |job.tracked|;
    match kind
    case PageDoc =>
      if conv.readable(path) then Progress(job.(pieces := job.pieces + [PassThrough(path)]), None)
      else Progress(job, Some(Crash(path)))
    case Image =>
      if conv.decodes(path) then
        var t := conv.tempPdf(k);
        Progress(Job(job.fs + {t}, job.pieces + [Converted(path, Image, t)], job.tracked + [t]), None)
      else Progress(job, Some(Crash(path)))
    case WordDoc =>
      var c := ConvertWord(conv, unlinkOk, job.fs, k, path);
      if c.out.Ok? then
        Progress(Job(c.fs, job.pieces + [Converted(path, WordDoc, c.out.value)], job.tracked + [c.out.value]), None)
      else Progress(job.(fs := c.fs), Some(c.out.error))
    case Unsupported =>
      Progress(job, Some(HttpError(400, UnsupportedPrefix + name)))
  }

  /** What a dispatch does: it succeeds exactly when its branch handles the
      file, then appends one item of that kind for the file and tracks the
      temporary PDF of a conversion. A failing dispatch appends nothing, and
      the only 400 is the one naming an unsupported file. The disk gains at
      most the next temporary PDF. */
  ghost predicate DispatchBehaves(conv: Converters, job: Job, path: string, kind: Kind, name: string, r: Progress)
  {
    && r.job.tracked == Intermediates(r.job.pieces)
    && (r.raised.None? <==> Handles(conv, path, kind))
    && (r.raised.None? ==>
          |r.job.pieces| == |job.pieces| + 1 && r.job.pieces[..|job.pieces|] == job.pieces
          && Source(r.job.pieces[|job.pieces|]) == path
          && ItemKind(r.job.pieces[|job.pieces|]) == kind)
    && (r.raised.Some? ==> r.job.pieces == job.pieces && r.job.tracked == job.tracked)
    && (r.raised.Some? && r.raised.value.HttpError? ==>
          (r.raised.value.status == 400 && r.raised.value.detail == UnsupportedPrefix + name)
          || r.raised.value.status == 500)
    && (kind == Unsupported ==> r.raised == Some(HttpError(400, UnsupportedPrefix + name)))
    && r.job.fs <= job.fs + {conv.tempPdf(|job.tracked|)}
    && (r.raised.None? ==> job.fs <= r.job.fs && forall t :: t in r.job.tracked && t !in job.tracked ==> t in r.job.fs)
  }

  lemma DispatchSpec(conv: Converters, unlinkOk: string -> bool, job: Job, path: string, kind: Kind, name: string)
    requires job.tracked == Intermediates(job.pieces)
    ensures DispatchBehaves(conv, job, path, kind, name, Dispatch(conv, unlinkOk, job, path, kind, name))
  {
    var k := |job.tracked|;
    match kind
    case PageDoc =>
      IntermediatesSnoc(job.pieces, PassThrough(path));
    case Image =>
      IntermediatesSnoc(job.pieces, Converted(path, Image, conv.tempPdf(k)));
    case WordDoc =>
      var c := ConvertWord(conv, unlinkOk, job.fs, k, path);
      if c.out.Ok? {
        IntermediatesSnoc(job.pieces, Converted(path, WordDoc, c.out.value));
      }
    case Unsupported =>
  }

  /** The `for lot_file in lot_files` loop, stopped by the first exception. */
  function Run(conv: Converters, unlinkOk: string -> bool, tmp: string, job: Job, lots: seq<UploadFile>): Progress
    decreases |lots|
  {
    if |lots| == 0 then Progress(job, None)
    else
      var p := Step(conv, unlinkOk, tmp, job, lots[0]);
      if p.raised.Some? then p else Run(conv, unlinkOk, tmp, p.job, lots[1..])
  }

  /** The lot files the loop does not skip, as the paths they are written
      to, in submission order. */
  function KeptPaths(tmp: string, lots: seq<UploadFile>): (r: seq<string>)
    ensures |r| <= |lots|
  {
    if |lots| == 0 then []
    else (if lots[0].filename == "" then [] else [Join(tmp, lots[0].filename)]) + KeptPaths(tmp, lots[1..])
  }

  /** Their dispatch classes, in the same order. */
  function KeptKinds(lots: seq<UploadFile>): (r: seq<Kind>)
    ensures |r| <= |lots|
  {
    if |lots| == 0 then []
    else (if lots[0].filename == "" then [] else [Classify(lots[0].filename)]) + KeptKinds(lots[1..])
  }

  /** One iteration, in terms of the file's name: a skipped file changes
      nothing; any other completes exactly when it is processable, and only
      ever extends the merge list. */
  lemma StepSpec(conv: Converters, unlinkOk: string -> bool, tmp: string, job: Job, l: UploadFile)
    requires job.tracked == Intermediates(job.pieces)
    ensures var p := Step(conv, unlinkOk, tmp, job, l);
      && p.job.tracked == Intermediates(p.job.pieces)
      && job.pieces <= p.job.pieces
      && (l.filename == "" ==> p == Progress(job, None))
      && (p.raised.None? <==> l.filename == "" || Processable(conv, tmp, l.filename))
  {
    if l.filename != "" && conv.writes(Join(tmp, l.filename)) {
      var path := Join(tmp, l.filename);
      var job' := job.(fs := job.fs + {path});
      DispatchSpec(conv, unlinkOk, job', path, Classify(l.filename), l.filename);
      var p := Dispatch(conv, unlinkOk, job', path, Classify(l.filename), l.filename);
      if p.raised.None? {
        assert p.job.pieces == job.pieces + [p.job.pieces[|job.pieces|]];
      }
    }
  }

  /** The only 400 an iteration raises names its own file, and it raises it
      for every unsupported name that could be written; a name that cannot
      be written raises a non-HTTP error and changes nothing. A completed
      iteration keeps what is on disk and leaves each newly tracked
      intermediate there. */
  lemma StepErrors(conv: Converters, unlinkOk: string -> bool, tmp: string, job: Job, l: UploadFile)
    requires job.tracked == Intermediates(job.pieces)
    ensures var p := Step(conv, unlinkOk, tmp, job, l);
      && (p.raised.Some? && p.raised.value.HttpError? ==>
            (p.raised.value.status == 400 && p.raised.value.detail == UnsupportedPrefix + l.filename)
            || p.raised.value.status == 500)
      && (p.raised.None? ==> job.fs <= p.job.fs && forall t :: t in p.job.tracked && t !in job.tracked ==> t in p.job.fs)
      && (l.filename != "" && !conv.writes(Join(tmp, l.filename)) ==> p == Progress(job, Some(Crash(Join(tmp, l.filename)))))
      && (l.filename != "" && conv.writes(Join(tmp, l.filename)) && Classify(l.filename) == Unsupported ==>
            p.raised == Some(HttpError(400, UnsupportedPrefix + l.filename)))
  {
    if l.filename != "" && conv.writes(Join(tmp, l.filename)) {
      var path := Join(tmp, l.filename);
      DispatchSpec(conv, unlinkOk, job.(fs := job.fs + {path}), path, Classify(l.filename), l.filename);
    }
  }

  /** The loop keeps the tracked list equal to the converted items, only
      appends, and any HTTP error it raises is a 400 naming one of the files
      or a 500. */
  lemma {:induction false} RunKeeps(conv: Converters, unlinkOk: string -> bool, tmp: string, job: Job, lots: seq<UploadFile>)
    requires job.tracked == Intermediates(job.pieces)
    ensures var r := Run(conv, unlinkOk, tmp, job, lots);
      && r.job.tracked == Intermediates(r.job.pieces)
      && job.pieces <= r.job.pieces
      && (r.raised.Some? && r.raised.value.HttpError? ==>
            (r.raised.value.status == 400 && exists i :: 0 <= i < |lots| && r.raised.value.detail == UnsupportedPrefix + lots[i].filename)
            || r.raised.value.status == 500)
    decreases |lots|
  {
    if |lots| > 0 {
      var p := Step(conv, unlinkOk, tmp, job, lots[0]);
      RunHead(conv, unlinkOk, tmp, job, lots);
      StepSpec(conv, unlinkOk, tmp, job, lots[0]);
      StepErrors(conv, unlinkOk, tmp, job, lots[0]);
      if p.raised.None? {
        RunKeeps(conv, unlinkOk, tmp, p.job, lots[1..]);
        var r := Run(conv, unlinkOk, tmp, p.job, lots[1..]);
        if r.raised.Some? && r.raised.value.HttpError? && r.raised.value.status == 400 {
          var i :| 0 <= i < |lots[1..]| && r.raised.value.detail == UnsupportedPrefix + lots[1..][i].filename;
          assert lots[i + 1] == lots[1..][i];
        }
      }
    }
  }

  /** A loop that completes leaves every tracked intermediate on disk. */
  lemma {:induction false} RunKeepsWritten(conv: Converters, unlinkOk: string -> bool, tmp: string, job: Job, lots: seq<UploadFile>)
    requires job.tracked == Intermediates(job.pieces)
    requires forall t :: t in job.tracked ==> t in job.fs
    ensures var r := Run(conv, unlinkOk, tmp, job, lots);
      r.raised.None? ==> forall t :: t in r.job.tracked ==> t in r.job.fs
    decreases |lots|
  {
    if |lots| > 0 {
      var p := Step(conv, unlinkOk, tmp, job, lots[0]);
      RunHead(conv, unlinkOk, tmp, job, lots);
      StepKeepsWritten(conv, unlinkOk, tmp, job, lots[0]);
      if p.raised.None? {
        RunKeepsWritten(conv, unlinkOk, tmp, p.job, lots[1..]);
      }
    }
  }

  /** A completed iteration leaves every tracked intermediate on disk. */
  lemma StepKeepsWritten(conv: Converters, unlinkOk: string -> bool, tmp: string, job: Job, l: UploadFile)
    requires job.tracked == Intermediates(job.pieces)
    requires forall t :: t in job.tracked ==> t in job.fs
    ensures var p := Step(conv, unlinkOk, tmp, job, l);
      p.raised.None? ==> p.job.tracked == Intermediates(p.job.pieces) && forall t :: t in p.job.tracked ==> t in p.job.fs
  {
    StepSpec(conv, unlinkOk, tmp, job, l);
    StepErrors(conv, unlinkOk, tmp, job, l);
  }

  /** The loop completes exactly when every file it does not skip is
      processable. */
  lemma {:induction false} RunCompletes(conv: Converters, unlinkOk: string -> bool, tmp: string, job: Job, lots: seq<UploadFile>)
    requires job.tracked == Intermediates(job.pieces)
    ensures Run(conv, unlinkOk, tmp, job, lots).raised.None? <==>
      forall i :: 0 <= i < |lots| && lots[i].filename != "" ==> Processable(conv, tmp, lots[i].filename)
    decreases |lots|
  {
    if |lots| > 0 {
      var p := Step(conv, unlinkOk, tmp, job, lots[0]);
      RunHead(conv, unlinkOk, tmp, job, lots);
      StepSpec(conv, unlinkOk, tmp, job, lots[0]);
      ProcessableCons(conv, tmp, lots);
      if p.raised.None? {
        RunCompletes(conv, unlinkOk, tmp, p.job, lots[1..]);
      }
    }
  }

  /** Every kept file is processable exactly when the first one is (or is
      skipped) and every kept file after it is. */
  lemma ProcessableCons(conv: Converters, tmp: string, lots: seq<UploadFile>)
    requires |lots| > 0
    ensures (forall i :: 0 <= i < |lots| && lots[i].filename != "" ==> Processable(conv, tmp, lots[i].filename))
      <==> ((lots[0].filename == "" || Processable(conv, tmp, lots[0].filename))
        && (forall i :: 0 <= i < |lots[1..]| && lots[1..][i].filename != "" ==> Processable(conv, tmp, lots[1..][i].filename)))
  {
    assert forall i :: 1 <= i < |lots| ==> lots[i] == lots[1..][i - 1];
  }

  /** A completed iteration appends one item for a file it does not skip:
      the path the file was written to, with the file's class. */
  lemma StepAppends(conv: Converters, unlinkOk: string -> bool, tmp: string, job: Job, l: UploadFile)
    requires job.tracked == Intermediates(job.pieces)
    ensures var p := Step(conv, unlinkOk, tmp, job, l);
      && p.job.tracked == Intermediates(p.job.pieces)
      && (p.raised.None? ==> Sources(p.job.pieces) == Sources(job.pieces) + (if l.filename == "" then [] else [Join(tmp, l.filename)]))
      && (p.raised.None? ==> Kinds(p.job.pieces) == Kinds(job.pieces) + (if l.filename == "" then [] else [Classify(l.filename)]))
  {
    if l.filename != "" && conv.writes(Join(tmp, l.filename)) {
      var path := Join(tmp, l.filename);
      var kind := Classify(l.filename);
      var job' := job.(fs := job.fs + {path});
      StepWritten(conv, unlinkOk, tmp, job, l);
      DispatchSpec(conv, unlinkOk, job', path, kind, l.filename);
      var p := Dispatch(conv, unlinkOk, job', path, kind, l.filename);
      if p.raised.None? {
        SourcesSnoc(job.pieces, p.job.pieces, path, kind);
      }
    }
  }

  /** A named file that could be written is handed to the dispatch chain. */
  lemma StepWritten(conv: Converters, unlinkOk: string -> bool, tmp: string, job: Job, l: UploadFile)
    requires l.filename != "" && conv.writes(Join(tmp, l.filename))
    ensures var path := Join(tmp, l.filename);
      Step(conv, unlinkOk, tmp, job, l)
        == Dispatch(conv, unlinkOk, job.(fs := job.fs + {path}), path, Classify(l.filename), l.filename)
  {
  }

  /** When the loop completes it has appended, in submission order, one item
      per file it did not skip, standing for the path that file was written
      to ... */
  lemma {:induction false} RunSources(conv: Converters, unlinkOk: string -> bool, tmp: string, job: Job, lots: seq<UploadFile>)
    requires job.tracked == Intermediates(job.pieces)
    ensures var r := Run(conv, unlinkOk, tmp, job, lots);
      r.raised.None? ==> Sources(r.job.pieces) == Sources(job.pieces) + KeptPaths(tmp, lots)
    decreases |lots|
  {
    if |lots| > 0 {
      var p := Step(conv, unlinkOk, tmp, job, lots[0]);
      RunHead(conv, unlinkOk, tmp, job, lots);
      StepAppends(conv, unlinkOk, tmp, job, lots[0]);
      if p.raised.None? {
        RunSources(conv, unlinkOk, tmp, p.job, lots[1..]);
        var head := if lots[0].filename == "" then [] else [Join(tmp, lots[0].filename)];
        var r := Run(conv, unlinkOk, tmp, job, lots);
        if r.raised.None? {
          AppendStep(Sources(job.pieces), Sources(p.job.pieces), head, KeptPaths(tmp, lots[1..]), KeptPaths(tmp, lots), Sources(r.job.pieces));
        }
      }
    }
  }

  /** ... and having that file's class. */
  lemma {:induction false} RunKinds(conv: Converters, unlinkOk: string -> bool, tmp: string, job: Job, lots: seq<UploadFile>)
    requires job.tracked == Intermediates(job.pieces)
    ensures var r := Run(conv, unlinkOk, tmp, job, lots);
      r.raised.None? ==> Kinds(r.job.pieces) == Kinds(job.pieces) + KeptKinds(lots)
    decreases |lots|
  {
    if |lots| > 0 {
      var p := Step(conv, unlinkOk, tmp, job, lots[0]);
      RunHead(conv, unlinkOk, tmp, job, lots);
      StepAppends(conv, unlinkOk, tmp, job, lots[0]);
      if p.raised.None? {
        RunKinds(conv, unlinkOk, tmp, p.job, lots[1..]);
        var head := if lots[0].filename == "" then [] else [Classify(lots[0].filename)];
        var r := Run(conv, unlinkOk, tmp, job, lots);
        if r.raised.None? {
          AppendStep(Kinds(job.pieces), Kinds(p.job.pieces), head, KeptKinds(lots[1..]), KeptKinds(lots), Kinds(r.job.pieces));
        }
      }
    }
  }

  /** The body of the `try`: the master is written to `tmp/<name>` and
      appended first, then the loop runs over the lot files. */
  function Process(conv: Converters, unlinkOk: string -> bool, tmp: string, fs: set<string>, master: UploadFile, lots: seq<UploadFile>): Progress
  {
    var masterPath := Join(tmp, master.filename);
    var written := fs + {masterPath};
    if !conv.writes(masterPath) then Progress(Job(fs, [], []), Some(Crash(masterPath)))
    else if !conv.readable(masterPath) then Progress(Job(written, [], []), Some(Crash(masterPath)))
    else Run(conv, unlinkOk, tmp, Job(written, [PassThrough(masterPath)], []), lots)
  }

  /** The master gate of the handler: a filename and the exact media type
      `application/pdf`. */
  predicate MasterAccepted(master: UploadFile)
  {
    master.filename != "" && master.contentType == PdfMediaType
  }

  /** `upload`, as written: a rejected master is answered with 400 before
      anything is created; otherwise the `try` runs, and on success the
      merged file is written to `tmp/Tender.pdf` and the tracked
      intermediates are removed. On an exception the handler only maps it
      to a response. */
  function Upload(conv: Converters, unlinkOk: string -> bool, tmp: string, fs: set<string>, master: UploadFile, lots: seq<UploadFile>): Outcome
  {
    if !MasterAccepted(master) then Outcome(Failed(400, MasterDetail), fs)
    else
      var p := Process(conv, unlinkOk, tmp, fs, master, lots);
      if p.raised.Some? then Outcome(ToResponse(p.raised.value), p.job.fs)
      else
        var out := Join(tmp, OutputName);
        Outcome(Served(out, OutputName, p.job.pieces), CleanIntermediates(p.job.tracked, p.job.fs + {out}, unlinkOk).fs)
  }

  /** What the `try` body does, in terms of the uploads: it completes
      exactly when the master can be written and read and every kept lot file is
      processable; the only 400 it raises names a lot file; and a completed
      body has every tracked intermediate on disk. */
  lemma ProcessSpec(conv: Converters, unlinkOk: string -> bool, tmp: string, fs: set<string>, master: UploadFile, lots: seq<UploadFile>)
    ensures var p := Process(conv, unlinkOk, tmp, fs, master, lots);
      && p.job.tracked == Intermediates(p.job.pieces)
      && (p.raised.None? <==>
            conv.writes(Join(tmp, master.filename)) && conv.readable(Join(tmp, master.filename))
            && forall i :: 0 <= i < |lots| && lots[i].filename != "" ==> Processable(conv, tmp, lots[i].filename))
      && (p.raised.Some? && p.raised.value.HttpError? ==>
            (p.raised.value.status == 400 && exists i :: 0 <= i < |lots| && p.raised.value.detail == UnsupportedPrefix + lots[i].filename)
            || p.raised.value.status == 500)
      && (p.raised.None? ==> forall t :: t in p.job.tracked ==> t in p.job.fs)
  {
    var masterPath := Join(tmp, master.filename);
    if conv.writes(masterPath) && conv.readable(masterPath) {
      var job := Job(fs + {masterPath}, [PassThrough(masterPath)], []);
      assert Intermediates(job.pieces) == [];
      RunKeeps(conv, unlinkOk, tmp, job, lots);
      RunCompletes(conv, unlinkOk, tmp, job, lots);
      RunKeepsWritten(conv, unlinkOk, tmp, job, lots);
    }
  }

  /** A completed body holds the master first, then the kept lot files in
      submission order, each with its class. */
  lemma ProcessItems(conv: Converters, unlinkOk: string -> bool, tmp: string, fs: set<string>, master: UploadFile, lots: seq<UploadFile>)
    ensures var p := Process(conv, unlinkOk, tmp, fs, master, lots);
      && (p.raised.None? ==> Sources(p.job.pieces) == [Join(tmp, master.filename)] + KeptPaths(tmp, lots))
      && (p.raised.None? ==> Kinds(p.job.pieces) == [PageDoc] + KeptKinds(lots))
  {
    var masterPath := Join(tmp, master.filename);
    if conv.writes(masterPath) && conv.readable(masterPath) {
      var job := Job(fs + {masterPath}, [PassThrough(masterPath)], []);
      assert job.pieces[..0] == [];
      assert Intermediates(job.pieces) == [];
      assert Process(conv, unlinkOk, tmp, fs, master, lots) == Run(conv, unlinkOk, tmp, job, lots);
      assert Sources(job.pieces) == [masterPath];
      assert Kinds(job.pieces) == [PageDoc];
      RunSources(conv, unlinkOk, tmp, job, lots);
      RunKinds(conv, unlinkOk, tmp, job, lots);
    }
  }

  /** The master is rejected with 400, and nothing is written, exactly when
      its filename is empty or its media type is not `application/pdf`. */
  lemma MasterGate(conv: Converters, unlinkOk: string -> bool, tmp: string, fs: set<string>, master: UploadFile, lots: seq<UploadFile>)
    ensures var o := Upload(conv, unlinkOk, tmp, fs, master, lots);
      && (!MasterAccepted(master) ==> o == Outcome(Failed(400, MasterDetail), fs))
      && (MasterAccepted(master) ==> o.response != Failed(400, MasterDetail))
  {
    if MasterAccepted(master) {
      ProcessSpec(conv, unlinkOk, tmp, fs, master, lots);
      var p := Process(conv, unlinkOk, tmp, fs, master, lots);
      if p.raised.Some? && p.raised.value.HttpError? && p.raised.value.status == 400 {
        var i :| 0 <= i < |lots| && p.raised.value.detail == UnsupportedPrefix + lots[i].filename;
        UnsupportedIsNotMaster(lots[i].filename);
      }
    }
  }

  lemma UnsupportedIsNotMaster(name: string)
    ensures UnsupportedPrefix + name != MasterDetail
  {
    assert (UnsupportedPrefix + name)[0] == 'U';
    assert MasterDetail[0] == 'M';
  }

  /** The merged file is served exactly when the master passes the gate and
      can be written and read, and every lot file with a name is
      processable. */
  lemma UploadServedIff(conv: Converters, unlinkOk: string -> bool, tmp: string, fs: set<string>, master: UploadFile, lots: seq<UploadFile>)
    ensures Upload(conv, unlinkOk, tmp, fs, master, lots).response.Served? <==>
      && MasterAccepted(master)
      && conv.writes(Join(tmp, master.filename)) && conv.readable(Join(tmp, master.filename))
      && forall i :: 0 <= i < |lots| && lots[i].filename != "" ==> Processable(conv, tmp, lots[i].filename)
  {
    ProcessSpec(conv, unlinkOk, tmp, fs, master, lots);
  }

  /** A served response is `tmp/Tender.pdf`, made of the master and then the
      lot files with a name, in submission order: PDFs passed through,
      images and Word files converted. Lot files with an empty name
      contribute nothing. */
  lemma UploadOrder(conv: Converters, unlinkOk: string -> bool, tmp: string, fs: set<string>, master: UploadFile, lots: seq<UploadFile>)
    ensures var r := Upload(conv, unlinkOk, tmp, fs, master, lots).response;
      r.Served? ==>
        && r.path == Join(tmp, OutputName) && r.filename == OutputName
        && Sources(r.pieces) == [Join(tmp, master.filename)] + KeptPaths(tmp, lots)
        && Kinds(r.pieces) == [PageDoc] + KeptKinds(lots)
  {
    ProcessItems(conv, unlinkOk, tmp, fs, master, lots);
  }

  /** Every error response is a 400 or a 500. */
  lemma UploadStatuses(conv: Converters, unlinkOk: string -> bool, tmp: string, fs: set<string>, master: UploadFile, lots: seq<UploadFile>)
    ensures var r := Upload(conv, unlinkOk, tmp, fs, master, lots).response;
      r.Failed? ==> r.status == 400 || r.status == 500
  {
    ProcessSpec(conv, unlinkOk, tmp, fs, master, lots);
  }

  /** After a served request an intermediate is left behind exactly when
      its unlink fails; a failing unlink does not fail the request. */
  lemma UploadCleansIntermediates(conv: Converters, unlinkOk: string -> bool, tmp: string, fs: set<string>, master: UploadFile, lots: seq<UploadFile>, t: string)
    ensures var o := Upload(conv, unlinkOk, tmp, fs, master, lots);
      o.response.Served? && t in Intermediates(o.response.pieces) ==> (t in o.fs <==> !unlinkOk(t))
  {
    if MasterAccepted(master) {
      var p := Process(conv, unlinkOk, tmp, fs, master, lots);
      ProcessSpec(conv, unlinkOk, tmp, fs, master, lots);
      if p.raised.None? && t in p.job.tracked {
        var out := Join(tmp, OutputName);
        var swept := CleanIntermediates(p.job.tracked, p.job.fs + {out}, unlinkOk);
        assert t in swept.fs <==> !unlinkOk(t);
      }
    }
  }

  /** The merged file is on disk after a served request, unless its path is
      itself an intermediate whose unlink succeeded. */
  lemma UploadWritesOutput(conv: Converters, unlinkOk: string -> bool, tmp: string, fs: set<string>, master: UploadFile, lots: seq<UploadFile>)
    ensures var o := Upload(conv, unlinkOk, tmp, fs, master, lots);
      o.response.Served? && !(o.response.path in Intermediates(o.response.pieces) && unlinkOk(o.response.path)) ==> o.response.path in o.fs
  {
    ProcessSpec(conv, unlinkOk, tmp, fs, master, lots);
  }

  /** Skipping is all the loop does with a nameless file: running it on the
      named files alone gives the same result. */
  lemma {:induction false} RunSkipsNameless(conv: Converters, unlinkOk: string -> bool, tmp: string, job: Job, lots: seq<UploadFile>)
    ensures Run(conv, unlinkOk, tmp, job, lots) == Run(conv, unlinkOk, tmp, job, NonEmpty(lots))
    decreases |lots|
  {
    if |lots| > 0 {
      var l := lots[0];
      var p := Step(conv, unlinkOk, tmp, job, l);
      RunHead(conv, unlinkOk, tmp, job, lots);
      if l.filename == "" {
        assert p == Progress(job, None);
        assert NonEmpty(lots) == NonEmpty(lots[1..]);
        RunSkipsNameless(conv, unlinkOk, tmp, job, lots[1..]);
      } else {
        var rest := NonEmpty(lots[1..]);
        assert NonEmpty(lots) == [l] + rest;
        assert ([l] + rest)[0] == l && ([l] + rest)[1..] == rest;
        RunHead(conv, unlinkOk, tmp, job, [l] + rest);
        if p.raised.None? {
          RunSkipsNameless(conv, unlinkOk, tmp, p.job, lots[1..]);
        }
      }
    }
  }

  /** Lot files with an empty filename contribute nothing: the handler
      answers the same, and leaves the same disk, without them. */
  lemma UploadSkipsNameless(conv: Converters, unlinkOk: string -> bool, tmp: string, fs: set<string>, master: UploadFile, lots: seq<UploadFile>)
    ensures Upload(conv, unlinkOk, tmp, fs, master, lots) == Upload(conv, unlinkOk, tmp, fs, master, NonEmpty(lots))
  {
    ProcessSkipsNameless(conv, unlinkOk, tmp, fs, master, lots);
  }

  /** The `try` body, too, behaves the same without the nameless lot files. */
  lemma ProcessSkipsNameless(conv: Converters, unlinkOk: string -> bool, tmp: string, fs: set<string>, master: UploadFile, lots: seq<UploadFile>)
    ensures Process(conv, unlinkOk, tmp, fs, master, lots) == Process(conv, unlinkOk, tmp, fs, master, NonEmpty(lots))
  {
    var masterPath := Join(tmp, master.filename);
    if conv.writes(masterPath) && conv.readable(masterPath) {
      RunSkipsNameless(conv, unlinkOk, tmp, Job(fs + {masterPath}, [PassThrough(masterPath)], []), lots);
    }
  }

  /** The loop stops at the first file with a name that is not processable;
      if that file's extension is unsupported it raises the 400 naming it,
      unless the file could not even be written, which raises a non-HTTP
      error naming its path. */
  lemma {:induction false} RunStopsAtUnsupported(conv: Converters, unlinkOk: string -> bool, tmp: string, job: Job, lots: seq<UploadFile>, j: nat)
    requires job.tracked == Intermediates(job.pieces)
    requires j < |lots| && lots[j].filename != "" && Classify(lots[j].filename) == Unsupported
    requires forall i :: 0 <= i < j && lots[i].filename != "" ==> Processable(conv, tmp, lots[i].filename)
    ensures Run(conv, unlinkOk, tmp, job, lots).raised == Some(
      if conv.writes(Join(tmp, lots[j].filename)) then HttpError(400, UnsupportedPrefix + lots[j].filename)
      else Crash(Join(tmp, lots[j].filename)))
    decreases j
  {
    RunHead(conv, unlinkOk, tmp, job, lots);
    if j == 0 {
      StepStopsAtUnsupported(conv, unlinkOk, tmp, job, lots[0]);
    } else {
      StepPasses(conv, unlinkOk, tmp, job, lots[0]);
      ProcessableShift(conv, tmp, lots, j);
      RunStopsAtUnsupported(conv, unlinkOk, tmp, Step(conv, unlinkOk, tmp, job, lots[0]).job, lots[1..], j - 1);
    }
  }

  /** Dropping the first file shifts the processable prefix by one. */
  lemma ProcessableShift(conv: Converters, tmp: string, lots: seq<UploadFile>, j: nat)
    requires 0 < j < |lots|
    requires forall i :: 0 <= i < j && lots[i].filename != "" ==> Processable(conv, tmp, lots[i].filename)
    ensures lots[1..][j - 1] == lots[j]
    ensures forall i :: 0 <= i < j - 1 && lots[1..][i].filename != "" ==> Processable(conv, tmp, lots[1..][i].filename)
  {
    forall i | 0 <= i < j - 1 && lots[1..][i].filename != ""
      ensures Processable(conv, tmp, lots[1..][i].filename)
    {
      assert lots[1..][i] == lots[i + 1];
    }
  }

  /** An iteration on an unsupported name raises: the 400 naming the file
      when it could be written, the write error otherwise. */
  lemma StepStopsAtUnsupported(conv: Converters, unlinkOk: string -> bool, tmp: string, job: Job, l: UploadFile)
    requires job.tracked == Intermediates(job.pieces)
    requires l.filename != "" && Classify(l.filename) == Unsupported
    ensures Step(conv, unlinkOk, tmp, job, l).raised == Some(
      if conv.writes(Join(tmp, l.filename)) then HttpError(400, UnsupportedPrefix + l.filename)
      else Crash(Join(tmp, l.filename)))
  {
    StepErrors(conv, unlinkOk, tmp, job, l);
  }

  /** An iteration on a nameless or processable file completes and keeps
      the tracked list equal to the converted items. */
  lemma StepPasses(conv: Converters, unlinkOk: string -> bool, tmp: string, job: Job, l: UploadFile)
    requires job.tracked == Intermediates(job.pieces)
    requires l.filename != "" ==> Processable(conv, tmp, l.filename)
    ensures var p := Step(conv, unlinkOk, tmp, job, l);
      p.raised.None? && p.job.tracked == Intermediates(p.job.pieces)
  {
    StepSpec(conv, unlinkOk, tmp, job, l);
  }

  /** One turn of the loop. */
  lemma RunHead(conv: Converters, unlinkOk: string -> bool, tmp: string, job: Job, lots: seq<UploadFile>)
    requires |lots| > 0
    ensures var p := Step(conv, unlinkOk, tmp, job, lots[0]);
      Run(conv, unlinkOk, tmp, job, lots) == if p.raised.Some? then p else Run(conv, unlinkOk, tmp, p.job, lots[1..])
  {
  }

  /** A lot file with an unsupported extension, reached with everything
      before it processable, makes the whole request fail: with 400 naming
      that file when it could be written, with 500 naming its path when it
      could not. Nothing is written after the exception, so no merged file
      exists and the converted intermediates stay where they are. */
  lemma UploadRejectsUnsupported(conv: Converters, unlinkOk: string -> bool, tmp: string, fs: set<string>, master: UploadFile, lots: seq<UploadFile>, j: nat)
    requires MasterAccepted(master) && conv.writes(Join(tmp, master.filename)) && conv.readable(Join(tmp, master.filename))
    requires j < |lots| && lots[j].filename != "" && Classify(lots[j].filename) == Unsupported
    requires forall i :: 0 <= i < j && lots[i].filename != "" ==> Processable(conv, tmp, lots[i].filename)
    ensures var o := Upload(conv, unlinkOk, tmp, fs, master, lots);
      && o.response == (if conv.writes(Join(tmp, lots[j].filename)) then Failed(400, UnsupportedPrefix + lots[j].filename)
                        else Failed(500, InternalPrefix + Join(tmp, lots[j].filename)))
      && o.fs == Process(conv, unlinkOk, tmp, fs, master, lots).job.fs
  {
    var masterPath := Join(tmp, master.filename);
    var job := Job(fs + {masterPath}, [PassThrough(masterPath)], []);
    assert job.pieces[..0] == [];
    RunStopsAtUnsupported(conv, unlinkOk, tmp, job, lots, j);
  }

  /** `upload` as it was evidently meant to behave: the tracked
      intermediates are removed whether or not the request succeeds. */
  function UploadReclaiming(conv: Converters, unlinkOk: string -> bool, tmp: string, fs: set<string>, master: UploadFile, lots: seq<UploadFile>): Outcome
  {
    if !MasterAccepted(master) then Outcome(Failed(400, MasterDetail), fs)
    else
      var p := Process(conv, unlinkOk, tmp, fs, master, lots);
      if p.raised.Some? then Outcome(ToResponse(p.raised.value), CleanIntermediates(p.job.tracked, p.job.fs, unlinkOk).fs)
      else
        var out := Join(tmp, OutputName);
        Outcome(Served(out, OutputName, p.job.pieces), CleanIntermediates(p.job.tracked, p.job.fs + {out}, unlinkOk).fs)
  }

  /** The corrected handler answers every request exactly as the original
      does, and after it no converted intermediate whose unlink succeeds is
      left on disk, whatever the outcome. */
  lemma UploadReclaimingSpec(conv: Converters, unlinkOk: string -> bool, tmp: string, fs: set<string>, master: UploadFile, lots: seq<UploadFile>, t: string)
    ensures UploadReclaiming(conv, unlinkOk, tmp, fs, master, lots).response == Upload(conv, unlinkOk, tmp, fs, master, lots).response
    ensures MasterAccepted(master) && t in Process(conv, unlinkOk, tmp, fs, master, lots).job.tracked && unlinkOk(t) ==>
      t !in UploadReclaiming(conv, unlinkOk, tmp, fs, master, lots).fs
  {
  }

  /** The original handler leaks: when an image is converted and a later
      lot file has an unsupported extension, the request fails with 400 and
      the image's converted PDF is still on disk, tracked but never
      unlinked, although its unlink would succeed. */
  lemma UploadLeaksAfterConversion(conv: Converters, unlinkOk: string -> bool, tmp: string, fs: set<string>, master: UploadFile, img: UploadFile, bad: UploadFile)
    requires MasterAccepted(master) && conv.writes(Join(tmp, master.filename)) && conv.readable(Join(tmp, master.filename))
    requires img.filename != "" && Classify(img.filename) == Image
    requires conv.writes(Join(tmp, img.filename)) && conv.decodes(Join(tmp, img.filename))
    requires bad.filename != "" && Classify(bad.filename) == Unsupported && conv.writes(Join(tmp, bad.filename))
    requires unlinkOk(conv.tempPdf(0))
    ensures var o := Upload(conv, unlinkOk, tmp, fs, master, [img, bad]);
      && o.response == Failed(400, UnsupportedPrefix + bad.filename)
      && conv.tempPdf(0) in Process(conv, unlinkOk, tmp, fs, master, [img, bad]).job.tracked
      && conv.tempPdf(0) in o.fs
  {
    var lots := [img, bad];
    var masterPath := Join(tmp, master.filename);
    var job := Job(fs + {masterPath}, [PassThrough(masterPath)], []);
    assert Process(conv, unlinkOk, tmp, fs, master, lots) == Run(conv, unlinkOk, tmp, job, lots);
    ImageStepConverts(conv, unlinkOk, tmp, job, img);
    var p := Step(conv, unlinkOk, tmp, job, img);
    assert lots[0] == img && lots[1..] == [bad];
    assert Run(conv, unlinkOk, tmp, job, lots) == Run(conv, unlinkOk, tmp, p.job, [bad]);
    UnsupportedStepRaises(conv, unlinkOk, tmp, p.job, bad);
    var q := Step(conv, unlinkOk, tmp, p.job, bad);
    assert Run(conv, unlinkOk, tmp, p.job, [bad]) == q;
  }

  /** A written, decodable image is converted to the next temporary PDF,
      which is tracked and on disk. */
  lemma ImageStepConverts(conv: Converters, unlinkOk: string -> bool, tmp: string, job: Job, img: UploadFile)
    requires img.filename != "" && Classify(img.filename) == Image
    requires conv.writes(Join(tmp, img.filename)) && conv.decodes(Join(tmp, img.filename))
    ensures var p := Step(conv, unlinkOk, tmp, job, img);
      && p.raised.None?
      && p.job.tracked == job.tracked + [conv.tempPdf(|job.tracked|)]
      && conv.tempPdf(|job.tracked|) in p.job.fs
  {
  }

  /** A written file with an unsupported extension raises the 400 naming it
      and leaves the disk as it is, with the file written. */
  lemma UnsupportedStepRaises(conv: Converters, unlinkOk: string -> bool, tmp: string, job: Job, bad: UploadFile)
    requires bad.filename != "" && Classify(bad.filename) == Unsupported && conv.writes(Join(tmp, bad.filename))
    ensures Step(conv, unlinkOk, tmp, job, bad)
      == Progress(job.(fs := job.fs + {Join(tmp, bad.filename)}), Some(HttpError(400, UnsupportedPrefix + bad.filename)))
  {
  }

  /** An instance: `scan.png` is converted, then `notes`, which has no
      extension, fails the request, and `/tmp/conv0.pdf` is left behind. */
  lemma UploadLeaksOnFailure()
    ensures var conv := Converters(p => true, p => true, p => true, p => true, k => "/tmp/conv0.pdf");
      var master := UploadFile("master.pdf", PdfMediaType);
      var lots := [UploadFile("scan.png", "image/png"), UploadFile("notes", "text/plain")];
      var o := Upload(conv, p => true, "/tmp/req", {}, master, lots);
      && o.response == Failed(400, UnsupportedPrefix + "notes")
      && "/tmp/conv0.pdf" in Process(conv, p => true, "/tmp/req", {}, master, lots).job.tracked
      && "/tmp/conv0.pdf" in o.fs
  {
    var conv := Converters(p => true, p => true, p => true, p => true, k => "/tmp/conv0.pdf");
    ScanIsImage();
    NotesIsUnsupported();
    UploadLeaksAfterConversion(conv, p => true, "/tmp/req", {}, UploadFile("master.pdf", PdfMediaType),
      UploadFile("scan.png", "image/png"), UploadFile("notes", "text/plain"));
  }

  lemma ScanIsImage()
    ensures Classify("scan.png") == Image
  {
    assert "scan.png" == "scan" + ".png";
    PngIsImage("scan");
  }

  /** Any name ending in `.png` is dispatched as an image. */
  lemma PngIsImage(stem: string)
    ensures Classify(stem + ".png") == Image
  {
    assert Lower("png") == "png";
    assert stem + ".png" == stem + "." + "png";
    ClassifyAppend(stem, "png");
  }

  /** A name without a dot has no extension, so it is unsupported. */
  lemma NotesIsUnsupported()
    ensures Classify("notes") == Unsupported
  {
    assert '.' !in "notes";
  }
}

=== FILE: formats.dfy ===
/** Recognising a file's format from its name: the three extension tests of
    the web variants (Flask/api/tender.py, app.py, api/tender.py), the
    suffix tests `is_image` / `is_word`, and the dispatch classes. */
module Formats {
  import opened Text

  /** What the merge does with a file. */
  datatype Kind = PageDoc | Image | WordDoc | Unsupported

  /** The extensions the Flask app (`ALLOWED_EXTENSIONS`) and the FastAPI
      app (`allowed_file`) accept; `docx` is not among them. */
  const AllowedExtensions: set<string> := {"pdf", "jpg", "jpeg", "png"}

  /** Flask/api/tender.py: the lowercased text after the last dot of a lot
      file name, or the empty string when the name has no dot. */
  function Extension(name: string): (ext: string)
  {
    if '.' in name then AfterLast(Lower(name), '.') else ""
  }

  /** What the extension is: empty without a dot, otherwise the lowercased
      last dot-segment, which the lowercased name ends with. */
  lemma ExtensionSpec(name: string)
    ensures '.' !in Extension(name)
    ensures '.' !in name ==> Extension(name) == ""
    ensures '.' in name ==> Extension(name) == Lower(AfterLast(name, '.'))
    ensures '.' in name ==> EndsWith(Lower(name), "." + Extension(name))
  {
    LowerKeepsDot(name);
    LowerAfterLastDot(name);
    if '.' in name {
      SuffixAfterLast(Lower(name), '.', Extension(name));
    }
  }

  /** A non-empty dot-free `e` is the extension exactly when the lowercased
      name ends with `.e`. */
  lemma ExtensionSuffix(name: string, e: string, dotted: string)
    requires e != "" && '.' !in e && dotted == "." + e
    ensures Extension(name) == e <==> EndsWith(Lower(name), dotted)
  {
    LowerKeepsDot(name);
    ExtensionSpec(name);
    SuffixAfterLast(Lower(name), '.', e);
    assert ['.'] + e == dotted;
  }

  /** `is_image`: the lowercased name ends with `.jpg`, `.jpeg` or `.png`.
      The same test picks the images to convert in app.py and in both
      desktop apps. */
  predicate IsImageName(name: string)
  {
    var l := Lower(name);
    EndsWith(l, ".jpg") || EndsWith(l, ".jpeg") || EndsWith(l, ".png")
  }

  /** `is_word`: the lowercased name ends with `.docx`. */
  predicate IsWordName(name: string)
  {
    EndsWith(Lower(name), ".docx")
  }

  /** The dispatch of the Flask upload handler on `Extension(name)`. */
  function Classify(name: string): Kind
  {
    KindOf(Extension(name))
  }

  /** A name whose lowercased form ends with `.e` is dispatched on `e`. */
  lemma ClassifyBySuffix(name: string, e: string, dotted: string)
    requires e != "" && '.' !in e && dotted == "." + e
    requires EndsWith(Lower(name), dotted)
    ensures Classify(name) == KindOf(e)
  {
    ExtensionSuffix(name, e, dotted);
  }

  /** Lower-casing `stem.e`, with `e` already lower case, touches only the
      stem. */
  lemma LowerAppendDotted(stem: string, e: string)
    requires Lower(e) == e
    ensures Lower(stem + "." + e) == Lower(stem) + ("." + e)
  {
    assert stem + "." + e == stem + ("." + e);
    LowerConcat(stem, "." + e);
    LowerConcat(".", e);
    assert Lower(".") == ".";
  }

  /** Appending `.e`, with `e` already lower case, makes `e` the extension
      whatever comes before it. */
  lemma ClassifyAppend(stem: string, e: string)
    requires e != "" && '.' !in e && Lower(e) == e
    ensures Classify(stem + "." + e) == KindOf(e)
  {
    var name, dotted := stem + "." + e, "." + e;
    LowerAppendDotted(stem, e);
    EndsWithConcat(Lower(stem), dotted);
    ClassifyBySuffix(name, e, dotted);
  }

  /** The classes of the dispatch agree with the suffix tests above. */
  lemma ClassifySpec(name: string)
    ensures Classify(name) == PageDoc <==> EndsWith(Lower(name), ".pdf")
    ensures Classify(name) == Image <==> IsImageName(name)
    ensures Classify(name) == WordDoc <==> IsWordName(name)
  {
    ImageSuffixes(name);
    ExtensionSuffix(name, "pdf", ".pdf");
    ExtensionSuffix(name, "docx", ".docx");
  }

  lemma ImageSuffixes(name: string)
    ensures IsImageName(name) <==> (Extension(name) == "jpg" || Extension(name) == "jpeg" || Extension(name) == "png")
  {
    var e := Extension(name);
    var l := Lower(name);
    ExtensionSuffix(name, "jpg", ".jpg");
    ExtensionSuffix(name, "jpeg", ".jpeg");
    ExtensionSuffix(name, "png", ".png");
    var a := EndsWith(l, ".jpg");
    var b := EndsWith(l, ".jpeg");
    var c := EndsWith(l, ".png");
    assert a <==> e == "jpg";
    assert b <==> e == "jpeg";
    assert c <==> e == "png";
    assert IsImageName(name) == (a || b || c);
  }

  /** The branches of the dispatch, by extension. */
  function KindOf(ext: string): (k: Kind)
    ensures ext in AllowedExtensions ==> k == PageDoc || k == Image
    ensures k == WordDoc ==> ext !in AllowedExtensions
  {
    if ext == "pdf" then PageDoc
    else if ext == "jpg" || ext == "jpeg" || ext == "png" then Image
    else if ext == "docx" then WordDoc
    else Unsupported
  }

  /** app.py `allowed_file`: the name has a dot and the lowercased part after
      the last dot (`rsplit('.', 1)[1]`) is an allowed extension. */
  predicate AppAllowed(name: string)
  {
    '.' in name && Lower(AfterLast(name, '.')) in AllowedExtensions
  }

  /** api/tender.py `allowed_file`: the lowercased last `split('.')` piece is
      an allowed extension; no dot is required. */
  predicate ApiAllowed(name: string)
  {
    Lower(AfterLast(name, '.')) in AllowedExtensions
  }

  /** How the extension tests of app.py and api/tender.py relate: app.py's
      test is the Flask extension checked against the allowed set, and
      api/tender.py accepts everything app.py accepts plus dotless names that
      are themselves an allowed extension. */
  lemma AllowedVariants(name: string)
    ensures AppAllowed(name) <==> Extension(name) in AllowedExtensions
    ensures ApiAllowed(name) <==> AppAllowed(name) || ('.' !in name && Lower(name) in AllowedExtensions)
  {
    var e := Extension(name);
    var last := Lower(AfterLast(name, '.'));
    assert AppAllowed(name) == ('.' in name && last in AllowedExtensions);
    assert ApiAllowed(name) == (last in AllowedExtensions);
    if '.' in name {
      LowerAfterLastDot(name);
      assert e == last;
    } else {
      assert e == "";
      EmptyNotAllowed();
      AfterLastWhole(name, '.');
      assert last == Lower(name);
    }
  }

  lemma EmptyNotAllowed()
    ensures "" !in AllowedExtensions
  {
    assert forall x | x in AllowedExtensions :: |x| > 0;
  }

  /** A name app.py allows is a PDF or an image for the Flask dispatch, and
      a name the dispatch sees as a Word document is allowed by neither
      app.py nor api/tender.py. */
  lemma AllowedKinds(name: string)
    ensures AppAllowed(name) ==> Classify(name) == PageDoc || Classify(name) == Image
    ensures Classify(name) == WordDoc ==> !ApiAllowed(name)
  {
    AllowedVariants(name);
    ClassifyByExtension(name);
    var e := Extension(name);
    ExtensionSpec(name);
    if '.' !in name {
      AfterLastWhole(name, '.');
    }
  }

  lemma ClassifyByExtension(name: string)
    ensures Classify(name) == KindOf(Extension(name))
  {
  }

  /** A bare `pdf` passes api/tender.py's test but not app.py's. */
  lemma DotlessNameAcceptedOnlyByApi()
    ensures ApiAllowed("pdf") && !AppAllowed("pdf")
  {
    AfterLastWhole("pdf", '.');
    assert Lower("pdf") == "pdf";
  }
}

=== FILE: inst_wizard.dfy ===
/** The older desktop wizard, inst.py. It has no "select existing folder"
    step, and it assigns the folder and the master path before the action
    they stand for has succeeded: a folder name that already exists still
    becomes the new folder, and a master whose copy failed is still the
    master. At generation it looks for the master's copy in the new folder.
    The disk is the set of paths that exist. */
module InstWizard {
  import opened Wrappers
  import opened Seqs
  import opened Text
  import opened Paths
  import opened Required
  import opened Assembly
  import opened Desktop

  datatype Wizard = Wizard(
    newFolder: Option<string>,
    master: Option<string>,
    lotFolder: Option<string>,
    masterButton: bool,
    lotButton: bool,
    generateButton: bool)

  const Start := Wizard(None, None, None, false, false, false)

  /** After a handler: the state, the disk and the message box, if any. */
  datatype Screen = Screen(w: Wizard, disk: set<string>, notice: Option<Notice>)

  /** Each enabled button has what its handler checks for, and a path that
      is set is not empty, so the handlers' `None` tests agree with Python's
      `not path`. */
  predicate Good(w: Wizard)
  {
    && (w.newFolder.Some? ==> w.newFolder.value != "")
    && (w.master.Some? ==> w.master.value != "")
    && (w.lotFolder.Some? ==> w.lotFolder.value != "")
    && (w.masterButton ==> w.newFolder.Some?)
    && (w.lotButton ==> w.newFolder.Some? && w.master.Some?)
    && (w.generateButton ==> w.newFolder.Some? && w.master.Some? && w.lotFolder.Some?)
  }

  /** `create_folder` as written: the entry's text, stripped, names a folder
      under the working directory, and that path becomes the new folder
      before it is known whether it can be created. Only an empty entry is
      refused; a blank one gets through. */
  function CreateFolder(w: Wizard, disk: set<string>, cwd: string, entry: string, mkdirOk: bool): Screen
  {
    if entry == "" then Screen(w, disk, Some(Error("Input Error", [])))
    else
      var path := Join(cwd, Strip(entry));
      var w1 := w.(newFolder := Some(path));
      if path in disk then Screen(w1, disk, Some(Error("Folder Error", [])))
      else if !mkdirOk then Screen(w1, disk, Some(Error("Folder Creation Error", [])))
      else Screen(w1.(masterButton := true), disk + {path}, Some(Info("Success")))
  }

  /** Any non-empty entry replaces the new folder, even when the folder
      exists already or cannot be created; only success enables the master
      button. */
  lemma CreateFolderAssignsFirst(w: Wizard, disk: set<string>, cwd: string, entry: string, mkdirOk: bool)
    requires entry != ""
    ensures var s := CreateFolder(w, disk, cwd, entry, mkdirOk);
      var path := Join(cwd, Strip(entry));
      && s.w.newFolder == Some(path)
      && (path in disk ==> s.notice == Some(Error("Folder Error", [])) && s.w.masterButton == w.masterButton && s.disk == disk)
      && (s.w.masterButton <==> w.masterButton || (path !in disk && mkdirOk))
  {
  }

  /** A blank entry is not refused: it strips to nothing and names the
      working directory itself. */
  lemma BlankEntryNamesWorkingDirectory(w: Wizard, disk: set<string>, cwd: string, entry: string, mkdirOk: bool)
    requires entry != "" && forall i :: 0 <= i < |entry| ==> IsSpace(entry[i])
    requires cwd != "" && cwd[|cwd| - 1] != '/'
    ensures CreateFolder(w, disk, cwd, entry, mkdirOk).w.newFolder == Some(cwd + "/")
  {
    assert Strip(entry) == "";
    assert Join(cwd, "") == cwd + "/" + "";
    assert cwd + "/" + "" == cwd + "/";
  }

  /** A failed creation redirects the next master upload: after an entry
      that names an existing folder, with the master button still enabled
      from an earlier folder, the master is copied into that existing
      folder. */
  lemma FailedCreateRedirectsUpload(w: Wizard, disk: set<string>, cwd: string, entry: string, mkdirOk: bool,
                                    file: string, copyOk: bool)
    requires entry != "" && Join(cwd, Strip(entry)) in disk
    requires file != "" && copyOk
    ensures var s1 := CreateFolder(w, disk, cwd, entry, mkdirOk);
      var s2 := UploadMaster(s1.w, s1.disk, file, copyOk);
      && s1.notice == Some(Error("Folder Error", []))
      && s2.disk == disk + {Join(Join(cwd, Strip(entry)), Basename(file))}
  {
  }

  /** `create_folder` with the assignment moved after the checks, as in
      tkinter/tender.py. */
  function CreateFolderFixed(w: Wizard, disk: set<string>, cwd: string, entry: string, mkdirOk: bool): Screen
  {
    if entry == "" then Screen(w, disk, Some(Error("Input Error", [])))
    else
      var path := Join(cwd, Strip(entry));
      if path in disk then Screen(w, disk, Some(Error("Folder Error", [])))
      else if !mkdirOk then Screen(w, disk, Some(Error("Folder Creation Error", [])))
      else Screen(w.(newFolder := Some(path), masterButton := true), disk + {path}, Some(Info("Success")))
  }

  /** With the fix, a creation that fails leaves the wizard as it was, and
      a new folder is only ever one the handler has just created. */
  lemma CreateFolderFixedSpec(w: Wizard, disk: set<string>, cwd: string, entry: string, mkdirOk: bool)
    ensures var s := CreateFolderFixed(w, disk, cwd, entry, mkdirOk);
      && (s.notice.Some? && s.notice.value.Error? ==> s.w == w && s.disk == disk)
      && (s.w.newFolder != w.newFolder ==> s.w.newFolder.value !in disk && s.w.newFolder.value in s.disk)
  {
  }

  /** `upload_master_file` as written: the chosen file becomes the master
      before it is copied into the new folder. `file` is the dialog's answer,
      empty when cancelled. */
  function UploadMaster(w: Wizard, disk: set<string>, file: string, copyOk: bool): Screen
  {
    if w.newFolder.None? then Screen(w, disk, Some(Error("Folder Error", [])))
    else if file == "" then Screen(w, disk, None)
    else
      var w1 := w.(master := Some(file));
      var dest := Join(w.newFolder.value, Basename(file));
      if !copyOk then Screen(w1, disk, Some(Error("File Copy Error", [])))
      else Screen(w1.(lotButton := true), disk + {dest}, Some(Info("Success")))
  }

  /** The master is the chosen file itself, not its copy, and stays set
      when the copy fails; only a successful copy enables the lot button. */
  lemma UploadMasterSetsFirst(w: Wizard, disk: set<string>, file: string, copyOk: bool)
    requires w.newFolder.Some? && file != ""
    ensures var s := UploadMaster(w, disk, file, copyOk);
      && s.w.master == Some(file)
      && (s.w.lotButton <==> w.lotButton || copyOk)
      && (copyOk <==> s.disk == disk + {Join(w.newFolder.value, Basename(file))} && s.notice == Some(Info("Success")))
  {
    var dest := Join(w.newFolder.value, Basename(file));
    assert dest in disk + {dest};
  }

  /** `upload_lot_folder`: needs a folder and a master; the chosen folder
      becomes the lot folder and is checked for the required documents. */
  function UploadLotFolder(w: Wizard, disk: set<string>, folder: string): Screen
  {
    if w.newFolder.None? || w.master.None? then Screen(w, disk, Some(Error("Error", [])))
    else if folder == "" then Screen(w, disk, None)
    else
      var w1 := w.(lotFolder := Some(folder));
      var missing := MissingInFolder(RequiredFiles, folder, disk);
      if missing != [] then Screen(w1, disk, Some(Error("Missing Files", missing)))
      else Screen(w1.(generateButton := true), disk, Some(Info("Success")))
  }

  /** Without a folder and a master nothing changes; otherwise the box lists
      exactly the required names absent from the lot folder, and the
      generate button is enabled only when all four are present. */
  lemma UploadLotFolderSpec(w: Wizard, disk: set<string>, folder: string)
    ensures var s := UploadLotFolder(w, disk, folder);
      (w.newFolder.None? || w.master.None?) ==> s == Screen(w, disk, Some(Error("Error", [])))
    ensures var s := UploadLotFolder(w, disk, folder);
      var missing := MissingInFolder(RequiredFiles, folder, disk);
      w.newFolder.Some? && w.master.Some? && folder != "" ==>
        && s.w.lotFolder == Some(folder)
        && (missing != [] ==> s.notice == Some(Error("Missing Files", missing)) && s.w.generateButton == w.generateButton)
        && (missing == [] <==> s.notice == Some(Info("Success")))
        && (s.w.generateButton <==> w.generateButton || forall f :: f in RequiredFiles ==> Join(folder, f) in disk)
  {
    if w.newFolder.Some? && w.master.Some? && folder != "" {
      var missing := MissingInFolder(RequiredFiles, folder, disk);
      if missing != [] {
        assert missing[0] in missing;
      }
    }
  }

  /** Where generation looks for the master: its copy in the new folder. */
  function MasterCopy(newFolder: string, master: string): string
  {
    Join(newFolder, Basename(master))
  }

  /** `generate_tender`: nothing without all three paths or without the
      master's copy in the new folder; otherwise the shared generation, with
      the copy as the master and this variant's error titles. */
  function Generate(w: Wizard, disk: set<string>, conv: Converters): Generated
  {
    if w.newFolder.None? || w.master.None? || w.lotFolder.None? then Generated(disk, Error("Input Error", []), None)
    else
      var copy := MasterCopy(w.newFolder.value, w.master.value);
      if copy !in disk then Generated(disk, Error("Missing File", []), None)
      else Produce(conv, disk, w.newFolder.value, copy, w.lotFolder.value, "Error", "Unsupported File")
  }

  /** A tender is written only when all three paths are set and the
      master's copy exists in the new folder; it then starts with that copy,
      not with the file originally chosen, followed by the required documents
      in list order less any image that could not be converted, and goes to
      `Tender_<lot folder>.pdf` in the new folder, next to the temporary PDFs
      of the converted images. Nothing is written when a path, the copy or a
      required document is missing, or when the copy cannot be read. */
  lemma GenerateSpec(w: Wizard, disk: set<string>, conv: Converters)
    ensures var g := Generate(w, disk, conv);
      g.tender.Some? ==>
        && w.newFolder.Some? && w.master.Some? && w.lotFolder.Some?
        && MasterCopy(w.newFolder.value, w.master.value) in disk
        && MissingInFolder(RequiredFiles, w.lotFolder.value, disk) == []
        && g.tender.value.path == TenderPath(w.newFolder.value, w.lotFolder.value)
        && g.disk == disk + Elems(Intermediates(g.tender.value.merged)) + {TenderPath(w.newFolder.value, w.lotFolder.value)}
        && Sources(g.tender.value.merged)
           == [MasterCopy(w.newFolder.value, w.master.value)] + Survivors(conv, JoinAll(w.lotFolder.value, RequiredFiles))
    ensures var g := Generate(w, disk, conv);
      (|| w.newFolder.None? || w.master.None? || w.lotFolder.None?
       || MasterCopy(w.newFolder.value, w.master.value) !in disk
       || MissingInFolder(RequiredFiles, w.lotFolder.value, disk) != []
       || !conv.readable(MasterCopy(w.newFolder.value, w.master.value))) ==> g.tender.None? && g.disk == disk
    ensures Generate(w, disk, conv).notice.title != "Unsupported File"
  {
    if w.newFolder.Some? && w.master.Some? && w.lotFolder.Some? {
      var copy := MasterCopy(w.newFolder.value, w.master.value);
      if copy in disk {
        ProduceWrites(conv, disk, w.newFolder.value, copy, w.lotFolder.value, "Error", "Unsupported File");
        ProduceNeverUnsupported(conv, disk, w.newFolder.value, copy, w.lotFolder.value, "Error", "Unsupported File");
      }
    }
  }

  lemma StartGood()
    ensures Good(Start)
  {
  }

  /** Every handler keeps the state good. */
  lemma CreateFolderKeepsGood(w: Wizard, disk: set<string>, cwd: string, entry: string, mkdirOk: bool)
    requires Good(w) && cwd != ""
    ensures Good(CreateFolder(w, disk, cwd, entry, mkdirOk).w)
    ensures Good(CreateFolderFixed(w, disk, cwd, entry, mkdirOk).w)
  {
    JoinFromNonEmpty(cwd, Strip(entry));
  }

  lemma UploadMasterKeepsGood(w: Wizard, disk: set<string>, file: string, copyOk: bool)
    requires Good(w)
    ensures Good(UploadMaster(w, disk, file, copyOk).w)
  {
  }

  lemma UploadLotFolderKeepsGood(w: Wizard, disk: set<string>, folder: string)
    requires Good(w)
    ensures Good(UploadLotFolder(w, disk, folder).w)
  {
  }

  /** In a good state an enabled generate button means generation gets past
      its `Input Error` guard. */
  lemma EnabledGeneratePassesGuard(w: Wizard, disk: set<string>, conv: Converters)
    requires Good(w) && w.generateButton
    ensures Generate(w, disk, conv).notice.title != "Input Error"
  {
    var copy := MasterCopy(w.newFolder.value, w.master.value);
    if copy in disk {
      ProduceTitles(conv, disk, w.newFolder.value, copy, w.lotFolder.value, "Error", "Unsupported File");
    }
  }
}

=== FILE: paths.dfy ===
/** POSIX path handling as the tender code uses it: `os.path.join`,
    `os.path.basename`, and, to talk about where a joined path really points,
    the kernel's resolution of `.` and `..` segments. */
module Paths {
  import opened Text

  /** `os.path.join(dir, name)` on POSIX: an absolute `name` replaces `dir`;
      otherwise a separator is inserted unless `dir` is empty or already ends
      with one. */
  function Join(dir: string, name: string): string
  {
    if |name| > 0 && name[0] == '/' then name
    else if |dir| == 0 || dir[|dir| - 1] == '/' then dir + name
    else dir + "/" + name
  }

  /** The joined path ends with the name; an absolute name replaces the
      directory, and any other name is placed below it. */
  lemma JoinSpec(dir: string, name: string)
    ensures EndsWith(Join(dir, name), name)
    ensures |name| > 0 && name[0] == '/' ==> Join(dir, name) == name
    ensures |name| == 0 || name[0] != '/' ==> dir <= Join(dir, name)
  {
    var r := Join(dir, name);
    assert r[|r| - |name|..] == name;
  }

  /** A relative name joined to a directory not ending with `/` gets exactly
      one separator. */
  lemma JoinPlain(dir: string, name: string)
    requires |dir| > 0 && dir[|dir| - 1] != '/'
    requires |name| > 0 && name[0] != '/'
    ensures Join(dir, name) == dir + "/" + name
  {
  }

  /** Joining a non-empty name never gives the empty path. */
  lemma JoinNonEmpty(dir: string, name: string)
    requires name != ""
    ensures Join(dir, name) != ""
  {
    JoinSpec(dir, name);
  }

  /** Nor is a name joined to a non-empty directory. */
  lemma JoinFromNonEmpty(dir: string, name: string)
    requires dir != ""
    ensures Join(dir, name) != ""
  {
  }

  /** `os.path.join(dir, n)` for every `n` of `names`, in order. */
  function JoinAll(dir: string, names: seq<string>): (r: seq<string>)
    ensures |r| == |names|
    ensures forall i :: 0 <= i < |names| ==> r[i] == Join(dir, names[i])
  {
    seq(|names|, i requires 0 <= i < |names| => Join(dir, names[i]))
  }

  lemma JoinAllCons(dir: string, n: string, ns: seq<string>)
    ensures JoinAll(dir, [n] + ns) == [Join(dir, n)] + JoinAll(dir, ns)
  {
  }

  lemma JoinAllConcat(dir: string, a: seq<string>, b: seq<string>)
    ensures JoinAll(dir, a + b) == JoinAll(dir, a) + JoinAll(dir, b)
  {
  }

  /** `os.path.basename(p)`: the text after the last `/`. */
  function Basename(p: string): (r: string)
    ensures '/' !in r
    ensures EndsWith(p, r)
    ensures |r| < |p| ==> p[|p| - |r| - 1] == '/'
  {
    AfterLast(p, '/')
  }

  /** `s.split(c)`: the pieces between occurrences of `c`; never empty.
      Built from the end: a final `c` closes the last piece and opens an
      empty one, any other final character extends the last piece. */
  function SplitOn(s: string, c: char): (r: seq<string>)
    ensures |r| >= 1
  {
    if |s| == 0 then [""]
    else
      var t := SplitOn(s[..|s| - 1], c);
      var x := s[|s| - 1];
      if x == c then t + [""] else t[..|t| - 1] + [t[|t| - 1] + [x]]
  }

  /** Appending `c` and then a piece free of `c` adds that piece. */
  lemma {:induction false} SplitOnSnoc(a: string, c: char, w: string)
    requires c !in w
    ensures SplitOn(a + [c] + w, c) == SplitOn(a, c) + [w]
    decreases |w|
  {
    var s := a + [c] + w;
    if |w| == 0 {
      assert s == a + [c];
      assert s[..|s| - 1] == a;
    } else {
      var init := w[..|w| - 1];
      var y := w[|w| - 1];
      assert s[..|s| - 1] == a + [c] + init;
      assert s[|s| - 1] == y;
      SplitOnSnoc(a, c, init);
      var t := SplitOn(a, c) + [init];
      assert t[..|t| - 1] == SplitOn(a, c);
      assert init + [y] == w;
    }
  }

  /** A string without `c` is a single piece. */
  lemma {:induction false} SplitOnWithout(s: string, c: char)
    requires c !in s
    ensures SplitOn(s, c) == [s]
    decreases |s|
  {
    if |s| > 0 {
      SplitOnWithout(s[..|s| - 1], c);
      assert s[..|s| - 1] + [s[|s| - 1]] == s;
    }
  }

  /** A path segment that names a directory entry: not empty, not `.` or `..`,
      and free of `/`. */
  predicate Ordinary(seg: string)
  {
    seg != "" && seg != "." && seg != ".." && '/' !in seg
  }

  /** The absolute path whose segments are `segs`: `/s1/s2/.../sn`. */
  function Abs(segs: seq<string>): string
  {
    if |segs| == 0 then "" else Abs(segs[..|segs| - 1]) + "/" + segs[|segs| - 1]
  }

  lemma {:induction false} SplitAbs(segs: seq<string>)
    requires forall i :: 0 <= i < |segs| ==> '/' !in segs[i]
    ensures SplitOn(Abs(segs), '/') == [""] + segs
    decreases |segs|
  {
    if |segs| > 0 {
      var init := segs[..|segs| - 1];
      var last := segs[|segs| - 1];
      SplitAbs(init);
      SplitOnSnoc(Abs(init), '/', last);
      assert Abs(init) + "/" + last == Abs(init) + ['/'] + last;
      assert init + [last] == segs;
    }
  }

  /** Where a list of segments leads from the directory `stack`: empty and `.`
      segments stay, `..` goes to the parent (the root is its own parent),
      anything else descends. */
  function Resolve(stack: seq<string>, segs: seq<string>): seq<string>
    decreases |segs|
  {
    if |segs| == 0 then stack
    else if segs[0] == "" || segs[0] == "." then Resolve(stack, segs[1..])
    else if segs[0] == ".." then Resolve(if |stack| == 0 then [] else stack[..|stack| - 1], segs[1..])
    else Resolve(stack + [segs[0]], segs[1..])
  }

  lemma {:induction false} ResolveConcat(stack: seq<string>, a: seq<string>, b: seq<string>)
    ensures Resolve(stack, a + b) == Resolve(Resolve(stack, a), b)
    decreases |a|
  {
    if |a| > 0 {
      assert (a + b)[0] == a[0];
      assert (a + b)[1..] == a[1..] + b;
      var next := if a[0] == "" || a[0] == "." then stack
        else if a[0] == ".." then (if |stack| == 0 then [] else stack[..|stack| - 1])
        else stack + [a[0]];
      ResolveConcat(next, a[1..], b);
    } else {
      assert a + b == b;
    }
  }

  lemma {:induction false} ResolveOrdinary(stack: seq<string>, segs: seq<string>)
    requires forall i :: 0 <= i < |segs| ==> Ordinary(segs[i])
    ensures Resolve(stack, segs) == stack + segs
    decreases |segs|
  {
    if |segs| > 0 {
      ResolveOrdinary(stack + [segs[0]], segs[1..]);
      assert stack + [segs[0]] + segs[1..] == stack + segs;
    }
  }

  /** An absolute path built from ordinary segments does not end with `/`. */
  lemma AbsEndsInName(segs: seq<string>)
    requires |segs| > 0 && Ordinary(segs[|segs| - 1])
    ensures |Abs(segs)| > 0 && Abs(segs)[|Abs(segs)| - 1] != '/'
  {
    var last := segs[|segs| - 1];
    assert Abs(segs) == Abs(segs[..|segs| - 1]) + "/" + last;
    assert Abs(segs)[|Abs(segs)| - 1] == last[|last| - 1];
  }

  /** The directory entries an absolute path `p` leads to, from the root. */
  function Location(p: string): seq<string>
  {
    Resolve([], SplitOn(p, '/'))
  }

  /** The location of `/s1/.../sn` is `s1, ..., sn` when every segment is ordinary. */
  lemma LocationAbs(segs: seq<string>)
    requires forall i :: 0 <= i < |segs| ==> Ordinary(segs[i])
    ensures Location(Abs(segs)) == segs
  {
    assert forall i :: 0 <= i < |segs| ==> '/' !in segs[i];
    SplitAbs(segs);
    ResolveRooted(segs);
  }

  /** Resolving from the root through ordinary segments keeps them all. */
  lemma ResolveRooted(segs: seq<string>)
    requires forall i :: 0 <= i < |segs| ==> Ordinary(segs[i])
    ensures Resolve([], [""] + segs) == segs
  {
    ResolveConcat([], [""], segs);
    assert Resolve([], [""]) == Resolve([], [""][1..]) == [];
    ResolveOrdinary([], segs);
  }

  /** `p` leads strictly below the directory `dir`. */
  predicate Within(dir: string, p: string)
  {
    Location(dir) < Location(p)
  }

  /** Every segment of `segs` is an entry name. */
  predicate AllOrdinary(segs: seq<string>)
  {
    forall i :: 0 <= i < |segs| ==> Ordinary(segs[i])
  }

  lemma JoinAbsPlain(segs: seq<string>, name: string)
    requires |segs| > 0 && AllOrdinary(segs)
    requires |name| > 0 && name[0] != '/'
    ensures Join(Abs(segs), name) == Abs(segs) + "/" + name
  {
    AbsEndsInName(segs);
  }

  lemma AbsSnoc(segs: seq<string>, leaf: string)
    ensures Abs(segs + [leaf]) == Abs(segs) + "/" + leaf
  {
    assert (segs + [leaf])[..|segs|] == segs;
  }

  /** A plain entry name joined to a directory stays inside it: the result
      leads one level below `dir`. */
  lemma JoinPlainNameConfined(segs: seq<string>, leaf: string)
    requires |segs| > 0 && AllOrdinary(segs)
    requires Ordinary(leaf)
    ensures Location(Join(Abs(segs), leaf)) == segs + [leaf]
    ensures Within(Abs(segs), Join(Abs(segs), leaf))
  {
    JoinAbsPlain(segs, leaf);
    AbsSnoc(segs, leaf);
    var all := segs + [leaf];
    assert AllOrdinary(all);
    LocationAbs(all);
    LocationAbs(segs);
  }

  /** `os.path.join` does not confine a name that starts with `..`: the joined
      path leads to a sibling of `dir`, outside it. */
  lemma JoinDotDotEscapes(segs: seq<string>, leaf: string)
    requires |segs| > 0 && AllOrdinary(segs)
    requires Ordinary(leaf)
    ensures Location(Join(Abs(segs), "../" + leaf)) == segs[..|segs| - 1] + [leaf]
    ensures !Within(Abs(segs), Join(Abs(segs), "../" + leaf))
  {
    JoinDotDotAbs(segs, leaf);
    var all := segs + ["..", leaf];
    NoSlashUp(segs, leaf);
    SplitAbs(all);
    LocationOfSteps(segs, leaf);
    LocationAbs(segs);
    var loc := segs[..|segs| - 1] + [leaf];
    assert Location(Join(Abs(segs), "../" + leaf)) == loc;
    assert |loc| == |segs|;
  }

  lemma NoSlashUp(segs: seq<string>, leaf: string)
    requires AllOrdinary(segs) && Ordinary(leaf)
    ensures forall i :: 0 <= i < |segs| + 2 ==> '/' !in (segs + ["..", leaf])[i]
  {
    var all := segs + ["..", leaf];
    assert forall i :: 0 <= i < |segs| ==> all[i] == segs[i];
    assert all[|segs|] == ".." && all[|segs| + 1] == leaf;
  }

  lemma JoinDotDotAbs(segs: seq<string>, leaf: string)
    requires |segs| > 0 && AllOrdinary(segs)
    requires Ordinary(leaf)
    ensures Join(Abs(segs), "../" + leaf) == Abs(segs + ["..", leaf])
  {
    JoinAbsPlain(segs, "../" + leaf);
    AbsSnocUp(segs, leaf);
    DotDotText(Abs(segs), leaf);
  }

  lemma DotDotText(d: string, leaf: string)
    ensures d + "/" + ("../" + leaf) == (d + "/" + "..") + "/" + leaf
  {
  }

  lemma AbsSnocUp(segs: seq<string>, leaf: string)
    ensures Abs(segs + ["..", leaf]) == (Abs(segs) + "/" + "..") + "/" + leaf
  {
    AbsSnoc(segs, "..");
    AbsSnoc(segs + [".."], leaf);
    assert segs + [".."] + [leaf] == segs + ["..", leaf];
  }

  lemma LocationOfSteps(segs: seq<string>, leaf: string)
    requires |segs| > 0 && AllOrdinary(segs)
    requires Ordinary(leaf)
    ensures Resolve([], [""] + (segs + ["..", leaf])) == segs[..|segs| - 1] + [leaf]
  {
    var up: seq<string> := ["..", leaf];
    assert [""] + (segs + up) == ([""] + segs) + up;
    ResolveConcat([], [""] + segs, up);
    ResolveRooted(segs);
    ResolveUpLeaf(segs, leaf);
  }

  /** `..` followed by an entry name replaces the last segment. */
  lemma ResolveUpLeaf(stack: seq<string>, leaf: string)
    requires |stack| > 0 && Ordinary(leaf)
    ensures Resolve(stack, ["..", leaf]) == stack[..|stack| - 1] + [leaf]
  {
    var up: seq<string> := ["..", leaf];
    assert up[1..] == [leaf];
    assert Resolve(stack, up) == Resolve(stack[..|stack| - 1], [leaf]);
    assert [leaf][1..] == [];
  }

  /** `os.path.join` does not confine an absolute name either: `dir` is
      dropped and the name is used as it stands, so the joined path lies
      below `dir` only when the name itself happens to. */
  lemma JoinAbsoluteEscapes(segs: seq<string>, t: seq<string>)
    requires |segs| > 0 && AllOrdinary(segs)
    requires |t| > 0 && AllOrdinary(t)
    ensures Join(Abs(segs), Abs(t)) == Abs(t)
    ensures Location(Join(Abs(segs), Abs(t))) == t
    ensures Within(Abs(segs), Join(Abs(segs), Abs(t))) <==> segs < t
  {
    AbsStartsWithSlash(t);
    LocationAbs(segs);
    LocationAbs(t);
  }

  /** A non-empty absolute path begins with `/`. */
  lemma {:induction false} AbsStartsWithSlash(t: seq<string>)
    requires |t| > 0
    ensures |Abs(t)| > 0 && Abs(t)[0] == '/'
    decreases |t|
  {
    var init := t[..|t| - 1];
    if |init| > 0 {
      AbsStartsWithSlash(init);
    }
  }
}

=== FILE: required.dfy ===
/** The required-document check. The web apps look for each required name
    as a case-insensitive substring of the uploaded paths (app.py,
    api/tender.py); the desktop apps look for a directory entry with exactly
    that name (tkinter/tender.py, tender.py, inst.py). Both report the missing
    names in the order of `REQUIRED_FILES`. */
module Required {
  import opened Text
  import opened Seqs
  import opened Paths

  /** `REQUIRED_FILES`, the same list in every variant. */
  const RequiredFiles: seq<string> := ["Bid Security.jpg", "Cover Letter.pdf", "DRAP.pdf", "Technical Quotation.pdf"]

  /** Every required name is a plain entry name (so joining it to a folder
      stays inside the folder) and names a JPEG or a PDF. */
  lemma RequiredNamesArePlain()
    ensures forall f | f in RequiredFiles :: Ordinary(f) && |f| > 0 && f[0] != '/'
    ensures forall f | f in RequiredFiles :: EndsWith(f, ".jpg") || EndsWith(f, ".pdf")
  {
    forall i | 0 <= i < |RequiredFiles|
      ensures Ordinary(RequiredFiles[i]) && RequiredFiles[i][0] != '/'
      ensures EndsWith(RequiredFiles[i], ".jpg") || EndsWith(RequiredFiles[i], ".pdf")
    {
      RequiredNamePlain(i);
    }
  }

  lemma RequiredNamePlain(i: nat)
    requires i < |RequiredFiles|
    ensures Ordinary(RequiredFiles[i]) && RequiredFiles[i][0] != '/'
    ensures EndsWith(RequiredFiles[i], ".jpg") || EndsWith(RequiredFiles[i], ".pdf")
  {
    if i == 0 {
      assert RequiredFiles[i] == "Bid Security.jpg";
      assert EndsWith("Bid Security.jpg", ".jpg");
    } else if i == 1 {
      assert RequiredFiles[i] == "Cover Letter.pdf";
      assert EndsWith("Cover Letter.pdf", ".pdf");
    } else if i == 2 {
      assert RequiredFiles[i] == "DRAP.pdf";
      assert EndsWith("DRAP.pdf", ".pdf");
    } else {
      assert RequiredFiles[i] == "Technical Quotation.pdf";
      assert EndsWith("Technical Quotation.pdf", ".pdf");
    }
  }

  /** `any(f.lower() in p.lower() for p in paths)`. */
  predicate MatchedBySubstring(f: string, paths: seq<string>)
  {
    exists i | 0 <= i < |paths| :: Contains(Lower(paths[i]), Lower(f))
  }

  /** app.py and api/tender.py: the required names no uploaded path mentions,
      ignoring case, in the order of `required`. */
  function MissingBySubstring(required: seq<string>, paths: seq<string>): (missing: seq<string>)
    ensures forall f :: f in missing <==> f in required && !MatchedBySubstring(f, paths)
    ensures Subsequence(missing, required)
  {
    Filter(required, f => !MatchedBySubstring(f, paths))
  }

  /** The desktop apps: the required names for which `folder/name` does not
      exist on `disk`, in the order of `required`. */
  function MissingInFolder(required: seq<string>, folder: string, disk: set<string>): (missing: seq<string>)
    ensures forall f :: f in missing <==> f in required && Join(folder, f) !in disk
    ensures Subsequence(missing, required)
  {
    Filter(required, f => Join(folder, f) !in disk)
  }

  lemma MissingInFolderHas(required: seq<string>, folder: string, disk: set<string>, f: string)
    requires f in required && Join(folder, f) !in disk
    ensures f in MissingInFolder(required, folder, disk)
  {
  }

  /** A path that ends with a name mentions that name, whatever the case. */
  lemma SuffixMatches(p: string, f: string)
    requires EndsWith(p, f)
    ensures Contains(Lower(p), Lower(f))
  {
    var a := p[..|p| - |f|];
    assert p == a + f;
    LowerConcat(a, f);
    ContainsInside(Lower(a), Lower(f), "");
    assert Lower(a) + Lower(f) + "" == Lower(p);
  }

  /** Uploading a file under a required name satisfies the substring check,
      and so does any name that merely ends with it ("Old DRAP.pdf" counts as
      "DRAP.pdf"): the check is looser than the exact-name check of the
      desktop apps. */
  lemma UploadedNameSatisfies(required: seq<string>, dir: string, names: seq<string>, i: nat, f: string)
    requires i < |names| && EndsWith(names[i], f)
    ensures f !in MissingBySubstring(required, JoinAll(dir, names))
  {
    var paths := JoinAll(dir, names);
    var p := paths[i];
    assert EndsWith(p, names[i]);
    assert EndsWith(p, f);
    SuffixMatches(p, f);
  }

  /** The exact-name check misses a required document that the substring
      check accepts. */
  lemma ExactCheckIsStricter(required: seq<string>, dir: string, f: string)
    requires f in required && Ordinary(f)
    ensures f !in MissingBySubstring(required, JoinAll(dir, ["Old " + f]))
    ensures f in MissingInFolder(required, dir, {Join(dir, "Old " + f)})
  {
    var older := "Old " + f;
    assert EndsWith(older, f) by {
      assert older[|older| - |f|..] == f;
    }
    UploadedNameSatisfies(required, dir, [older], 0, f);
    assert older != f by {
      assert |older| == |f| + 4;
    }
    JoinNames(dir, older, f);
    var disk := {Join(dir, older)};
    assert Join(dir, f) !in disk;
    MissingInFolderHas(required, dir, disk, f);
  }

  /** Joining different names to the same directory gives different paths. */
  lemma JoinNames(dir: string, a: string, b: string)
    requires a != b && |a| > 0 && |b| > 0 && a[0] != '/' && b[0] != '/'
    ensures Join(dir, a) != Join(dir, b)
  {
    var pre := if |dir| == 0 || dir[|dir| - 1] == '/' then dir else dir + "/";
    assert Join(dir, a) == pre + a;
    assert Join(dir, b) == pre + b;
    assert (pre + a)[|pre|..] == a;
    assert (pre + b)[|pre|..] == b;
  }
}

=== FILE: seqs.dfy ===
/** Order-preserving selection over sequences. */
module Seqs {

  /** `a` can be obtained from `b` by deleting elements (order is kept). */
  ghost predicate Subsequence<T>(a: seq<T>, b: seq<T>)
    decreases |b|
  {
    |a| == 0 || (|b| > 0 && ((a[0] == b[0] && Subsequence(a[1..], b[1..])) || Subsequence(a, b[1..])))
  }

  /** The elements of `s` that satisfy `keep`, in their original order
      (a Python list comprehension with an `if`). */
  function Filter<T(!new)>(s: seq<T>, keep: T -> bool): (r: seq<T>)
    ensures forall x :: x in r <==> x in s && keep(x)
    ensures Subsequence(r, s)
    ensures |r| <= |s|
  {
    if |s| == 0 then []
    else if keep(s[0]) then [s[0]] + Filter(s[1..], keep)
    else Filter(s[1..], keep)
  }

  /** Filtering goes element by element: filtering a concatenation
      concatenates the filtered parts. */
  lemma {:induction false} FilterConcat<T(!new)>(a: seq<T>, b: seq<T>, keep: T -> bool)
    ensures Filter(a + b, keep) == Filter(a, keep) + Filter(b, keep)
    decreases |a|
  {
    if |a| > 0 {
      var head := if keep(a[0]) then [a[0]] else [];
      assert (a + b)[0] == a[0];
      assert (a + b)[1..] == a[1..] + b;
      FilterCons(a + b, keep);
      FilterCons(a, keep);
      FilterConcat(a[1..], b, keep);
      ConcatAssoc(head, Filter(a[1..], keep), Filter(b, keep));
    } else {
      assert a + b == b;
    }
  }

  lemma ConcatAssoc<T>(a: seq<T>, b: seq<T>, c: seq<T>)
    ensures a + (b + c) == (a + b) + c
  {
  }

  /** One step of the filter: the head is kept or dropped. */
  lemma FilterCons<T(!new)>(s: seq<T>, keep: T -> bool)
    requires |s| > 0
    ensures Filter(s, keep) == (if keep(s[0]) then [s[0]] else []) + Filter(s[1..], keep)
  {
  }

  /** Every kept value occurs in the result as often as in the input, and
      no other value occurs: duplicates are kept, not merged. */
  lemma {:induction false} FilterCount<T(!new)>(s: seq<T>, keep: T -> bool)
    ensures forall x :: multiset(Filter(s, keep))[x] == if keep(x) then multiset(s)[x] else 0
    decreases |s|
  {
    if |s| > 0 {
      FilterCount(s[1..], keep);
      assert s == [s[0]] + s[1..];
      assert multiset(s) == multiset([s[0]]) + multiset(s[1..]);
    }
  }

  /** The elements of `s`, as a set. */
  function Elems<T(!new)>(s: seq<T>): (r: set<T>)
    ensures forall x :: x in r <==> x in s
  {
    set x | x in s
  }

  /** The longest prefix of `s` whose elements all satisfy `keep` (a loop
      that stops at the first element failing the test). */
  function TakeWhile<T>(s: seq<T>, keep: T -> bool): (r: seq<T>)
    ensures r <= s
    ensures forall i :: 0 <= i < |r| ==> keep(r[i])
    ensures |r| < |s| ==> !keep(s[|r|])
  {
    if |s| == 0 || !keep(s[0]) then []
    else [s[0]] + TakeWhile(s[1..], keep)
  }

  /** That prefix ends exactly at the first element failing the test. */
  lemma TakeWhileUpTo<T>(s: seq<T>, keep: T -> bool, j: nat)
    requires j <= |s|
    requires forall i :: 0 <= i < j ==> keep(s[i])
    requires j < |s| ==> !keep(s[j])
    ensures TakeWhile(s, keep) == s[..j]
  {
  }

  /** One step of an accumulation: `acc` has grown by `head` and the rest
      will add `rest`, so it grows in all by `head + rest`. */
  lemma AppendStep<T>(before: seq<T>, acc: seq<T>, head: seq<T>, rest: seq<T>, all: seq<T>, after: seq<T>)
    requires acc == before + head && after == acc + rest && all == head + rest
    ensures after == before + all
  {
  }
}

=== FILE: text.dfy ===
/** The Python string operations the tender code relies on: `lower()`,
    `strip()`, `in` on strings, `endswith`, and taking the text after the
    last occurrence of a separator (`split(sep)[-1]`, `rsplit(sep, 1)[1]`,
    `os.path.basename`). */
module Text {

  /** ASCII case mapping of one character, as `str.lower()` does for ASCII. */
  function LowerChar(c: char): char
  {
    if 'A' <= c <= 'Z' then (c as int + 32) as char else c
  }

  /** `s.lower()`, restricted to the ASCII letters. */
  function Lower(s: string): (r: string)
    ensures |r| == |s|
    ensures forall i :: 0 <= i < |s| ==> r[i] == LowerChar(s[i])
  {
    if |s| == 0 then "" else [LowerChar(s[0])] + Lower(s[1..])
  }

  lemma {:induction false} LowerConcat(a: string, b: string)
    ensures Lower(a + b) == Lower(a) + Lower(b)
    decreases |a|
  {
    if |a| == 0 {
      assert a + b == b;
    } else {
      assert (a + b)[0] == a[0];
      assert (a + b)[1..] == a[1..] + b;
      LowerConcat(a[1..], b);
    }
  }

  /** Lower-casing leaves the dot alone and produces no new dot. */
  lemma LowerKeepsDot(s: string)
    ensures '.' in Lower(s) <==> '.' in s
  {
    if '.' in s {
      var i :| 0 <= i < |s| && s[i] == '.';
      assert Lower(s)[i] == '.';
    }
    if '.' in Lower(s) {
      var i :| 0 <= i < |s| && Lower(s)[i] == '.';
      assert s[i] == '.';
    }
  }

  /** Python's `str.isspace()` for a single character. */
  predicate IsSpace(c: char)
  {
    var n := c as int;
    n == 32 || 9 <= n <= 13 || 28 <= n <= 31 || n == 0x85 || n == 0xA0 || n == 0x1680
    || 0x2000 <= n <= 0x200A || n == 0x2028 || n == 0x2029 || n == 0x202F
    || n == 0x205F || n == 0x3000
  }

  /** How many whitespace characters `s` starts with. */
  function LeadingSpaces(s: string): (n: nat)
    ensures n <= |s|
    ensures forall k :: 0 <= k < n ==> IsSpace(s[k])
    ensures n < |s| ==> !IsSpace(s[n])
  {
    if |s| == 0 || !IsSpace(s[0]) then 0 else 1 + LeadingSpaces(s[1..])
  }

  /** `s.rstrip()`: the longest prefix of `s` that does not end with whitespace. */
  function TrimEnd(s: string): (r: string)
    ensures |r| <= |s| && r == s[..|r|]
    ensures forall k :: |r| <= k < |s| ==> IsSpace(s[k])
    ensures |r| > 0 ==> !IsSpace(r[|r| - 1])
  {
    if |s| == 0 || !IsSpace(s[|s| - 1]) then s else TrimEnd(s[..|s| - 1])
  }

  /** `s.strip()`: the piece of `s` left after its leading and its trailing
      whitespace, which begins and ends with a non-space character. */
  function Strip(s: string): (r: string)
    ensures var i := LeadingSpaces(s);
      && i + |r| <= |s| && r == s[i..i + |r|]
      && forall k :: i + |r| <= k < |s| ==> IsSpace(s[k])
    ensures |r| > 0 ==> !IsSpace(r[0]) && !IsSpace(r[|r| - 1])
    ensures r == "" <==> forall k :: 0 <= k < |s| ==> IsSpace(s[k])
  {
    var i := LeadingSpaces(s);
    var t := s[i..];
    var r := TrimEnd(t);
    assert r == s[i..i + |r|];
    assert forall k :: i + |r| <= k < |s| ==> s[k] == t[k - i];
    assert |r| > 0 ==> r[0] == s[i];
    r
  }

  /** Python's `needle in hay` for strings. */
  predicate Contains(hay: string, needle: string)
    decreases |hay|
  {
    needle <= hay || (|hay| > 0 && Contains(hay[1..], needle))
  }

  /** A string occurs in any string built around it. */
  lemma {:induction false} ContainsInside(a: string, needle: string, b: string)
    ensures Contains(a + needle + b, needle)
  {
    if |a| == 0 {
      assert a + needle + b == needle + b;
      assert needle <= needle + b;
    } else {
      assert (a + needle + b)[1..] == a[1..] + needle + b;
      ContainsInside(a[1..], needle, b);
    }
  }

  /** Python's `s.endswith(suffix)`. */
  predicate EndsWith(s: string, suffix: string)
  {
    |suffix| <= |s| && s[|s| - |suffix|..] == suffix
  }

  lemma EndsWithConcat(a: string, b: string)
    ensures EndsWith(a + b, b)
  {
    assert (a + b)[|a + b| - |b|..] == b;
  }

  /** A string ends with the last character of each of its suffixes. */
  lemma EndsWithLast(s: string, suffix: string)
    ensures EndsWith(s, suffix) && |suffix| > 0 ==> s[|s| - 1] == suffix[|suffix| - 1]
  {
    if EndsWith(s, suffix) && |suffix| > 0 {
      assert s[|s| - |suffix|..][|suffix| - 1] == s[|s| - 1];
    }
  }

  /** Lowercasing keeps a suffix a suffix. */
  lemma LowerEndsWith(s: string, suffix: string)
    requires EndsWith(s, suffix)
    ensures EndsWith(Lower(s), Lower(suffix))
  {
    var a := s[..|s| - |suffix|];
    assert s == a + suffix;
    LowerConcat(a, suffix);
    assert (Lower(a) + Lower(suffix))[|Lower(a)|..] == Lower(suffix);
  }

  /** The text after the last `c` in `s`, or all of `s` when `c` does not occur:
      `s.split(c)[-1]`, and also `s.rsplit(c, 1)[1]` when `c` occurs. */
  function AfterLast(s: string, c: char): (r: string)
    ensures c !in r
    ensures |r| <= |s| && r == s[|s| - |r|..]
    ensures |r| < |s| ==> s[|s| - |r| - 1] == c
  {
    if |s| == 0 then ""
    else if s[|s| - 1] == c then ""
    else AfterLast(s[..|s| - 1], c) + [s[|s| - 1]]
  }

  /** The three properties of `AfterLast` determine its result. */
  lemma AfterLastUnique(s: string, c: char, r: string)
    requires c !in r
    requires |r| <= |s| && r == s[|s| - |r|..]
    requires |r| < |s| ==> s[|s| - |r| - 1] == c
    ensures r == AfterLast(s, c)
  {
    var q := AfterLast(s, c);
  }

  /** When `c` does not occur, the whole string is the last segment. */
  lemma AfterLastWhole(s: string, c: char)
    requires c !in s
    ensures AfterLast(s, c) == s
  {
    AfterLastUnique(s, c, s);
  }

  /** Lower-casing a suffix gives the same suffix of the lower-cased text. */
  lemma LowerSuffix(s: string, n: nat)
    requires n <= |s|
    ensures Lower(s)[|s| - n..] == Lower(s[|s| - n..])
  {
    var ls := Lower(s);
    var lt := Lower(s[|s| - n..]);
    var t := s[|s| - n..];
    forall k | 0 <= k < n
      ensures ls[|s| - n..][k] == lt[k]
    {
      assert t[k] == s[|s| - n + k];
      assert lt[k] == LowerChar(t[k]);
      assert ls[|s| - n + k] == LowerChar(s[|s| - n + k]);
    }
    assert |ls[|s| - n..]| == |lt|;
  }

  /** Lower-casing neither creates nor removes a dot, position by position. */
  lemma LowerKeepsDots(s: string)
    ensures forall k :: 0 <= k < |s| ==> (Lower(s)[k] == '.' <==> s[k] == '.')
  {
  }

  /** Lower-casing and taking the text after the last dot commute. */
  lemma LowerAfterLastDot(s: string)
    ensures AfterLast(Lower(s), '.') == Lower(AfterLast(s, '.'))
  {
    var a := AfterLast(s, '.');
    var r := Lower(a);
    var ls := Lower(s);
    LowerKeepsDots(a);
    LowerKeepsDots(s);
    assert '.' !in r;
    LowerSuffix(s, |a|);
    assert ls[|ls| - |r|..] == r;
    AfterLastUnique(ls, '.', r);
  }

  /** `s` ends with `c` followed by `e` (`e` free of `c`) exactly when `c`
      occurs in `s` and `e` is the text after its last occurrence. */
  lemma SuffixAfterLast(s: string, c: char, e: string)
    requires c !in e
    ensures EndsWith(s, [c] + e) <==> (c in s && AfterLast(s, c) == e)
  {
    if EndsWith(s, [c] + e) {
      assert s[|s| - |e| - 1] == c;
      assert s[|s| - |e|..] == e;
      AfterLastUnique(s, c, e);
    }
    if c in s && AfterLast(s, c) == e {
      assert s[|s| - |e| - 1..] == [c] + e;
    }
  }

  /** `sep.join(parts)`. */
  function JoinWith(sep: string, parts: seq<string>): string
  {
    if |parts| == 0 then ""
    else if |parts| == 1 then parts[0]
    else parts[0] + sep + JoinWith(sep, parts[1..])
  }
}

=== FILE: wizard.dfy ===
/** The four-step desktop wizard of tkinter/tender.py; tender.py has the
    same handlers line for line, only the widgets differ. The state is the
    three paths the handlers fill in and whether each step's button is
    enabled. Dialog answers, the working directory, directory listings and
    whether a copy or `makedirs` succeeds are parameters; the disk is the
    set of paths that exist. */
module TenderWizard {
  import opened Wrappers
  import opened Seqs
  import opened Text
  import opened Paths
  import opened Required
  import opened Assembly
  import opened Desktop

  datatype Wizard = Wizard(
    newFolder: Option<string>,
    master: Option<string>,
    lotFolder: Option<string>,
    masterButton: bool,
    lotButton: bool,
    generateButton: bool)

  /** After `__init__`: nothing chosen, every step button disabled. */
  const Start := Wizard(None, None, None, false, false, false)

  /** After a handler: the state, the disk and the message box, if any. */
  datatype Screen = Screen(w: Wizard, disk: set<string>, notice: Option<Notice>)

  /** A chosen path is never empty, and each enabled button has what its
      handler needs: the master button a folder, the lot button a master,
      the generate button a master and a lot folder; a master is only chosen
      once there is a folder. */
  predicate Good(w: Wizard)
  {
    && (w.newFolder.Some? ==> w.newFolder.value != "")
    && (w.master.Some? ==> w.master.value != "")
    && (w.lotFolder.Some? ==> w.lotFolder.value != "")
    && (w.masterButton ==> w.newFolder.Some?)
    && (w.lotButton ==> w.master.Some?)
    && (w.generateButton ==> w.master.Some? && w.lotFolder.Some?)
    && (w.master.Some? ==> w.newFolder.Some?)
  }

  /** A dialog answer Python treats as given: not cancelled, not empty. */
  predicate Given(answer: Option<string>)
  {
    answer.Some? && answer.value != ""
  }

  /** `create_folder`: the name typed in the dialog, stripped, becomes a new
      folder under the working directory. */
  function CreateFolder(w: Wizard, disk: set<string>, cwd: string, answer: Option<string>, mkdirOk: bool): Screen
  {
    if answer.None? || Strip(answer.value) == "" then Screen(w, disk, Some(Error("Input Error", [])))
    else
      var path := Join(cwd, Strip(answer.value));
      if path in disk then Screen(w, disk, Some(Error("Folder Error", [])))
      else if !mkdirOk then Screen(w, disk, Some(Error("Folder Creation Error", [])))
      else Screen(w.(newFolder := Some(path), masterButton := true), disk + {path}, Some(Info("Success")))
  }

  /** The folder is created exactly when the stripped name is not blank, the
      path does not exist yet and `makedirs` succeeds; then the folder is
      chosen and the master button, and nothing else, is enabled. Otherwise
      nothing changes. */
  lemma CreateFolderSpec(w: Wizard, disk: set<string>, cwd: string, answer: Option<string>, mkdirOk: bool)
    ensures var s := CreateFolder(w, disk, cwd, answer, mkdirOk);
      var ok := answer.Some? && Strip(answer.value) != "" && Join(cwd, Strip(answer.value)) !in disk && mkdirOk;
      && (ok ==> s.w == w.(newFolder := Some(Join(cwd, Strip(answer.value))), masterButton := true)
                 && s.disk == disk + {Join(cwd, Strip(answer.value))} && s.notice == Some(Info("Success")))
      && (!ok ==> s.w == w && s.disk == disk && s.notice.Some? && s.notice.value.Error?)
  {
  }

  /** A blank or whitespace-only name is refused. */
  lemma BlankNameRefused(w: Wizard, disk: set<string>, cwd: string, name: string, mkdirOk: bool)
    requires forall i :: 0 <= i < |name| ==> IsSpace(name[i])
    ensures CreateFolder(w, disk, cwd, Some(name), mkdirOk) == Screen(w, disk, Some(Error("Input Error", [])))
  {
  }

  /** `check_master_file_in_folder`'s test: the name mentions `master` and
      ends with `.pdf`, ignoring case. */
  predicate IsMasterName(name: string)
  {
    Contains(Lower(name), "master") && EndsWith(Lower(name), ".pdf")
  }

  /** `check_master_file_in_folder`: the first listed name that passes the
      test. */
  function FindMaster(names: seq<string>): Option<string>
  {
    if |names| == 0 then None
    else if IsMasterName(names[0]) then Some(names[0])
    else FindMaster(names[1..])
  }

  /** A master is found exactly when some listed name passes the test, and
      it is the first such name in the listing. */
  lemma {:induction false} FindMasterSpec(names: seq<string>)
    ensures FindMaster(names).Some? <==> exists i :: 0 <= i < |names| && IsMasterName(names[i])
    ensures FindMaster(names).Some? ==>
      exists j :: 0 <= j < |names| && names[j] == FindMaster(names).value && IsMasterName(names[j])
        && forall i :: 0 <= i < j ==> !IsMasterName(names[i])
  {
    if |names| > 0 && !IsMasterName(names[0]) {
      FindMasterSpec(names[1..]);
      assert forall i :: 1 <= i < |names| ==> names[i] == names[1..][i - 1];
      if FindMaster(names).Some? {
        var j :| 0 <= j < |names[1..]| && names[1..][j] == FindMaster(names).value && IsMasterName(names[1..][j])
          && forall i :: 0 <= i < j ==> !IsMasterName(names[1..][i]);
        assert names[j + 1] == names[1..][j];
        assert forall i :: 1 <= i < j + 1 ==> names[i] == names[1..][i - 1];
      }
    }
  }

  /** `select_existing_folder`: the chosen folder becomes the new folder;
      if its listing holds a master, that master is chosen and the lot
      button enabled. */
  function SelectExistingFolder(w: Wizard, disk: set<string>, chosen: Option<string>, listing: seq<string>): Screen
  {
    if !Given(chosen) then Screen(w, disk, None)
    else
      var folder := chosen.value;
      var w1 := w.(newFolder := Some(folder));
      match FindMaster(listing)
      case Some(n) => Screen(w1.(master := Some(Join(folder, n)), lotButton := true), disk, Some(Info("Success")))
      case None => Screen(w1, disk, Some(Error("Missing Master File", [])))
  }

  /** Once a folder is chosen it becomes the new folder whether or not it
      holds a master; the lot button is enabled exactly when a master file
      is listed, and the first one becomes the master. */
  lemma SelectExistingFolderSpec(w: Wizard, disk: set<string>, folder: string, listing: seq<string>)
    requires folder != ""
    ensures var s := SelectExistingFolder(w, disk, Some(folder), listing);
      && s.w.newFolder == Some(folder)
      && (s.w.lotButton <==> w.lotButton || exists i :: 0 <= i < |listing| && IsMasterName(listing[i]))
      && (FindMaster(listing).Some? ==> s.w.master == Some(Join(folder, FindMaster(listing).value)))
      && (FindMaster(listing).None? ==> s.w.master == w.master && s.notice == Some(Error("Missing Master File", [])))
  {
    FindMasterSpec(listing);
  }

  /** `upload_master_file`: the chosen PDF is copied into the new folder and
      the copy becomes the master. */
  function UploadMaster(w: Wizard, disk: set<string>, chosen: Option<string>, copyOk: bool): Screen
  {
    if w.newFolder.None? then Screen(w, disk, Some(Error("Folder Error", [])))
    else if !Given(chosen) then Screen(w, disk, None)
    else
      var dest := Join(w.newFolder.value, Basename(chosen.value));
      if !copyOk then Screen(w, disk, Some(Error("Upload Error", [])))
      else Screen(w.(master := Some(dest), lotButton := true), disk + {dest}, Some(Info("Success")))
  }

  /** The master is set, to the copy inside the new folder, exactly when
      there is a folder, a file was chosen and the copy succeeded; a failed
      copy changes nothing. */
  lemma UploadMasterSpec(w: Wizard, disk: set<string>, chosen: Option<string>, copyOk: bool)
    ensures var s := UploadMaster(w, disk, chosen, copyOk);
      var ok := w.newFolder.Some? && Given(chosen) && copyOk;
      && (ok ==> s.w.master == Some(Join(w.newFolder.value, Basename(chosen.value))) && s.w.lotButton
                 && s.disk == disk + {Join(w.newFolder.value, Basename(chosen.value))})
      && (!ok ==> s.w == w && s.disk == disk)
      && (w.newFolder.None? ==> s.notice == Some(Error("Folder Error", [])))
  {
  }

  /** `upload_lot_folder`: the chosen folder becomes the lot folder and is
      checked for the required documents. */
  function UploadLotFolder(w: Wizard, disk: set<string>, chosen: Option<string>): Screen
  {
    if w.master.None? then Screen(w, disk, Some(Error("Missing File", [])))
    else if !Given(chosen) then Screen(w, disk, None)
    else
      var folder := chosen.value;
      var w1 := w.(lotFolder := Some(folder));
      var missing := MissingInFolder(RequiredFiles, folder, disk);
      if missing != [] then Screen(w1, disk, Some(Error("Missing Files", missing)))
      else Screen(w1.(generateButton := true), disk, Some(Info("Success")))
  }

  /** Once a lot folder is chosen it is kept even when documents are
      missing; the box lists exactly the required names absent from it, in
      list order, and the generate button is enabled only when none is. */
  lemma UploadLotFolderSpec(w: Wizard, disk: set<string>, folder: string)
    requires w.master.Some? && folder != ""
    ensures var s := UploadLotFolder(w, disk, Some(folder));
      var missing := MissingInFolder(RequiredFiles, folder, disk);
      && s.w.lotFolder == Some(folder)
      && (missing != [] ==> s.notice == Some(Error("Missing Files", missing)) && s.w.generateButton == w.generateButton)
      && (missing == [] ==> s.notice == Some(Info("Success")) && s.w.generateButton)
      && (forall f :: f in RequiredFiles && Join(folder, f) !in disk <==> f in missing)
  {
  }

  /** `generate_tender`: nothing without all three paths, otherwise the
      shared generation with this variant's error titles. */
  function Generate(w: Wizard, disk: set<string>, conv: Converters): Generated
  {
    if w.newFolder.None? || w.master.None? || w.lotFolder.None? then Generated(disk, Error("Missing Input", []), None)
    else Produce(conv, disk, w.newFolder.value, w.master.value, w.lotFolder.value, "Generation Error", "Invalid File")
  }

  /** Without all three paths nothing is written; with them, a tender goes
      to `Tender_<lot folder>.pdf` in the new folder exactly when every
      required document is present and everything can be read, next to the
      temporary PDFs of the images it converted, and it holds the master
      followed by the required documents in list order, less any image that
      could not be converted. */
  lemma GenerateSpec(w: Wizard, disk: set<string>, conv: Converters)
    ensures var g := Generate(w, disk, conv);
      (w.newFolder.None? || w.master.None? || w.lotFolder.None?) ==> g == Generated(disk, Error("Missing Input", []), None)
    ensures var g := Generate(w, disk, conv);
      g.tender.Some? ==>
        && w.newFolder.Some? && w.master.Some? && w.lotFolder.Some?
        && MissingInFolder(RequiredFiles, w.lotFolder.value, disk) == []
        && g.tender.value.path == TenderPath(w.newFolder.value, w.lotFolder.value)
        && g.disk == disk + Elems(Intermediates(g.tender.value.merged)) + {TenderPath(w.newFolder.value, w.lotFolder.value)}
        && Sources(g.tender.value.merged) == [w.master.value] + Survivors(conv, JoinAll(w.lotFolder.value, RequiredFiles))
    ensures var g := Generate(w, disk, conv);
      g.tender.Some? <==>
        && w.newFolder.Some? && w.master.Some? && w.lotFolder.Some?
        && MissingInFolder(RequiredFiles, w.lotFolder.value, disk) == []
        && conv.readable(w.master.value)
        && forall i :: 0 <= i < |RequiredFiles| ==> Takes(conv, JoinAll(w.lotFolder.value, RequiredFiles)[i])
    ensures Generate(w, disk, conv).notice.title != "Invalid File"
  {
    if w.newFolder.Some? && w.master.Some? && w.lotFolder.Some? {
      ProduceWrites(conv, disk, w.newFolder.value, w.master.value, w.lotFolder.value, "Generation Error", "Invalid File");
      ProduceNeverUnsupported(conv, disk, w.newFolder.value, w.master.value, w.lotFolder.value, "Generation Error", "Invalid File");
    }
  }

  lemma StartGood()
    ensures Good(Start)
  {
  }

  /** Every handler keeps the state good. */
  lemma CreateFolderKeepsGood(w: Wizard, disk: set<string>, cwd: string, answer: Option<string>, mkdirOk: bool)
    requires Good(w)
    ensures Good(CreateFolder(w, disk, cwd, answer, mkdirOk).w)
  {
    CreateFolderSpec(w, disk, cwd, answer, mkdirOk);
    if answer.Some? && Strip(answer.value) != "" {
      JoinNonEmpty(cwd, Strip(answer.value));
    }
  }

  lemma SelectExistingFolderKeepsGood(w: Wizard, disk: set<string>, chosen: Option<string>, listing: seq<string>)
    requires Good(w)
    ensures Good(SelectExistingFolder(w, disk, chosen, listing).w)
  {
    if Given(chosen) && FindMaster(listing).Some? {
      var n := FindMaster(listing).value;
      FindMasterSpec(listing);
      assert IsMasterName(n);
      assert |Lower(n)| == |n|;
      JoinNonEmpty(chosen.value, n);
    }
  }

  lemma UploadMasterKeepsGood(w: Wizard, disk: set<string>, chosen: Option<string>, copyOk: bool)
    requires Good(w)
    ensures Good(UploadMaster(w, disk, chosen, copyOk).w)
  {
    if w.newFolder.Some? && Given(chosen) && copyOk {
      JoinSpec(w.newFolder.value, Basename(chosen.value));
      assert w.newFolder.value <= Join(w.newFolder.value, Basename(chosen.value));
    }
  }

  lemma UploadLotFolderKeepsGood(w: Wizard, disk: set<string>, chosen: Option<string>)
    requires Good(w)
    ensures Good(UploadLotFolder(w, disk, chosen).w)
  {
  }

  /** In a good state an enabled generate button means generation gets past
      its guard. */
  lemma EnabledGeneratePassesGuard(w: Wizard, disk: set<string>, conv: Converters)
    requires Good(w) && w.generateButton
    ensures Generate(w, disk, conv).notice.title != "Missing Input"
  {
    ProduceTitles(conv, disk, w.newFolder.value, w.master.value, w.lotFolder.value, "Generation Error", "Invalid File");
  }
}

=== FILE: workspace.dfy ===
/** Reclaiming the files of one request in Flask/api/tender.py: the
    best-effort removal of the converted intermediate PDFs after the merged
    file is written, and `cleanup_temp_dir`, which empties and removes the
    per-request directory. A directory is a set of paths; whether `unlink`
    succeeds on a path is a parameter. Neither routine raises: every failure
    is logged (returned) and the loop goes on. */
module Workspace {

  /** The state after removing the intermediates, and the paths whose removal
      failed (each logged), in order. */
  datatype Swept = Swept(fs: set<string>, errors: seq<string>)

  /** For every tracked temporary PDF that still exists, try `os.unlink`;
      a failure is logged and the loop continues. */
  function CleanIntermediates(tracked: seq<string>, fs: set<string>, unlinkOk: string -> bool): (r: Swept)
    ensures forall p :: p in r.fs <==> p in fs && !(p in tracked && unlinkOk(p))
    ensures forall p :: p in r.errors <==> p in tracked && p in fs && !unlinkOk(p)
    ensures |r.errors| <= |tracked|
  {
    if |tracked| == 0 then Swept(fs, [])
    else
      var t := tracked[0];
      if t !in fs then CleanIntermediates(tracked[1..], fs, unlinkOk)
      else if unlinkOk(t) then CleanIntermediates(tracked[1..], fs - {t}, unlinkOk)
      else
        var rest := CleanIntermediates(tracked[1..], fs, unlinkOk);
        Swept(rest.fs, [t] + rest.errors)
  }

  /** `cleanup_temp_dir`: try to unlink every entry of the directory (in the
      order `glob` lists them), logging each failure, then remove the
      directory, which succeeds only once it is empty. Returns the entries
      left behind, the failures logged, and whether the directory is gone. */
  method CleanupTempDir(entries: seq<string>, unlinkOk: string -> bool, rmdirOk: bool)
    returns (remaining: set<string>, failed: seq<string>, dirRemoved: bool)
    ensures remaining == set e | e in entries && !unlinkOk(e)
    ensures forall e :: e in failed <==> e in entries && !unlinkOk(e)
    ensures |failed| <= |entries|
    ensures dirRemoved <==> remaining == {} && rmdirOk
  {
    remaining := {};
    failed := [];
    var i := 0;
    while i < |entries|
      invariant 0 <= i <= |entries|
      invariant remaining == set e | e in entries[..i] && !unlinkOk(e)
      invariant forall e :: e in failed <==> e in entries[..i] && !unlinkOk(e)
      invariant |failed| <= i
    {
      var e := entries[i];
      assert entries[..i + 1] == entries[..i] + [e];
      if !unlinkOk(e) {
        remaining := remaining + {e};
        failed := failed + [e];
      }
      i := i + 1;
    }
    assert entries[..i] == entries;
    dirRemoved := remaining == {} && rmdirOk;
  }
}

=== FILE: wrappers.dfy ===
/** Optional values and success-or-error results, used wherever the Python
    code returns `None` or raises. */
module Wrappers {

  /** A value that may be absent (Python's `None`). */
  datatype Option<+T> = None | Some(value: T)

  /** The outcome of a step that either produces a value or stops with an error. */
  datatype Result<+T, +E> = Ok(value: T) | Err(error: E)
}
